=== FILE: README.md ===
# Player overlay: controller, player view and styled text

A Dafny model of the core of the player UI library of this ExoPlayer fork:

- **The playback controller** (`PlayerControlView`). It flattens the player's timeline of windows, periods and ad groups into one seek bar: the mode, the current window's offset, the duration and the ad markers. It collects the markers into two growing parallel arrays. It schedules the progress refresh at a delay bounded by `[minimum interval, 1000]` ms. It runs the auto-hide timer across attach and detach, guards against overlapping fades, and arbitrates seeks: the seek-preview veto, the start-over floor, seek-bar remapping, offsets, previous/next and the media keys. The controller is a class whose methods update its fields in place. Posted callbacks are a `pending` map from callback to delay. Calls into collaborators are appended to an `effects` log. The clock is a `now` parameter.
- **The player view** (`PlayerView`). It decides when the hosted controller is shown, shown indefinitely or hidden. It decides when the buffering spinner is visible and turns touches into clicks. It hands a player's video surface from one view to another. It is a class that owns its controller. The player's video component is a shared `VideoCalls` log of surface set/clear calls.
- **The styled-text helpers** (`SpannableUtilities`). `twoTone` colours a text in two tones split at the first occurrence of a separator. The two `url` overloads make the first occurrence of a phrase a link or a clickable span. These are pure functions over strings and spans.

Module layout:

| file | module | models |
|---|---|---|
| `common.dfy` | `Common` | the optional value, the time sentinel, `constrainValue`, `usToMs`, Java's `%` and `(long)` cast |
| `media.dfy` | `Media` | timeline, window, period, ad group, player snapshot |
| `flattening.dfy` | `Flattening` | reference definition of the seek bar's flattening and its markers |
| `marker_arrays.dfy` | `MarkerArrays` | the in-place marker loops of `updateTimeline` on arrays |
| `seeking.dfy` | `Seeking` | seek arbitration and the targets of the transport actions |
| `progress.dfy` | `Progress` | the delay computation at the end of `updateProgress` |
| `control_view.dfy` | `ControlView` | the `PlayerControlView` class |
| `player_view.dfy` | `Players` | the `PlayerView` class and `switchTargetView` |
| `spannable.dfy` | `Spans` | `twoTone` and both `url` overloads |

Sources are cited relative to `library/ui/src/main/java/com/google/android/exoplayer2/ui/`. In the table below they appear in full.

## Model

| member | source | states |
|---|---|---|
| Common.Clamp | library/ui/src/main/java/com/google/android/exoplayer2/ui/PlayerControlView.java:887-891 | constrainValue: for lo <= hi the result lies in [lo, hi]; it is the value itself inside the range, lo below it and hi above it |
| Common.UsToMs | library/ui/src/main/java/com/google/android/exoplayer2/ui/PlayerControlView.java:1184 | usToMs rounds down: ms*1000 <= us < ms*1000 + 1000 |
| Common.JavaRem | library/ui/src/main/java/com/google/android/exoplayer2/ui/PlayerControlView.java:1256 | Java's `position % 1000`: in [0, b) for a non-negative dividend and in (-b, 0] for a negative one, agreeing with the Euclidean remainder on non-negative input |
| Common.Truncate | library/ui/src/main/java/com/google/android/exoplayer2/ui/PlayerControlView.java:1260-1261 | the `(long)` cast truncates toward zero: within 1 below a non-negative value, within 1 above a negative one |
| Media.WindowDurationMs | library/ui/src/main/java/com/google/android/exoplayer2/ui/PlayerControlView.java:1354 | a window's getDurationMs never exceeds its duration in microseconds divided by 1000 |
| Flattening.CanShowMultiWindowTimeBar | library/ui/src/main/java/com/google/android/exoplayer2/ui/PlayerControlView.java:1539-1551 | the scan answers true exactly when there are at most 100 windows and every window's duration is known |
| Flattening.KnownCount | library/ui/src/main/java/com/google/android/exoplayer2/ui/PlayerControlView.java:1151-1155 | the number of windows the loop sums: all of them have known durations, and the window right after them, if any, has an unknown one |
| Flattening.AdGroupTimeInPeriodUs | library/ui/src/main/java/com/google/android/exoplayer2/ui/PlayerControlView.java:1161-1167 | an ad group's time is its own time; a postroll takes the period duration; a postroll in a period of unknown duration has no time (it is skipped) |
| Flattening.AdMarker | library/ui/src/main/java/com/google/android/exoplayer2/ui/PlayerControlView.java:1161-1177 | a marker exists exactly when the in-window time lies in [0, window duration]; it sits at usToMs(offset + in-window time) with the group's played flag, inside the window's span of the bar |
| Flattening.PeriodMarkers | library/ui/src/main/java/com/google/android/exoplayer2/ui/PlayerControlView.java:1159-1178 | a period contributes at most one marker per ad group |
| Flattening.PeriodMarkersInWindow | library/ui/src/main/java/com/google/android/exoplayer2/ui/PlayerControlView.java:1168-1175 | every marker of a period lies in [0, usToMs(offset + window duration)] |
| Flattening.PeriodsMarkersInWindow | library/ui/src/main/java/com/google/android/exoplayer2/ui/PlayerControlView.java:1156-1179 | every marker of a window's periods lies within that window's span of the bar |
| Flattening.WindowsMarkersInBar | library/ui/src/main/java/com/google/android/exoplayer2/ui/PlayerControlView.java:1143-1183 | every marker of consecutive windows lies in [0, usToMs(sum of their durations)] |
| Flattening.IncludedWindows | library/ui/src/main/java/com/google/android/exoplayer2/ui/PlayerControlView.java:1144-1146 | the bar covers the whole timeline in multi-window mode and only the current window otherwise |
| Flattening.FlattenMultiWindow | library/ui/src/main/java/com/google/android/exoplayer2/ui/PlayerControlView.java:1138-1184 | in multi-window mode no window stops the loop (the state check holds), the duration is the sum of all windows, the current window's offset is the sum of the windows before it, and the current window ends within the bar |
| Flattening.FlattenSingleWindow | library/ui/src/main/java/com/google/android/exoplayer2/ui/PlayerControlView.java:1138-1184 | in single-window mode the offset is 0 and the duration is the current window's; a window of unknown duration gives duration 0 and no markers |
| Flattening.FlattenMarkersInBar | library/ui/src/main/java/com/google/android/exoplayer2/ui/PlayerControlView.java:1168-1184 | every discovered marker lies in [0, duration of the bar in ms] |
| MarkerArrays.CopyOf | library/ui/src/main/java/com/google/android/exoplayer2/ui/PlayerControlView.java:1170-1171 | Arrays.copyOf: a fresh array of the new length holding the old elements first and the default value after them |
| MarkerArrays.Append | library/ui/src/main/java/com/google/android/exoplayer2/ui/PlayerControlView.java:1169-1176 | full arrays are replaced by copies of length 1 (from empty) or twice the length; the arrays stay parallel, earlier slots keep their values and the new marker lands at slot `count` |
| MarkerArrays.CollectAdGroup | library/ui/src/main/java/com/google/android/exoplayer2/ui/PlayerControlView.java:1159-1177 | one ad group appends exactly its AdMarker, if any, to the markers the arrays hold |
| MarkerArrays.CollectPeriod | library/ui/src/main/java/com/google/android/exoplayer2/ui/PlayerControlView.java:1158-1178 | the ad-group loop appends exactly PeriodMarkers of the period; the arrays never shrink and are either the same or fresh |
| MarkerArrays.CollectWindow | library/ui/src/main/java/com/google/android/exoplayer2/ui/PlayerControlView.java:1156-1179 | the period loop appends exactly the markers of the window's periods, shifted by the window's offset |
| MarkerArrays.AppendExtras | library/ui/src/main/java/com/google/android/exoplayer2/ui/PlayerControlView.java:1192-1202 | the extra markers are copied in order after the discovered ones, the held count is adGroupCount + extra length, and the array length is max(old length, total) |
| MarkerArrays.Grow | library/ui/src/main/java/com/google/android/exoplayer2/ui/PlayerControlView.java:1196-1199 | copies at exactly the total length keep every held marker |
| MarkerArrays.Extras | library/ui/src/main/java/com/google/android/exoplayer2/ui/PlayerControlView.java:1200-1201 | the extra arrays become markers pairing the k-th position with the k-th played flag |
| Seeking.RemapFrom | library/ui/src/main/java/com/google/android/exoplayer2/ui/PlayerControlView.java:1350-1366 | remapping names a window inside the timeline; the position is below that window's duration except on the last window, where it is at most that duration; a non-negative bar position stays non-negative |
| Seeking.RemapTimeBarPosition | library/ui/src/main/java/com/google/android/exoplayer2/ui/PlayerControlView.java:1350-1366 | the while loop computes RemapFrom from window 0, so its window lies in the timeline and its position within that window |
| Seeking.RemapInvertsFlattening | library/ui/src/main/java/com/google/android/exoplayer2/ui/PlayerControlView.java:1350-1366 | remapping inverts flattening: the bar position of a point inside window i (durations before it plus the position) maps back to window i and that position |
| Seeking.RemapFromSuffix | library/ui/src/main/java/com/google/android/exoplayer2/ui/PlayerControlView.java:1350-1366 | the same inversion when the walk starts at any window k <= i |
| Seeking.ArbitrateSeek | library/ui/src/main/java/com/google/android/exoplayer2/ui/PlayerControlView.java:1381-1400 | seekTo as evidently intended (the controller itself uses the as-written version): a declined forward seek is blocked exactly on a non-live window and becomes "unset" on a live one; an unset target is dispatched unchanged; without start-over rights a known position in a live window is raised to the start-over position; the requested window is kept |
| Seeking.ArbitrateSeekAsWritten | library/ui/src/main/java/com/google/android/exoplayer2/ui/PlayerControlView.java:1384-1397 | seekTo as written, on long values: blocked exactly when the veto fires on a non-live window; without start-over rights in a live window every dispatched position, the sentinel included, is at least the start-over position; an undeclined known position is dispatched, raised to the start-over position in a live window without rights; a declined forward seek in a live window goes to the start-over position when the floor is active and to the live edge otherwise |
| Seeking.ArbitrationAgreesOffTheUnsetPath | library/ui/src/main/java/com/google/android/exoplayer2/ui/PlayerControlView.java:1384-1397 | both versions agree whenever the floor is off or the request is a known position that is not declined |
| Seeking.DeclinedLiveSeekLandsOnStartOver | library/ui/src/main/java/com/google/android/exoplayer2/ui/PlayerControlView.java:1384-1397 | for every current position, preview, start-over position, window and declined request: as written, a declined forward seek in a live window without rights goes to the start-over position; the corrected version goes to the live edge |
| Seeking.DeclinedLiveSeekExample | library/ui/src/main/java/com/google/android/exoplayer2/ui/PlayerControlView.java:1384-1397 | the same for one input: current 1000, request 5000 declined, start-over 0 |
| Seeking.UnsetTargetRaisedToStartOver | library/ui/src/main/java/com/google/android/exoplayer2/ui/PlayerControlView.java:1393-1397 | as written, every unset target in a live window without rights is replaced by the start-over position; the corrected version keeps it unset; only the uncalled previous()/next() request unset targets |
| Seeking.SeekToOffsetPosition | library/ui/src/main/java/com/google/android/exoplayer2/ui/PlayerControlView.java:1337-1344 | the offset position is >= 0 and <= the duration when known; it is the moved position when that lies in range, 0 below it and the duration above it |
| Seeking.PreviousTarget | library/ui/src/main/java/com/google/android/exoplayer2/ui/PlayerControlView.java:1287-1302 | nothing exactly on an empty timeline or during an ad; a target is either an existing previous window's default position or position 0 of the current window; with a previous window it goes back within the first 3000 ms and on a live unseekable window; past 3000 ms in a seekable or non-live window, or with no previous window, it restarts the current one |
| Seeking.NextTarget | library/ui/src/main/java/com/google/android/exoplayer2/ui/PlayerControlView.java:1304-1316 | a target exists exactly when the timeline is non-empty, no ad plays, and there is a next window or the current one is live; the target is always "unset", in the next window if any, else the current one |
| Progress.ConstrainMinUpdateInterval | library/ui/src/main/java/com/google/android/exoplayer2/ui/PlayerControlView.java:887-891 | the minimum interval lies in [16, 1000]; it is the request itself inside that range and the nearer bound outside it |
| Progress.MediaTimeDelayMs | library/ui/src/main/java/com/google/android/exoplayer2/ui/PlayerControlView.java:1250-1256 | the media-time delay is at most 1000 - position % 1000 and at most the preferred delay (1000 without a seek bar), and equals one of them |
| Progress.RealTimeDelayMs | library/ui/src/main/java/com/google/android/exoplayer2/ui/PlayerControlView.java:1258-1261 | 1000 at a non-positive speed; at a positive speed the truncated delay d satisfies d*speed <= media delay < (d+1)*speed |
| Progress.ProgressDelayMs | library/ui/src/main/java/com/google/android/exoplayer2/ui/PlayerControlView.java:1248-1268 | a playing player gets the clamped real-time delay; a non-playing player that is neither ended nor idle gets exactly 1000; no player, or an ended or idle one, gets nothing |
| Progress.ProgressDelayBounded | library/ui/src/main/java/com/google/android/exoplayer2/ui/PlayerControlView.java:1248-1268 | every posted refresh delay lies in [minUpdateIntervalMs, 1000] |
| Progress.ProgressRefreshKeepsSecondBoundary | library/ui/src/main/java/com/google/android/exoplayer2/ui/PlayerControlView.java:1250-1265 | while playing forward, unless the minimum interval forced the delay up, the media time played before the refresh is at most the time to the next whole second |
| Progress.ProgressDelayAtDoubleSpeed | library/ui/src/main/java/com/google/android/exoplayer2/ui/PlayerControlView.java:1250-1265 | position 0, preferred delay 500, speed 2.0 and minimum 200 give a 250 ms refresh |
| ControlView.IsHandledMediaKey | library/ui/src/main/java/com/google/android/exoplayer2/ui/PlayerControlView.java:1522-1531 | exactly the seven media keys (play/pause, play, pause, next, previous, rewind, fast-forward) are handled |
| ControlView.SeekEffects | library/ui/src/main/java/com/google/android/exoplayer2/ui/PlayerControlView.java:1384-1399 | a blocked seek notifies onBlockedSeeking once; a dispatched one hands its target to the dispatcher once |
| ControlView.TimeBarTarget | library/ui/src/main/java/com/google/android/exoplayer2/ui/PlayerControlView.java:1347-1367 | a bar position is remapped over the timeline in multi-window mode and otherwise kept as the position in the current window |
| ControlView.TimeBarSeekTarget | library/ui/src/main/java/com/google/android/exoplayer2/ui/PlayerControlView.java:1347-1367 | seekToTimeBarPosition's choice of window and position is TimeBarTarget |
| ControlView.CollectKnownWindow | library/ui/src/main/java/com/google/android/exoplayer2/ui/PlayerControlView.java:1156-1182 | a window of known duration adds its duration to the sum and its shifted markers to the arrays |
| ControlView.VisitWindow | library/ui/src/main/java/com/google/android/exoplayer2/ui/PlayerControlView.java:1147-1182 | one pass of the window loop records the current window's offset as usToMs of the durations before it, stops exactly at a window of unknown duration, and otherwise extends the sum and the markers by that window |
| ControlView.CollectWindows | library/ui/src/main/java/com/google/android/exoplayer2/ui/PlayerControlView.java:1143-1183 | the window loop sums exactly the windows before the first one of unknown duration, holds exactly their markers, and records the current window's offset as usToMs of the durations before it |
| ControlView.CollectTimeline | library/ui/src/main/java/com/google/android/exoplayer2/ui/PlayerControlView.java:1138-1183 | the loop's duration, offset and held markers are exactly those of Flatten(timeline, current window) |
| ControlView.PlayerControlView.constructor | library/ui/src/main/java/com/google/android/exoplayer2/ui/PlayerControlView.java:511-541 | defaults 30000/30000/3000/200 unless attributes are given (the interval then constrained to [16, 1000]); no player, no deadline, nothing posted, empty markers, mini content hidden |
| ControlView.PlayerControlView.UpdateProgress | library/ui/src/main/java/com/google/android/exoplayer2/ui/PlayerControlView.java:1211-1269 | hidden or detached: nothing; otherwise the pending refresh is replaced by one at ProgressDelayMs, or removed when none is due; timers stay bounded |
| ControlView.PlayerControlView.PublishTimeline | library/ui/src/main/java/com/google/android/exoplayer2/ui/PlayerControlView.java:1134-1203 | the bar shows Flatten of the player's timeline (mode, offset, duration, discovered then extra markers); the count handed over is discovered + extra; without a seek bar its duration and markers keep their old values |
| ControlView.PlayerControlView.PublishToTimeBar | library/ui/src/main/java/com/google/android/exoplayer2/ui/PlayerControlView.java:1192-1203 | the bar gets usToMs(duration), and the arrays hold the discovered markers followed by the extra ones, with count adGroupCount + extra length |
| ControlView.PlayerControlView.UpdateTimeline | library/ui/src/main/java/com/google/android/exoplayer2/ui/PlayerControlView.java:1134-1205 | without a player nothing changes; with one the bar shows its flattened timeline and the progress is rescheduled; the controller stays valid |
| ControlView.PlayerControlView.UpdateAll | library/ui/src/main/java/com/google/android/exoplayer2/ui/PlayerControlView.java:1019-1023 | the timeline refresh runs and the progress is rescheduled when there is a player |
| ControlView.PlayerControlView.SetTimeBarMinUpdateInterval | library/ui/src/main/java/com/google/android/exoplayer2/ui/PlayerControlView.java:887-891 | the stored interval is the request constrained to [16, 1000] |
| ControlView.PlayerControlView.SetExtraAdGroupMarkers | library/ui/src/main/java/com/google/android/exoplayer2/ui/PlayerControlView.java:777-789 | null positions mean no extra markers; positions with played flags of the same length are stored and the bar refreshed; anything else is rejected and nothing changes |
| ControlView.PlayerControlView.SetShowTimeoutMs | library/ui/src/main/java/com/google/android/exoplayer2/ui/PlayerControlView.java:869-875 | the timeout is stored; a visible controller re-arms its hide timer with it, a hidden one keeps its timers |
| ControlView.PlayerControlView.RearmedHideAt | library/ui/src/main/java/com/google/android/exoplayer2/ui/PlayerControlView.java:1000-1010 | the deadline is now + timeout exactly when the timeout is positive, and unset otherwise |
| ControlView.PlayerControlView.RearmedPending | library/ui/src/main/java/com/google/android/exoplayer2/ui/PlayerControlView.java:1000-1010 | only the hide callback changes; it is posted after the timeout exactly when the timeout is positive and the view attached |
| ControlView.PlayerControlView.HideAfterTimeout | library/ui/src/main/java/com/google/android/exoplayer2/ui/PlayerControlView.java:1000-1010 | hideAfterTimeout sets the deadline and the hide callback as RearmedHideAt and RearmedPending say |
| ControlView.PlayerControlView.HideCarouselAfterTimeout | library/ui/src/main/java/com/google/android/exoplayer2/ui/PlayerControlView.java:1012-1017 | the carousel callback is re-posted at 5000 ms when attached, otherwise only cancelled |
| ControlView.PlayerControlView.OnHide | library/ui/src/main/java/com/google/android/exoplayer2/ui/PlayerControlView.java:910-923 | cancels the progress and hide callbacks, clears the deadline, and requests a sheet collapse exactly for an expanded sheet (when hiding the carousel) or a settling one |
| ControlView.PlayerControlView.OnShow | library/ui/src/main/java/com/google/android/exoplayer2/ui/PlayerControlView.java:904-908 | refreshes everything, then re-arms the hide timer |
| ControlView.PlayerControlView.Fade | library/ui/src/main/java/com/google/android/exoplayer2/ui/PlayerControlView.java:952-957 | at most one fade runs: a running fade keeps its direction, otherwise the new one starts |
| ControlView.PlayerControlView.Show | library/ui/src/main/java/com/google/android/exoplayer2/ui/PlayerControlView.java:897-902 | a hidden controller starts fading in, unless a fade already runs; a visible one is untouched |
| ControlView.PlayerControlView.SetMiniContentShown | library/ui/src/main/java/com/google/android/exoplayer2/ui/PlayerControlView.java:370-389 | in a layout with the list of more content (looked up separately from the sheet), the mini-content flag becomes shown or hidden, whether or not the sheet exists; without the list it is kept |
| ControlView.PlayerControlView.Hide | library/ui/src/main/java/com/google/android/exoplayer2/ui/PlayerControlView.java:925-932 | a visible controller whose sheet is not settling starts fading out, unless a fade already runs |
| ControlView.PlayerControlView.ForceHide | library/ui/src/main/java/com/google/android/exoplayer2/ui/PlayerControlView.java:941-950 | when hide may act, the view becomes invisible at once and onHide(true) runs; otherwise nothing changes |
| ControlView.PlayerControlView.HideNow | library/ui/src/main/java/com/google/android/exoplayer2/ui/PlayerControlView.java:947-948 | the view becomes invisible, the progress and hide callbacks are cancelled, the deadline is cleared |
| ControlView.PlayerControlView.OnFadeStarted | library/ui/src/main/java/com/google/android/exoplayer2/ui/PlayerControlView.java:960-972 | the hide callback is cancelled, the view is visible in either direction and everything is refreshed |
| ControlView.PlayerControlView.OnFadeEnded | library/ui/src/main/java/com/google/android/exoplayer2/ui/PlayerControlView.java:975-982 | the fade guard is released; a fade-in ran onShow (re-armed timer), a fade-out hid the view and ran onHide(true) |
| ControlView.PlayerControlView.OnFadeCancelled | library/ui/src/main/java/com/google/android/exoplayer2/ui/PlayerControlView.java:985 | a cancelled fade releases the guard |
| ControlView.PlayerControlView.OnSheetStateChanged | library/ui/src/main/java/com/google/android/exoplayer2/ui/PlayerControlView.java:607-619 | expanding clears the hide deadline, cancels the progress and hide callbacks and arms the carousel timer; collapsing refreshes and re-arms the hide timer; other states change no timer |
| ControlView.PlayerControlView.AttachTimers | library/ui/src/main/java/com/google/android/exoplayer2/ui/PlayerControlView.java:1403-1419 | on attach: a deadline still ahead re-posts its remaining delay, a passed one posts nothing, no deadline on a visible controller posts the timeout (and 5000 for the carousel when the sheet is expanded) |
| ControlView.PlayerControlView.OnAttachedToWindow | library/ui/src/main/java/com/google/android/exoplayer2/ui/PlayerControlView.java:1403-1427 | attached with the timers of AttachTimers then the refresh; an expired deadline starts a fade-out exactly when hide may act |
| ControlView.PlayerControlView.AttachAndPostTimers | library/ui/src/main/java/com/google/android/exoplayer2/ui/PlayerControlView.java:1405-1419 | the attach-time timers are exactly AttachTimers of the old deadline; the deadline is kept, or re-armed for a visible controller without one |
| ControlView.PlayerControlView.ResumeHideDeadline | library/ui/src/main/java/com/google/android/exoplayer2/ui/PlayerControlView.java:1406-1412 | a passed deadline hides; a future one posts the hide callback for the remaining time |
| ControlView.PlayerControlView.ArmFreshTimers | library/ui/src/main/java/com/google/android/exoplayer2/ui/PlayerControlView.java:1413-1418 | without a deadline the hide timer starts afresh, and the carousel timer with an expanded sheet |
| ControlView.PlayerControlView.OnDetachedFromWindow | library/ui/src/main/java/com/google/android/exoplayer2/ui/PlayerControlView.java:1430-1436 | all three callbacks are cancelled and nothing stays posted |
| ControlView.PlayerControlView.OnHideTimer | library/ui/src/main/java/com/google/android/exoplayer2/ui/PlayerControlView.java:552 | the hide callback runs hide and is no longer pending |
| ControlView.PlayerControlView.OnProgressTimer | library/ui/src/main/java/com/google/android/exoplayer2/ui/PlayerControlView.java:551 | the progress callback runs updateProgress, which reschedules it |
| ControlView.PlayerControlView.SetPlayer | library/ui/src/main/java/com/google/android/exoplayer2/ui/PlayerControlView.java:756-765 | the same player changes nothing; another one (or none) is stored and everything refreshed |
| ControlView.PlayerControlView.OnPlayerStateChanged | library/ui/src/main/java/com/google/android/exoplayer2/ui/PlayerControlView.java:1583-1586 | the new player state is taken and the progress rescheduled |
| ControlView.PlayerControlView.OnTimelineChanged | library/ui/src/main/java/com/google/android/exoplayer2/ui/PlayerControlView.java:1589-1599 | after a timeline change or a position jump the bar shows the new flattened timeline and the progress is rescheduled |
| ControlView.PlayerControlView.IsPlaying | library/ui/src/main/java/com/google/android/exoplayer2/ui/PlayerControlView.java:1514-1519 | true only with a player asked to play; never for an ended or idle player; always while the player itself plays or buffers with play-when-ready |
| ControlView.PlayerControlView.ClickPlayback | library/ui/src/main/java/com/google/android/exoplayer2/ui/PlayerControlView.java:1635-1656 | the play/pause button asks for play-when-ready = !isPlaying |
| ControlView.PlayerControlView.SeekTo | library/ui/src/main/java/com/google/android/exoplayer2/ui/PlayerControlView.java:1381-1400 | the hide timer is re-armed first; a blocked seek notifies once and returns false; otherwise the target of ArbitrateSeekAsWritten (the start-over floor as written) is dispatched once and the dispatcher's answer returned |
| ControlView.PlayerControlView.SeekToTimeBarPosition | library/ui/src/main/java/com/google/android/exoplayer2/ui/PlayerControlView.java:1347-1379 | seeks (through the as-written arbitration) to TimeBarTarget of the bar position; when the seek is not dispatched the progress is refreshed to snap the bar back |
| ControlView.PlayerControlView.OnScrubStop | library/ui/src/main/java/com/google/android/exoplayer2/ui/PlayerControlView.java:1575-1580 | a cancelled scrub, or no player, seeks nowhere; otherwise, as SeekToTimeBarPosition: the hide deadline is re-armed, the bar position is sought through the as-written arbitration, and the progress refresh snaps the bar back when the seek is not dispatched |
| ControlView.PlayerControlView.SeekToOffset | library/ui/src/main/java/com/google/android/exoplayer2/ui/PlayerControlView.java:1337-1345 | seeks the current window to SeekToOffsetPosition through the as-written arbitration |
| ControlView.PlayerControlView.Rewind | library/ui/src/main/java/com/google/android/exoplayer2/ui/PlayerControlView.java:1318-1322 | seeks back by rewindMs only in a seekable window with a positive increment; otherwise nothing changes |
| ControlView.PlayerControlView.FastForward | library/ui/src/main/java/com/google/android/exoplayer2/ui/PlayerControlView.java:1331-1335 | seeks forward by fastForwardMs, through the as-written arbitration, only in a seekable window with a positive increment; otherwise nothing changes |
| ControlView.PlayerControlView.StartOver | library/ui/src/main/java/com/google/android/exoplayer2/ui/PlayerControlView.java:1324-1329 | in a seekable window the listener is notified and position 0 of the current window sought; otherwise nothing changes |
| ControlView.PlayerControlView.Previous | library/ui/src/main/java/com/google/android/exoplayer2/ui/PlayerControlView.java:1287-1302 | the private previous(), which nothing in the source calls (the button and the media key ask the switch-items listener): seeks to PreviousTarget through the as-written arbitration when there is one, re-arming the hide timer; otherwise nothing changes |
| ControlView.PlayerControlView.Next | library/ui/src/main/java/com/google/android/exoplayer2/ui/PlayerControlView.java:1304-1316 | the private next(), which nothing in the source calls (the button and the media key ask the switch-items listener): seeks to NextTarget through the as-written arbitration when there is one, re-arming the hide timer; otherwise nothing changes |
| ControlView.PlayerControlView.DispatchMediaKeyEvent | library/ui/src/main/java/com/google/android/exoplayer2/ui/PlayerControlView.java:1475-1512 | handled exactly with a player and a handled key; key up changes nothing; fast-forward and rewind skip on every key down; the others act on the first press only; every seek goes through the as-written arbitration |
| ControlView.PlayerControlView.TransportKey | library/ui/src/main/java/com/google/android/exoplayer2/ui/PlayerControlView.java:1486-1508 | play/pause toggles play-when-ready, play and pause set it, next and previous reach the switch-items listener when there is one |
| Players.SetPlayerCalls | library/ui/src/main/java/com/google/android/exoplayer2/ui/players/PlayerView.java:638-695 | no surface calls for the same player unless forced; a first player gets exactly one set call, dropping the player exactly one clear call, and no change makes more than two; a swap clears the old player's surface before setting the new one's |
| Players.ShowsIndefinitely | library/ui/src/main/java/com/google/android/exoplayer2/ui/players/PlayerView.java:1188-1197 | true with no player; false without auto-show or while playing; true with auto-show when idle, ended or not asked to play |
| Players.BufferingSpinnerShown | library/ui/src/main/java/com/google/android/exoplayer2/ui/players/PlayerView.java:1255-1264 | shown only while a player buffers: always in ALWAYS mode, exactly with play-when-ready in WHEN_PLAYING mode, never in any other mode |
| Players.BufferingModeFor | library/ui/src/main/java/com/google/android/exoplayer2/ui/players/PlayerView.java:782-784 | true maps to WHEN_PLAYING and false to NEVER |
| Players.AttachBeforeDetachKeepsSurface | library/ui/src/main/java/com/google/android/exoplayer2/ui/players/PlayerView.java:597-612 | setting the new view before clearing the old one keeps the player rendering to some view after every call and ends with the new view in place of the old |
| Players.DetachFirstLeavesGap | library/ui/src/main/java/com/google/android/exoplayer2/ui/players/PlayerView.java:601-605 | the opposite order leaves the player with no surface when the old view was its only one |
| Players.PlayerView.constructor | library/ui/src/main/java/com/google/android/exoplayer2/ui/players/PlayerView.java:317-471 | the styled attributes or their defaults (controller in use, 3000 ms, hide on touch, auto-show, hide during ads, WHEN_PLAYING), a fresh controller, no player, no touch in progress, the spinner hidden and the next tap ignored; the closing hideController() starts the visible controller's fade-out |
| Players.PlayerView.ShowControllerWith | library/ui/src/main/java/com/google/android/exoplayer2/ui/players/PlayerView.java:1199-1205 | not in use: nothing; otherwise the controller's timeout becomes 0 when shown indefinitely and the view's timeout otherwise, and the controller is shown |
| Players.PlayerView.ShowController | library/ui/src/main/java/com/google/android/exoplayer2/ui/players/PlayerView.java:854-856 | shows the controller, indefinitely exactly when ShowsIndefinitely holds |
| Players.PlayerView.ForceShowController | library/ui/src/main/java/com/google/android/exoplayer2/ui/players/PlayerView.java:858-860 | shows the controller with the view's timeout |
| Players.PlayerView.MaybeShowController | library/ui/src/main/java/com/google/android/exoplayer2/ui/players/PlayerView.java:1175-1186 | never while an ad plays and ads hide the controller; otherwise shows exactly when forced, already shown indefinitely, or it should be shown indefinitely |
| Players.PlayerView.HideController | library/ui/src/main/java/com/google/android/exoplayer2/ui/players/PlayerView.java:864-869 | marks the next tap to be ignored and hides the controller |
| Players.PlayerView.SetControllerShowTimeoutMs | library/ui/src/main/java/com/google/android/exoplayer2/ui/players/PlayerView.java:890-897 | stores the timeout; a visible controller in use is shown again so it applies; otherwise the controller is untouched |
| Players.PlayerView.UpdateBuffering | library/ui/src/main/java/com/google/android/exoplayer2/ui/players/PlayerView.java:1255-1264 | with a spinner in the layout, its visibility is BufferingSpinnerShown |
| Players.PlayerView.SetShowBuffering | library/ui/src/main/java/com/google/android/exoplayer2/ui/players/PlayerView.java:794-799 | the mode is stored; only a different mode refreshes the spinner |
| Players.PlayerView.SetShowBufferingFlag | library/ui/src/main/java/com/google/android/exoplayer2/ui/players/PlayerView.java:782-784 | the mode becomes BufferingModeFor(flag); false hides a spinner whose mode changed, true shows BufferingSpinnerShown; an unchanged mode or a layout without a spinner leaves the spinner as it was |
| Players.PlayerView.ToggleControllerVisibility | library/ui/src/main/java/com/google/android/exoplayer2/ui/players/PlayerView.java:1162-1173 | handled exactly with a player and a controller in use; a hidden controller is shown whenever it may be shown; a visible one starts fading out when touches hide it and is untouched otherwise |
| Players.PlayerView.OnTouchEvent | library/ui/src/main/java/com/google/android/exoplayer2/ui/players/PlayerView.java:1054-1085 | without a player or controller nothing is handled or changed; down starts a touch; up of a started touch clears both flags and, unless the tap is ignored over the expanded sheet, clicks: a hidden controller is shown (timeout rearmed) when it may be, a visible one starts fading out when it hides on touch, otherwise the controller is unchanged; other actions are not handled |
| Players.PlayerView.OnTrackballEvent | library/ui/src/main/java/com/google/android/exoplayer2/ui/players/PlayerView.java:1087-1093 | handled exactly with a player and a controller in use; then the controller is shown whenever it may be shown (not during ads that hide it) |
| Players.PlayerView.OnPlayerStateChanged | library/ui/src/main/java/com/google/android/exoplayer2/ui/players/PlayerView.java:1383-1390 | the spinner is refreshed; while an ad plays and ads hide the controller, the next tap is ignored and the controller starts fading out with its timeout, deadline and callbacks kept; otherwise maybeShowController(false) shows it exactly when it may be shown |
| Players.PlayerView.OnPositionDiscontinuity | library/ui/src/main/java/com/google/android/exoplayer2/ui/players/PlayerView.java:1393-1397 | the view's player snapshot becomes the listener's new one; while that player plays an ad and ads hide the controller, the next tap is ignored and the controller starts fading out (direction Disappearing when it may hide); otherwise the controller and the ignore flag are unchanged |
| Players.PlayerView.SetUseController | library/ui/src/main/java/com/google/android/exoplayer2/ui/players/PlayerView.java:733-745 | the same value changes nothing; on, the controller gets the view's player and is refreshed when that player is new, with visibility, deadline and effects kept; off, forceHide makes a hideable controller invisible, cancels its progress and hide callbacks, clears its deadline and may collapse the sheet, and the controller loses its player |
| Players.PlayerView.SetPlayer | library/ui/src/main/java/com/google/android/exoplayer2/ui/players/PlayerView.java:638-695 | the surface calls are SetPlayerCalls; an unforced same player changes nothing; otherwise the player is stored and handed to a controller in use, the spinner refreshed, a new player gets maybeShowController(false) (shown, with the indefinite flag kept or newly required, exactly when it may be shown, otherwise untouched), and without a player the controller fades out with its timeout and deadline kept |
| Players.PlayerView.ReplacePlayer | library/ui/src/main/java/com/google/android/exoplayer2/ui/players/PlayerView.java:646-695 | the surface calls are SetPlayerCalls as if forced; the player is stored and handed to a controller in use, the spinner shows BufferingSpinnerShown; a new player shows the controller exactly when it may be shown (otherwise it is untouched); without a player the next tap is ignored and the controller fades out |
| Players.PlayerView.ShowOrHideForPlayer | library/ui/src/main/java/com/google/android/exoplayer2/ui/players/PlayerView.java:674-694 | a new player gets the view's surface and maybeShowController(false): the controller shown and its timer rearmed exactly when it may be shown, otherwise unchanged; without one the next tap is ignored and the controller starts fading out with its timeout and deadline kept |
| Players.PlayerView.HandOverToController | library/ui/src/main/java/com/google/android/exoplayer2/ui/players/PlayerView.java:666-668 | a controller in use gets the view's player; the controller's visibility, timeout, deadline and fade are never touched; a controller not in use is untouched |
| Players.SwitchTargetView | library/ui/src/main/java/com/google/android/exoplayer2/ui/players/PlayerView.java:597-612 | no-op for the same view; otherwise the new view's surface calls come before the old view's, the new view holds the player and the old view none; when the old view held the player's surface, the player has a surface after every call of the switch and ends on the new view's |
| Players.SwitchKeepsSurface | library/ui/src/main/java/com/google/android/exoplayer2/ui/players/PlayerView.java:597-612 | when the old view holds the surface, setting the new view (other players' calls aside) and then clearing the old one leaves the player a surface after every call and ends on the new view |
| Players.SwitchCallsKeepSurface | library/ui/src/main/java/com/google/android/exoplayer2/ui/players/PlayerView.java:597-612 | the same for the calls SetPlayerCalls gives the two views of switchTargetView |
| Spans.IndexFrom | library/ui/src/main/java/com/google/android/exoplayer2/ui/utilities/SpannableUtilities.kt:24 | the first occurrence at or after `from`, or -1 exactly when there is none there |
| Spans.IndexOf | library/ui/src/main/java/com/google/android/exoplayer2/ui/utilities/SpannableUtilities.kt:24 | indexOf is -1 exactly when the pattern occurs nowhere, otherwise its first occurrence; an empty pattern gives 0 |
| Spans.TwoTone | library/ui/src/main/java/com/google/android/exoplayer2/ui/utilities/SpannableUtilities.kt:16-34 | the spans partition [0, length) with EXCLUSIVE_EXCLUSIVE flags; one firstColor span exactly when the separator is absent; otherwise firstColor up to its first occurrence and secondColor from there |
| Spans.PartitionOrdered | library/ui/src/main/java/com/google/android/exoplayer2/ui/utilities/SpannableUtilities.kt:29-30 | in a partition an earlier span ends no later than a later one starts |
| Spans.PartitionCovers | library/ui/src/main/java/com/google/android/exoplayer2/ui/utilities/SpannableUtilities.kt:26-31 | some span of a partition covers every position of the text |
| Spans.TwoToneColoursEachCharacterOnce | library/ui/src/main/java/com/google/android/exoplayer2/ui/utilities/SpannableUtilities.kt:23-31 | every character of a two-tone text lies in exactly one colour span |
| Spans.Highlight | library/ui/src/main/java/com/google/android/exoplayer2/ui/utilities/SpannableUtilities.kt:40-47 | fails exactly when the phrase does not occur; otherwise one INCLUSIVE_EXCLUSIVE span of the given kind covers exactly the first occurrence |
| Spans.Url | library/ui/src/main/java/com/google/android/exoplayer2/ui/utilities/SpannableUtilities.kt:40-47 | fails exactly when the phrase is absent; otherwise one link span starts at indexOf and is as long as the phrase |
| Spans.ClickableUrl | library/ui/src/main/java/com/google/android/exoplayer2/ui/utilities/SpannableUtilities.kt:53-67 | fails exactly when the phrase is absent; otherwise one clickable span starts at indexOf and is as long as the phrase |

## Left out

- Rendering and layout: the button, position and duration texts, the colours of the live indicator, updatePlayPauseButton, updateNavigation, focus requests, display cutouts, margins, the mini-content adapter and scrolling, metadata, the fullscreen icon. These change no state the model keeps.
- The fade animation itself (alpha, interpolator, duration) and the bottom sheet's `onSlide` alpha maths are floating-point rendering. Only the single-fade guard and its start, end and cancel callbacks are modelled.
- Ordering within a fade start: the model does not distinguish the order of the visibility-listener calls, the alpha and the refresh. The visibility listener (`ControllerVisibilityListener`) is not modelled.
- The carousel callback (`hideCarousel`), `onSwipeUp`, `onSwipeDown` and `toggleContentSheet` drive the sheet's animation. The carousel callback is modelled only as a posted delay of 5000 ms. Its effect on the sheet is not modelled.
- `dispatchTouchEvent` on the controller cancels the hide callback and steers the sheet on touch-down; it is not part of this model. `dispatchKeyEvent` on both views only forwards to `dispatchMediaKeyEvent` and the platform.
- The `onPlayerReady` callback that updateTimeline fires just before writing the duration text is an outside observer and is not modelled.
- Analytics listeners (`on30SecsForw`, `onPlay`, ...) and the scrubbing flag only feed displays and observers.
- The play/pause click: the IDLE and ENDED branches inside `if (isPlaying())` cannot run, because isPlaying excludes both states. The second ENDED check duplicates the first. Neither is modelled. The live-icon click (`player.seekTo(C.TIME_UNSET)`) and the previous/next buttons are not modelled.
- The seek bar's preferred refresh delay is a constant of the layout (`timeBarPreferredDelayMs`). The real bar computes it from its width.
- Playback speed is a `real`, and `(long)(delay / speed)` truncates the exact quotient; float rounding is not modelled.
- The player is a value snapshot. Each view keeps its own copy, which a new player or a listener method replaces: `ControlView.PlayerControlView.OnPlayerStateChanged` and `OnTimelineChanged` on the controller, and `Players.PlayerView.OnPlayerStateChanged` and `OnPositionDiscontinuity` on the player view. The assertion that the player runs on the main looper is not modelled.
- `ControlView.PlayerControlView.SetExtraAdGroupMarkers`: the source throws on a null or mismatched played array. The model rejects the call and changes nothing (`accepted == false`).
- ControlView.PlayerControlView.SetExtraAdGroupMarkers: the source keeps the caller's arrays by reference, so the caller's later writes show up in the bar. The model copies them into sequences and does not capture that aliasing.
- ControlView.PlayerControlView.OnSheetStateChanged: on the expanded and collapsed states the sheet callback invokes the one-shot `onMoreContentToggleEvent` and then resets it to a no-op (PlayerControlView.java lines 620-624). That outside callback is not modelled.
- `ControlView.PlayerControlView.DispatchMediaKeyEvent`: the effect of fast-forward and rewind on the hide timer is stated through `Rewind`/`FastForward`, not repeated in its own contract.
- The controller's player listener and the view's player listener both run on a player change. The model does not order them against each other.
- PlayerView layouts without a controller: the constructor dereferences the controller unconditionally (`controller.setProgressColor`), so the model always has one.
- Players.PlayerView.SetPlayer: `updateForCurrentTrackSelections` (the shutter and artwork), subtitles, the text component and the debug helper are not modelled. The video component is the `VideoCalls` log of surface set and clear calls. Which kind of surface (texture or surface view) is used is left out.
- Players.SetPlayerCalls: a layout without a surface view, or a player without a video component, makes no surface calls at PlayerView.java lines 648 and 678; the model gives every view a surface and every player a video component, so those layouts and players are not covered.
- Plain setters of PlayerView that only store a flag (`setControllerHideOnTouch`, `setControllerAutoShow`, `setControllerHideDuringAds`), the forwarding setters (listeners, rights, increments, extra markers), resize mode, aspect ratio, texture rotation, video size, `onResume`/`onPause`, and `getControllerHideOnTouch`.
- Spans: spans are values `(kind, start, end, flags)`. How the platform renders them, including zero-length EXCLUSIVE_EXCLUSIVE spans, is not modelled. The colour resource lookup is replaced by the colour value itself. Invoking the click callback is not modelled. Strings are sequences of characters, not UTF-16 code units.
- Spans.Url and Spans.ClickableUrl: an absent phrase makes `setSpan` throw. It is modelled as the error result `None`, not as a precondition.

## Findings

| source | as written | input that shows it | evidently intended | confidence | as-written member | corrected member |
|---|---|---|---|---|---|---|
| library/ui/src/main/java/com/google/android/exoplayer2/ui/PlayerControlView.java:1393-1397 | the start-over floor compares `startOverPosition() > positionMs` numerically, and C.TIME_UNSET (Long.MIN_VALUE + 1) is below every start-over position, so an "unset" target in a live window without start-over rights is replaced by the start-over position | live window, no rights, start-over 0: a forward seek from 1000 to 5000 that the preview declines becomes TIME_UNSET at line 1386 and is then dispatched as position 0 (the oldest point) instead of the live edge; it is reached through onScrubStop→seekToTimeBarPosition (lines 1575-1578) and fastForward (lines 1482 and 1617); the private previous() and next(), which request unset targets, are never called | the floor applies only to known positions; "unset" (the default position) is dispatched unchanged | not executed | Seeking.ArbitrateSeekAsWritten, Seeking.DeclinedLiveSeekLandsOnStartOver, Seeking.UnsetTargetRaisedToStartOver | Seeking.ArbitrateSeek |

The controller class models the code as written: `ControlView.PlayerControlView.Arbitrate`, and with it every seek of the class, uses `Seeking.ArbitrateSeekAsWritten`. `Seeking.ArbitrateSeek` is the intended arbitration. `Seeking.ArbitrationAgreesOffTheUnsetPath` proves the two agree except when, in a live window without start-over rights, the target is unset or a declined forward seek.

=== FILE: common.dfy ===
/** Values and helpers shared by the whole overlay model: the optional
    value, the "unset" time sentinel, the clamp the controller applies to
    its intervals, and the microsecond/millisecond conversion. */
module Common {

  datatype Option<+T> = None | Some(value: T)

  /** A position in milliseconds, or the player's "unset" sentinel, which
      asks the player for the default position (the live edge of a live
      window, the start of any other). */
  datatype Time = Ms(ms: int) | Unset

  /** The numeric value the player library gives its "unset" sentinel
      (Long.MIN_VALUE + 1). Only the as-written seek arbitration needs it. */
  const TIME_UNSET_VALUE: int := -9223372036854775807

  function Min(a: int, b: int): (r: int)
    ensures r <= a && r <= b && (r == a || r == b)
  {
    if a <= b then a else b
  }

  function Max(a: int, b: int): (r: int)
    ensures r >= a && r >= b && (r == a || r == b)
  {
    if a >= b then a else b
  }

  /** The library's constrainValue: the value is first capped at `hi`, then
      raised to at least `lo`. With `lo <= hi` the result lies in [lo, hi]
      and is the value itself whenever the value already lies there. */
  function Clamp(v: int, lo: int, hi: int): (r: int)
    ensures lo <= hi ==> lo <= r <= hi
    ensures lo <= v <= hi ==> r == v
    ensures v < lo ==> r == lo
    ensures lo <= hi && v > hi ==> r == hi
  {
    Max(lo, Min(v, hi))
  }

  /** Microseconds to milliseconds for a known, non-negative time. */
  function UsToMs(us: nat): (ms: nat)
    ensures ms * 1000 <= us < ms * 1000 + 1000
  {
    us / 1000
  }

  /** Java's `%` on longs: the remainder truncates toward zero, so it takes
      the sign of the dividend (Dafny's `%` never goes negative). */
  function JavaRem(a: int, b: int): (r: int)
    requires b > 0
    ensures a >= 0 ==> 0 <= r < b
    ensures a < 0 ==> -b < r <= 0
    ensures a >= 0 ==> r == a % b
  {
    if a >= 0 then a % b else -((-a) % b)
  }

  /** Java's cast of a non-negative or negative real quotient to long:
      truncation toward zero. */
  function Truncate(x: real): (r: int)
    ensures x >= 0.0 ==> r as real <= x < r as real + 1.0
    ensures x < 0.0 ==> r as real - 1.0 < x <= r as real
  {
    if x >= 0.0 then x.Floor else -((-x).Floor)
  }
}

=== FILE: control_view.dfy ===
/** The playback-overlay controller: the seek bar's view of the player's
    timeline, the progress refresh, the auto-hide timers, the fade guard and
    seek arbitration, as a class whose methods update its fields in place.

    The Android message queue is the `pending` map (which callback is posted
    and after how many milliseconds); the view's visibility is `visible`;
    calls the view makes into its collaborators (dispatcher, listeners, the
    bottom sheet) are appended to `effects`. The current time is a parameter
    of the methods that read the clock. */
module ControlView {
  import opened Common
  import opened Media
  import opened Flattening
  import opened MarkerArrays
  import opened Seeking
  import opened Progress

  const DEFAULT_FAST_FORWARD_MS: int := 30000
  const DEFAULT_REWIND_MS: int := 30000
  const DEFAULT_SHOW_TIMEOUT_MS: int := 3000
  const DEFAULT_HIDE_CAROUSEL_MS: int := 5000
  const DEFAULT_TIME_BAR_MIN_UPDATE_INTERVAL_MS: int := 200

  /** Android key codes of the media keys the controller handles. */
  const KEYCODE_MEDIA_PLAY_PAUSE: int := 85
  const KEYCODE_MEDIA_NEXT: int := 87
  const KEYCODE_MEDIA_PREVIOUS: int := 88
  const KEYCODE_MEDIA_REWIND: int := 89
  const KEYCODE_MEDIA_FAST_FORWARD: int := 90
  const KEYCODE_MEDIA_PLAY: int := 126
  const KEYCODE_MEDIA_PAUSE: int := 127

  const HANDLED_MEDIA_KEYS: set<int> :=
    {KEYCODE_MEDIA_PLAY_PAUSE, KEYCODE_MEDIA_NEXT, KEYCODE_MEDIA_PREVIOUS, KEYCODE_MEDIA_REWIND,
     KEYCODE_MEDIA_FAST_FORWARD, KEYCODE_MEDIA_PLAY, KEYCODE_MEDIA_PAUSE}

  /** The controller's three runnables. */
  datatype Callback = ProgressAction | HideAction | HideCarouselAction

  /** The direction of a fade: appearing for show, disappearing for hide. */
  datatype FadeKind = Appearing | Disappearing

  datatype SheetState = SheetCollapsed | SheetExpanded | SheetSettling | SheetDragging

  datatype KeyAction = KeyDown | KeyUp

  /** Calls the controller makes into its collaborators. */
  datatype Effect =
    | SeekDispatched(target: SeekTarget)
    | SeekBlocked
    | StartOverNotified
    | PlayWhenReadyDispatched(playWhenReady: bool)
    | NextItemRequested
    | PreviousItemRequested
    | SheetCollapseRequested

  /** The styled attributes the constructor reads. */
  datatype ControlAttributes = ControlAttributes(
    rewindMs: int, fastForwardMs: int, showTimeoutMs: int, timeBarMinUpdateIntervalMs: int)

  /** The media keys the controller consumes. */
  function IsHandledMediaKey(keyCode: int): (b: bool)
    ensures b <==> keyCode in HANDLED_MEDIA_KEYS
  {
    keyCode == KEYCODE_MEDIA_FAST_FORWARD
    || keyCode == KEYCODE_MEDIA_REWIND
    || keyCode == KEYCODE_MEDIA_PLAY_PAUSE
    || keyCode == KEYCODE_MEDIA_PLAY
    || keyCode == KEYCODE_MEDIA_PAUSE
    || keyCode == KEYCODE_MEDIA_NEXT
    || keyCode == KEYCODE_MEDIA_PREVIOUS
  }

  /** What a seek decision does to the collaborators. */
  function SeekEffects(d: SeekDecision): (r: seq<Effect>)
    ensures |r| == 1
    ensures d.Blocked? ==> r == [SeekBlocked]
    ensures d.Dispatch? ==> r == [SeekDispatched(d.target)]
  {
    match d
    case Blocked => [SeekBlocked]
    case Dispatch(t) => [SeekDispatched(t)]
  }

  /** Where a seek-bar position is sent: remapped over the whole timeline in
      multi-window mode, otherwise the same position in the current window. */
  function TimeBarTarget(p: Player, multiWindow: bool, positionMs: int): (r: SeekTarget)
    requires p.Valid()
    requires multiWindow ==> MultiWindowEligible(p.timeline)
    ensures r.position.Ms?
    ensures multiWindow && |p.timeline| > 0 ==> r == RemapFrom(p.timeline, 0, positionMs)
    ensures !(multiWindow && |p.timeline| > 0) ==> r == SeekTarget(p.currentWindowIndex, Ms(positionMs))
  {
    if multiWindow && |p.timeline| > 0 then RemapFrom(p.timeline, 0, positionMs)
    else SeekTarget(p.currentWindowIndex, Ms(positionMs))
  }

  /** The window and position a seek-bar position seeks to, as
      seekToTimeBarPosition works them out. */
  method TimeBarSeekTarget(p: Player, multiWindow: bool, positionMs: int)
    returns (windowIndex: nat, windowPositionMs: int)
    requires p.Valid()
    requires multiWindow ==> MultiWindowEligible(p.timeline)
    ensures SeekTarget(windowIndex, Ms(windowPositionMs)) == TimeBarTarget(p, multiWindow, positionMs)
  {
    windowPositionMs := positionMs;
    if multiWindow && |p.timeline| > 0 {
      windowIndex, windowPositionMs := RemapTimeBarPosition(p.timeline, positionMs);
    } else {
      windowIndex := p.currentWindowIndex;
    }
  }

  /** The bounds every posted callback's delay respects. */
  predicate TimersBounded(pending: map<Callback, int>, hideAtMs: Time)
  {
    && (ProgressAction in pending ==>
          MIN_UPDATE_INTERVAL_FLOOR_MS <= pending[ProgressAction] <= MAX_UPDATE_INTERVAL_MS)
    && (HideAction in pending ==> pending[HideAction] > 0 && hideAtMs.Ms?)
    && (HideCarouselAction in pending ==> pending[HideCarouselAction] == DEFAULT_HIDE_CAROUSEL_MS)
  }

  /** One iteration of updateTimeline's window loop for a window of known
      duration: its markers, shifted by the durations before it, and its
      duration added to the total. */
  method CollectKnownWindow(times: array<int>, played: array<bool>, count: nat, ghost known: seq<Window>,
                            window: Window, durationUs: nat)
    returns (times': array<int>, played': array<bool>, count': nat, durationUs': nat)
    requires AllDurationsKnown(known) && window.durationUs.Known?
    requires durationUs == SumUs(known)
    requires Holds(times, played, count, WindowsMarkers(known))
    modifies times, played
    ensures AllDurationsKnown(known + [window])
    ensures durationUs' == SumUs(known + [window])
    ensures Holds(times', played', count', WindowsMarkers(known + [window]))
    ensures times'.Length >= times.Length
    ensures (times' == times && played' == played) || (fresh(times') && fresh(played'))
  {
    ghost var next := known + [window];
    assert next[..|next| - 1] == known;
    times', played', count' := CollectWindow(times, played, count, WindowsMarkers(known), window, durationUs);
    durationUs' := durationUs + window.durationUs.us;
  }

  /** updateTimeline's walk over the timeline: in multi-window mode every
      window, otherwise the current one. The result is the flattening of the
      timeline. */
  method CollectTimeline(timeline: Timeline, currentWindowIndex: nat, multi: bool,
                         times: array<int>, played: array<bool>)
    returns (times': array<int>, played': array<bool>, adGroupCount: nat, durationUs: nat,
             currentWindowOffsetMs: int)
    requires |timeline| > 0 ==> currentWindowIndex < |timeline|
    requires multi == MultiWindowEligible(timeline)
    requires times.Length == played.Length
    modifies times, played
    ensures durationUs == Flatten(timeline, currentWindowIndex).durationUs
    ensures currentWindowOffsetMs == Flatten(timeline, currentWindowIndex).currentWindowOffsetMs
    ensures Holds(times', played', adGroupCount, Flatten(timeline, currentWindowIndex).markers)
    ensures times'.Length >= times.Length
    ensures (times' == times && played' == played) || (fresh(times') && fresh(played'))
  {
    if |timeline| == 0 {
      return times, played, 0, 0, 0;
    }
    var firstWindowIndex := if multi then 0 else currentWindowIndex;
    var lastWindowIndex := if multi then |timeline| - 1 else currentWindowIndex;
    ghost var n;
    times', played', adGroupCount, durationUs, currentWindowOffsetMs, n :=
      CollectWindows(timeline, firstWindowIndex, lastWindowIndex, currentWindowIndex, times, played);
    ghost var included := IncludedWindows(timeline, currentWindowIndex, multi);
    ghost var walked := timeline[firstWindowIndex..firstWindowIndex + n];
    if multi {
      assert included[..|included|] == included;
      assert timeline[..currentWindowIndex] == timeline[0..currentWindowIndex];
      assert walked == included[..KnownCount(included)];
    } else {
      assert walked == included[..KnownCount(included)];
    }
  }

  /** The window loop of updateTimeline over windows first..last: records
      where the current window starts when it reaches it, stops at the first
      window of unknown duration, sums the durations and collects the ad
      markers into the arrays. `n` is the number of windows summed. */
  method CollectWindows(timeline: Timeline, first: nat, last: nat, currentWindowIndex: nat,
                        times: array<int>, played: array<bool>)
    returns (times': array<int>, played': array<bool>, adGroupCount: nat, durationUs: nat,
             currentWindowOffsetMs: int, ghost n: nat)
    requires first <= currentWindowIndex <= last < |timeline|
    requires times.Length == played.Length
    modifies times, played
    ensures n <= last + 1 - first
    ensures AllDurationsKnown(timeline[first..first + n])
    ensures first + n <= last ==> timeline[first + n].durationUs.UnknownDuration?
    ensures durationUs == SumUs(timeline[first..first + n])
    ensures Holds(times', played', adGroupCount, WindowsMarkers(timeline[first..first + n]))
    ensures currentWindowIndex <= first + n ==>
              AllDurationsKnown(timeline[first..currentWindowIndex])
              && currentWindowOffsetMs == UsToMs(SumUs(timeline[first..currentWindowIndex]))
    ensures times'.Length >= times.Length
    ensures (times' == times && played' == played) || (fresh(times') && fresh(played'))
  {
    times', played', adGroupCount, durationUs, currentWindowOffsetMs := times, played, 0, 0, 0;
    ghost var known: seq<Window> := [];
    var i := first;
    while i <= last
      invariant first <= i <= last + 1
      invariant known == timeline[first..i]
      invariant AllDurationsKnown(known) && durationUs == SumUs(known)
      invariant Holds(times', played', adGroupCount, WindowsMarkers(known))
      invariant currentWindowIndex < i ==> OffsetReached(timeline, first, currentWindowIndex, currentWindowOffsetMs)
      invariant times'.Length >= times.Length
      invariant (times' == times && played' == played) || (fresh(times') && fresh(played'))
    {
      var stop;
      times', played', adGroupCount, durationUs, currentWindowOffsetMs, stop :=
        VisitWindow(timeline, first, i, currentWindowIndex, known,
                    times', played', adGroupCount, durationUs, currentWindowOffsetMs);
      if stop {
        break;
      }
      known := timeline[first..i + 1];
      i := i + 1;
    }
    n := i - first;
  }

  /** The current window starts `offsetMs` into the windows walked from
      `first`. */
  ghost predicate OffsetReached(timeline: Timeline, first: nat, currentWindowIndex: nat, offsetMs: int)
  {
    && first <= currentWindowIndex <= |timeline|
    && AllDurationsKnown(timeline[first..currentWindowIndex])
    && offsetMs == UsToMs(SumUs(timeline[first..currentWindowIndex]))
  }

  /** One pass of that loop over window i: the offset is recorded at the
      current window, and a window of known duration adds its duration and
      its markers; a window of unknown duration stops the walk. */
  method VisitWindow(timeline: Timeline, first: nat, i: nat, currentWindowIndex: nat, ghost known: seq<Window>,
                     times: array<int>, played: array<bool>, count: nat, durationUs: nat, offsetMs: int)
    returns (times': array<int>, played': array<bool>, count': nat, durationUs': nat, offsetMs': int,
             stop: bool)
    requires first <= i < |timeline| && first <= currentWindowIndex
    requires known == timeline[first..i] && AllDurationsKnown(known) && durationUs == SumUs(known)
    requires Holds(times, played, count, WindowsMarkers(known))
    requires currentWindowIndex < i ==> OffsetReached(timeline, first, currentWindowIndex, offsetMs)
    modifies times, played
    ensures stop <==> timeline[i].durationUs.UnknownDuration?
    ensures currentWindowIndex <= i ==> OffsetReached(timeline, first, currentWindowIndex, offsetMs')
    ensures stop ==> durationUs' == durationUs && Holds(times', played', count', WindowsMarkers(known))
    ensures !stop ==>
              && AllDurationsKnown(timeline[first..i + 1]) && durationUs' == SumUs(timeline[first..i + 1])
              && Holds(times', played', count', WindowsMarkers(timeline[first..i + 1]))
    ensures times'.Length >= times.Length
    ensures (times' == times && played' == played) || (fresh(times') && fresh(played'))
  {
    times', played', count', durationUs', offsetMs' := times, played, count, durationUs, offsetMs;
    if i == currentWindowIndex {
      offsetMs' := UsToMs(durationUs);
    }
    var window := timeline[i];
    stop := window.durationUs.UnknownDuration?;
    if !stop {
      SliceExtend(timeline, first, i);
      times', played', count', durationUs' := CollectKnownWindow(times, played, count, known, window, durationUs);
    }
  }

  /** One more element at the end of a slice. */
  lemma SliceExtend(s: seq<Window>, from: nat, to: nat)
    requires from <= to < |s|
    ensures s[from..to + 1] == s[from..to] + [s[to]]
  {
  }

  class PlayerControlView {
    // Collaborators.
    var player: Option<Player>
    var dispatcher: SeekTarget -> bool
    var seekPreview: Option<SeekPreview>
    var startOverListener: Option<StartOverListener>
    var hasStartOverRights: bool
    var hasSwitchItemsListener: bool

    // Configuration.
    var rewindMs: int
    var fastForwardMs: int
    var showTimeoutMs: int
    var timeBarMinUpdateIntervalMs: int
    /** The seek bar's preferred refresh delay; None when the layout has no seek bar. */
    const timeBarPreferredDelayMs: Option<int>
    /** Whether the layout has the "more content" bottom sheet. */
    const hasSheet: bool
    /** Whether the layout has the list of more content; it is looked up
        separately from the sheet. */
    const hasMoreContentList: bool
    var sheetState: SheetState
    /** Whether the sheet's list of more content is shown. */
    var hasMiniContent: bool

    // The seek bar's view of the timeline.
    var multiWindowTimeBar: bool
    var currentWindowOffset: int
    var timeBarDurationMs: int
    var adGroupTimesMs: array<int>
    var playedAdGroups: array<bool>
    /** The number of markers last handed to the seek bar. */
    var timeBarAdGroupCount: nat
    var extraAdGroupTimesMs: seq<int>
    var extraPlayedAdGroups: seq<bool>

    // Visibility and timers.
    var visible: bool
    var isAttachedToWindow: bool
    var isFading: bool
    var fadeKind: FadeKind
    var hideAtMs: Time
    var pending: map<Callback, int>

    var effects: seq<Effect>

    /** The seek bar shows the flattening of the player's timeline: mode and
        offset always, and with a seek bar its duration and its markers (the
        discovered ones followed by the extra ones). */
    ghost predicate ShowsTimeline(p: Player)
      reads this`multiWindowTimeBar, this`currentWindowOffset, this`timeBarDurationMs,
            this`adGroupTimesMs, this`playedAdGroups, this`timeBarAdGroupCount,
            this`extraAdGroupTimesMs, this`extraPlayedAdGroups, adGroupTimesMs, playedAdGroups
    {
      && p.Valid()
      && |extraAdGroupTimesMs| == |extraPlayedAdGroups|
      && var f := Flatten(p.timeline, p.currentWindowIndex);
         && multiWindowTimeBar == f.multiWindow
         && currentWindowOffset == f.currentWindowOffsetMs
         && (timeBarPreferredDelayMs.Some? ==>
               && timeBarDurationMs == UsToMs(f.durationUs)
               && Holds(adGroupTimesMs, playedAdGroups, timeBarAdGroupCount,
                        f.markers + Extras(extraAdGroupTimesMs, extraPlayedAdGroups)))
    }

    /** Everything the controller keeps true, except that the seek bar may
        lag behind a player or extra markers that were just set. */
    ghost predicate Consistent()
      reads this`adGroupTimesMs, this`playedAdGroups, this`timeBarAdGroupCount,
            this`timeBarMinUpdateIntervalMs, this`extraAdGroupTimesMs, this`extraPlayedAdGroups,
            this`player, this`isAttachedToWindow, this`pending, this`hideAtMs,
            adGroupTimesMs, playedAdGroups
    {
      && MarkersConsistent()
      && MIN_UPDATE_INTERVAL_FLOOR_MS <= timeBarMinUpdateIntervalMs <= MAX_UPDATE_INTERVAL_MS
      && (player.Some? ==> player.value.Valid())
      && TimersConsistent()
    }

    /** The marker arrays are parallel and hold the count handed to the seek
        bar; the extra markers are paired. */
    ghost predicate MarkersConsistent()
      reads this`adGroupTimesMs, this`playedAdGroups, this`timeBarAdGroupCount,
            this`extraAdGroupTimesMs, this`extraPlayedAdGroups
    {
      && adGroupTimesMs.Length == playedAdGroups.Length
      && timeBarAdGroupCount <= adGroupTimesMs.Length
      && |extraAdGroupTimesMs| == |extraPlayedAdGroups|
    }

    /** Nothing is posted while the view is detached, and every posted
        callback's delay is within its bounds. */
    ghost predicate TimersConsistent()
      reads this`isAttachedToWindow, this`pending, this`hideAtMs
    {
      && (!isAttachedToWindow ==> pending == map[])
      && TimersBounded(pending, hideAtMs)
    }

    ghost predicate Valid()
      reads this`multiWindowTimeBar, this`currentWindowOffset, this`timeBarDurationMs,
            this`adGroupTimesMs, this`playedAdGroups, this`timeBarAdGroupCount,
            this`extraAdGroupTimesMs, this`extraPlayedAdGroups,
            this`timeBarMinUpdateIntervalMs, this`player, this`isAttachedToWindow, this`pending, this`hideAtMs,
            adGroupTimesMs, playedAdGroups
    {
      Consistent() && TimelineShown()
    }

    /** The seek bar shows the current player's timeline, if there is one. */
    ghost predicate TimelineShown()
      reads this`multiWindowTimeBar, this`currentWindowOffset, this`timeBarDurationMs,
            this`adGroupTimesMs, this`playedAdGroups, this`timeBarAdGroupCount,
            this`extraAdGroupTimesMs, this`extraPlayedAdGroups, this`player,
            adGroupTimesMs, playedAdGroups
    {
      player.Some? ==> ShowsTimeline(player.value)
    }

    /** Valid survives a change confined to the timers, the hide deadline
        and the attachment flag, as long as the timers stay consistent. */
    twostate lemma TimersChangedValid()
      requires old(Valid()) && TimersConsistent()
      requires unchanged(this`multiWindowTimeBar, this`currentWindowOffset, this`timeBarDurationMs,
                         this`adGroupTimesMs, this`playedAdGroups, this`timeBarAdGroupCount,
                         this`extraAdGroupTimesMs, this`extraPlayedAdGroups,
                         this`timeBarMinUpdateIntervalMs, this`player)
      requires unchanged(adGroupTimesMs, playedAdGroups)
      ensures Valid()
    {
    }

    constructor(attrs: Option<ControlAttributes>, timeBarPreferredDelayMs: Option<int>, hasSheet: bool,
                hasMoreContentList: bool)
      ensures Valid()
      ensures attrs.None? ==>
                && rewindMs == DEFAULT_REWIND_MS && fastForwardMs == DEFAULT_FAST_FORWARD_MS
                && showTimeoutMs == DEFAULT_SHOW_TIMEOUT_MS
                && timeBarMinUpdateIntervalMs == DEFAULT_TIME_BAR_MIN_UPDATE_INTERVAL_MS
      ensures attrs.Some? ==>
                && rewindMs == attrs.value.rewindMs && fastForwardMs == attrs.value.fastForwardMs
                && showTimeoutMs == attrs.value.showTimeoutMs
                && timeBarMinUpdateIntervalMs == ConstrainMinUpdateInterval(attrs.value.timeBarMinUpdateIntervalMs)
      ensures this.timeBarPreferredDelayMs == timeBarPreferredDelayMs && this.hasSheet == hasSheet
      ensures this.hasMoreContentList == hasMoreContentList
      ensures player.None? && seekPreview.None? && startOverListener.None?
      ensures !hasStartOverRights && !hasSwitchItemsListener
      ensures hideAtMs == Unset && pending == map[] && effects == []
      ensures visible && !isAttachedToWindow && !isFading
      ensures sheetState == SheetCollapsed && !hasMiniContent
      ensures fresh(adGroupTimesMs) && fresh(playedAdGroups) && adGroupTimesMs.Length == 0
      ensures timeBarAdGroupCount == 0 && extraAdGroupTimesMs == [] && extraPlayedAdGroups == []
    {
      rewindMs := DEFAULT_REWIND_MS;
      fastForwardMs := DEFAULT_FAST_FORWARD_MS;
      showTimeoutMs := DEFAULT_SHOW_TIMEOUT_MS;
      timeBarMinUpdateIntervalMs := DEFAULT_TIME_BAR_MIN_UPDATE_INTERVAL_MS;
      hideAtMs := Unset;
      if attrs.Some? {
        rewindMs := attrs.value.rewindMs;
        fastForwardMs := attrs.value.fastForwardMs;
        showTimeoutMs := attrs.value.showTimeoutMs;
        timeBarMinUpdateIntervalMs := ConstrainMinUpdateInterval(attrs.value.timeBarMinUpdateIntervalMs);
      }
      adGroupTimesMs := new int[0];
      playedAdGroups := new bool[0];
      extraAdGroupTimesMs := [];
      extraPlayedAdGroups := [];
      dispatcher := _ => true;
      this.timeBarPreferredDelayMs := timeBarPreferredDelayMs;
      this.hasSheet := hasSheet;
      this.hasMoreContentList := hasMoreContentList;
      sheetState := SheetCollapsed;
      hasMiniContent := false;
      player := None;
      seekPreview := None;
      startOverListener := None;
      hasStartOverRights := false;
      hasSwitchItemsListener := false;
      multiWindowTimeBar := false;
      currentWindowOffset := 0;
      timeBarDurationMs := 0;
      timeBarAdGroupCount := 0;
      visible := true;
      isAttachedToWindow := false;
      isFading := false;
      fadeKind := Appearing;
      pending := map[];
      effects := [];
    }

    // -------------------------------------------------------------------
    // Progress refresh

    /** The position the seek bar displays. */
    function ProgressPositionMs(): int
      reads this`player, this`currentWindowOffset
    {
      if player.Some? then currentWindowOffset + player.value.contentPositionMs else 0
    }

    /** The callbacks after updateProgress ran on `m`: unchanged while the
        view is hidden or detached, otherwise the progress callback re-posted
        with the computed delay, or removed when none is due. */
    ghost function ScheduledProgress(m: map<Callback, int>): map<Callback, int>
      reads this`visible, this`isAttachedToWindow, this`player, this`currentWindowOffset, this`timeBarMinUpdateIntervalMs
    {
      if !visible || !isAttachedToWindow then m
      else
        var d := ProgressDelayMs(player, ProgressPositionMs(), timeBarPreferredDelayMs, timeBarMinUpdateIntervalMs);
        if d.Some? then m[ProgressAction := d.value] else m - {ProgressAction}
    }

    /** The scheduling tail of updateProgress (the display updates before
        it are rendering): the delay ProgressDelayMs computes is posted in
        place of any pending refresh. */
    method UpdateProgress()
      requires Valid()
      modifies this`pending
      ensures Valid()
      ensures pending == ScheduledProgress(old(pending))
    {
      if !visible || !isAttachedToWindow {
        return;
      }
      var delayMs := ProgressDelayMs(player, ProgressPositionMs(), timeBarPreferredDelayMs, timeBarMinUpdateIntervalMs);
      ProgressDelayBounded(player, ProgressPositionMs(), timeBarPreferredDelayMs, timeBarMinUpdateIntervalMs);
      // Cancel any pending update and post a new one if one is due.
      pending := pending - {ProgressAction};
      if delayMs.Some? {
        pending := pending[ProgressAction := delayMs.value];
      }
      TimersChangedValid();
    }

    // -------------------------------------------------------------------
    // Timeline

    /** The body of updateTimeline up to the progress refresh: flattens the
        player's timeline into the seek bar's position space, collects the
        ad markers into the two arrays, appends the extra markers and hands
        the result to the seek bar. */
    method PublishTimeline()
      requires MarkersConsistent() && player.Some? && player.value.Valid()
      modifies this`multiWindowTimeBar, this`currentWindowOffset, this`timeBarDurationMs,
               this`adGroupTimesMs, this`playedAdGroups, this`timeBarAdGroupCount,
               adGroupTimesMs, playedAdGroups
      ensures MarkersConsistent() && ShowsTimeline(player.value)
      ensures timeBarPreferredDelayMs.Some? ==>
                timeBarAdGroupCount
                == |Flatten(player.value.timeline, player.value.currentWindowIndex).markers| + |extraAdGroupTimesMs|
      ensures timeBarPreferredDelayMs.None? ==>
                timeBarDurationMs == old(timeBarDurationMs) && timeBarAdGroupCount == old(timeBarAdGroupCount)
      ensures (adGroupTimesMs == old(adGroupTimesMs) && playedAdGroups == old(playedAdGroups))
              || (fresh(adGroupTimesMs) && fresh(playedAdGroups))
    {
      var p := player.value;
      ghost var f := Flatten(p.timeline, p.currentWindowIndex);
      var multi := CanShowMultiWindowTimeBar(p.timeline);
      var times, played, adGroupCount, durationUs, offsetMs :=
        CollectTimeline(p.timeline, p.currentWindowIndex, multi, adGroupTimesMs, playedAdGroups);
      multiWindowTimeBar := multi;
      currentWindowOffset := offsetMs;
      if timeBarPreferredDelayMs.Some? {
        PublishToTimeBar(times, played, adGroupCount, durationUs, f.markers);
      } else {
        adGroupTimesMs, playedAdGroups := times, played;
      }
      assert ShowsTimeline(p);
      assert MarkersConsistent();
    }

    /** The seek-bar half of updateTimeline: the duration and the markers,
        the extra ones appended after the discovered ones. */
    method PublishToTimeBar(times: array<int>, played: array<bool>, adGroupCount: nat, durationUs: nat,
                            ghost markers: seq<Marker>)
      requires Holds(times, played, adGroupCount, markers)
      requires |extraAdGroupTimesMs| == |extraPlayedAdGroups|
      modifies this`timeBarDurationMs, this`adGroupTimesMs, this`playedAdGroups, this`timeBarAdGroupCount,
               times, played
      ensures timeBarDurationMs == UsToMs(durationUs)
      ensures timeBarAdGroupCount == adGroupCount + |extraAdGroupTimesMs|
      ensures Holds(adGroupTimesMs, playedAdGroups, timeBarAdGroupCount,
                    markers + Extras(extraAdGroupTimesMs, extraPlayedAdGroups))
      ensures adGroupTimesMs.Length >= times.Length
      ensures (adGroupTimesMs == times && playedAdGroups == played)
              || (fresh(adGroupTimesMs) && fresh(playedAdGroups))
    {
      timeBarDurationMs := UsToMs(durationUs);
      var times', played' := AppendExtras(times, played, adGroupCount, markers,
                                          extraAdGroupTimesMs, extraPlayedAdGroups);
      timeBarAdGroupCount := adGroupCount + |extraAdGroupTimesMs|;
      adGroupTimesMs, playedAdGroups := times', played';
    }

    /** updateTimeline: publishes the flattened timeline, then refreshes the
        progress. Without a player nothing happens. */
    method UpdateTimeline()
      requires Consistent()
      modifies this`multiWindowTimeBar, this`currentWindowOffset, this`timeBarDurationMs,
               this`adGroupTimesMs, this`playedAdGroups, this`timeBarAdGroupCount, this`pending,
               adGroupTimesMs, playedAdGroups
      ensures Valid()
      ensures player.None? ==> unchanged(this) && unchanged(adGroupTimesMs, playedAdGroups)
      ensures player.Some? ==> ShowsTimeline(player.value) && pending == ScheduledProgress(old(pending))
      ensures pending == Refreshed(old(pending))
      ensures player.Some? && timeBarPreferredDelayMs.Some? ==>
                timeBarAdGroupCount
                == |Flatten(player.value.timeline, player.value.currentWindowIndex).markers| + |extraAdGroupTimesMs|
      ensures timeBarPreferredDelayMs.None? ==>
                timeBarDurationMs == old(timeBarDurationMs) && timeBarAdGroupCount == old(timeBarAdGroupCount)
      ensures (adGroupTimesMs == old(adGroupTimesMs) && playedAdGroups == old(playedAdGroups))
              || (fresh(adGroupTimesMs) && fresh(playedAdGroups))
    {
      if player.None? {
        return;
      }
      PublishTimeline();
      UpdateProgress();
    }

    /** updateAll: the refresh of the buttons is rendering, so what remains
        is the timeline refresh. */
    method UpdateAll()
      requires Consistent()
      modifies this`multiWindowTimeBar, this`currentWindowOffset, this`timeBarDurationMs,
               this`adGroupTimesMs, this`playedAdGroups, this`timeBarAdGroupCount, this`pending,
               adGroupTimesMs, playedAdGroups
      ensures Valid()
      ensures pending == Refreshed(old(pending))
      ensures (adGroupTimesMs == old(adGroupTimesMs) && playedAdGroups == old(playedAdGroups))
              || (fresh(adGroupTimesMs) && fresh(playedAdGroups))
    {
      UpdateTimeline();
    }

    /** The callbacks after updateAll ran on `m` (the refresh of the buttons
        is rendering; with a player, the timeline refresh ends by
        rescheduling the progress). */
    ghost function Refreshed(m: map<Callback, int>): map<Callback, int>
      reads this`visible, this`isAttachedToWindow, this`player, this`currentWindowOffset, this`timeBarMinUpdateIntervalMs
    {
      if player.Some? then ScheduledProgress(m) else m
    }

    // -------------------------------------------------------------------
    // Configuration

    method SetTimeBarMinUpdateInterval(minUpdateIntervalMs: int)
      requires Valid()
      modifies this`timeBarMinUpdateIntervalMs
      ensures Valid()
      ensures timeBarMinUpdateIntervalMs == ConstrainMinUpdateInterval(minUpdateIntervalMs)
    {
      timeBarMinUpdateIntervalMs := ConstrainMinUpdateInterval(minUpdateIntervalMs);
    }

    /** setExtraAdGroupMarkers: no positions means no extra markers; positions
        need played flags of the same length, or the call is rejected (the
        source throws) and nothing changes. An accepted call refreshes the
        seek bar. */
    method SetExtraAdGroupMarkers(extraTimesMs: Option<seq<int>>, extraPlayed: Option<seq<bool>>)
      returns (accepted: bool)
      requires Valid()
      modifies this`extraAdGroupTimesMs, this`extraPlayedAdGroups,
               this`multiWindowTimeBar, this`currentWindowOffset, this`timeBarDurationMs,
               this`adGroupTimesMs, this`playedAdGroups, this`timeBarAdGroupCount, this`pending,
               adGroupTimesMs, playedAdGroups
      ensures Valid()
      ensures accepted <==> extraTimesMs.None? || (extraPlayed.Some? && |extraPlayed.value| == |extraTimesMs.value|)
      ensures !accepted ==> unchanged(this) && unchanged(adGroupTimesMs, playedAdGroups)
      ensures accepted && extraTimesMs.None? ==> extraAdGroupTimesMs == [] && extraPlayedAdGroups == []
      ensures accepted && extraTimesMs.Some? ==>
                extraAdGroupTimesMs == extraTimesMs.value && extraPlayedAdGroups == extraPlayed.value
      ensures accepted ==> pending == Refreshed(old(pending))
    {
      if extraTimesMs.None? {
        extraAdGroupTimesMs := [];
        extraPlayedAdGroups := [];
      } else {
        if extraPlayed.None? || |extraPlayed.value| != |extraTimesMs.value| {
          return false;
        }
        extraAdGroupTimesMs := extraTimesMs.value;
        extraPlayedAdGroups := extraPlayed.value;
      }
      UpdateTimeline();
      return true;
    }

    /** setShowTimeoutMs: a visible controller restarts its hide timer with
        the new timeout. */
    method SetShowTimeoutMs(timeoutMs: int, now: int)
      requires Valid()
      modifies this`showTimeoutMs, this`hideAtMs, this`pending
      ensures Valid()
      ensures showTimeoutMs == timeoutMs
      ensures visible ==> hideAtMs == RearmedHideAt(now) && pending == RearmedPending(old(pending))
      ensures !visible ==> hideAtMs == old(hideAtMs) && pending == old(pending)
    {
      showTimeoutMs := timeoutMs;
      if visible {
        HideAfterTimeout(now);
      }
    }

    // -------------------------------------------------------------------
    // Auto-hide timers

    /** The hide deadline hideAfterTimeout sets at time `now`. */
    function RearmedHideAt(now: int): (t: Time)
      reads this`showTimeoutMs
      ensures t.Ms? <==> showTimeoutMs > 0
      ensures t.Ms? ==> t.ms == now + showTimeoutMs
    {
      if showTimeoutMs > 0 then Ms(now + showTimeoutMs) else Unset
    }

    /** The callbacks after hideAfterTimeout ran on `m`: any posted hide is
        cancelled, and re-posted after the timeout when the timeout is
        positive and the view attached. */
    function RearmedPending(m: map<Callback, int>): (r: map<Callback, int>)
      reads this`showTimeoutMs, this`isAttachedToWindow
      ensures r - {HideAction} == m - {HideAction}
      ensures HideAction in r <==> showTimeoutMs > 0 && isAttachedToWindow
      ensures HideAction in r ==> r[HideAction] == showTimeoutMs
    {
      if showTimeoutMs > 0 && isAttachedToWindow then m[HideAction := showTimeoutMs] else m - {HideAction}
    }

    /** hideAfterTimeout. */
    method HideAfterTimeout(now: int)
      requires Valid()
      modifies this`hideAtMs, this`pending
      ensures Valid()
      ensures hideAtMs == RearmedHideAt(now) && pending == RearmedPending(old(pending))
    {
      pending := pending - {HideAction};
      if showTimeoutMs > 0 {
        hideAtMs := Ms(now + showTimeoutMs);
        if isAttachedToWindow {
          pending := pending[HideAction := showTimeoutMs];
        }
      } else {
        hideAtMs := Unset;
      }
      TimersChangedValid();
    }

    /** hideCarouselAfterTimeout. */
    method HideCarouselAfterTimeout()
      requires Valid()
      modifies this`pending
      ensures Valid()
      ensures isAttachedToWindow ==> pending == old(pending)[HideCarouselAction := DEFAULT_HIDE_CAROUSEL_MS]
      ensures !isAttachedToWindow ==> pending == old(pending) - {HideCarouselAction}
    {
      pending := pending - {HideCarouselAction};
      if isAttachedToWindow {
        pending := pending[HideCarouselAction := DEFAULT_HIDE_CAROUSEL_MS];
      }
      TimersChangedValid();
    }

    /** Whether onHide asks the bottom sheet to collapse: an expanded sheet
        when the carousel is hidden too, or a settling one in any case. */
    predicate CollapsesSheet(hideCarousel: bool)
      reads this`sheetState
    {
      hasSheet && ((hideCarousel && sheetState == SheetExpanded) || sheetState == SheetSettling)
    }

    /** onHide: cancels the progress and hide callbacks, may collapse the
        sheet, and clears the hide deadline. */
    method OnHide(hideCarousel: bool)
      requires Valid()
      modifies this`pending, this`hideAtMs, this`effects
      ensures Valid()
      ensures pending == old(pending) - {ProgressAction, HideAction}
      ensures hideAtMs == Unset
      ensures effects == old(effects) + (if CollapsesSheet(hideCarousel) then [SheetCollapseRequested] else [])
    {
      pending := pending - {ProgressAction};
      pending := pending - {HideAction};
      if CollapsesSheet(hideCarousel) {
        effects := effects + [SheetCollapseRequested];
      }
      hideAtMs := Unset;
      TimersChangedValid();
    }

    /** onShow: refreshes everything and arms the hide timer. */
    method OnShow(now: int)
      requires Valid()
      modifies this`multiWindowTimeBar, this`currentWindowOffset, this`timeBarDurationMs,
               this`adGroupTimesMs, this`playedAdGroups, this`timeBarAdGroupCount, this`pending,
               adGroupTimesMs, playedAdGroups, this`hideAtMs
      ensures Valid()
      ensures hideAtMs == RearmedHideAt(now)
      ensures pending == RearmedPending(Refreshed(old(pending)))
    {
      UpdateAll();
      HideAfterTimeout(now);
    }

    // -------------------------------------------------------------------
    // Visibility and the fade guard

    /** fade: starts a fade unless one is already running; a running fade
        keeps its direction. */
    method Fade(kind: FadeKind)
      modifies this`isFading, this`fadeKind
      ensures isFading
      ensures old(isFading) ==> fadeKind == old(fadeKind)
      ensures !old(isFading) ==> fadeKind == kind
    {
      if !isFading {
        isFading := true;
        fadeKind := kind;
      }
    }

    /** show: a hidden controller fades in. */
    method Show()
      modifies this`isFading, this`fadeKind
      ensures isFading == (old(isFading) || !visible)
      ensures fadeKind == if !old(isFading) && !visible then Appearing else old(fadeKind)
    {
      if !visible {
        Fade(Appearing);
      }
    }

    /** Whether hide and forceHide act: the controller is visible and the
        sheet, if any, is not settling. */
    predicate CanHide()
      reads this`visible, this`sheetState
    {
      visible && (!hasSheet || sheetState != SheetSettling)
    }

    /** ignoreTouch: the "more content" sheet, with its list shown, is
        expanded over the video. */
    predicate IgnoresTouch()
      reads this`hasMiniContent, this`sheetState
    {
      hasMiniContent && hasSheet && sheetState == SheetExpanded
    }

    /** setMiniContentList and hideMiniContent: in a layout with the list of
        more content, the list is shown or hidden, whether or not there is
        a sheet; the adapter, the margin and the scrolling are rendering. */
    method SetMiniContentShown(shown: bool)
      modifies this`hasMiniContent
      ensures hasMoreContentList ==> hasMiniContent == shown
      ensures !hasMoreContentList ==> hasMiniContent == old(hasMiniContent)
    {
      if hasMoreContentList {
        hasMiniContent := shown;
      }
    }

    /** hide: a visible controller fades out, unless its sheet is settling. */
    method Hide()
      modifies this`isFading, this`fadeKind
      ensures isFading == (old(isFading) || CanHide())
      ensures fadeKind == if !old(isFading) && CanHide() then Disappearing else old(fadeKind)
    {
      if CanHide() {
        Fade(Disappearing);
      }
    }

    /** forceHide: hides at once, without a fade. */
    method ForceHide()
      requires Valid()
      modifies this`visible, this`pending, this`hideAtMs, this`effects
      ensures Valid()
      ensures old(CanHide()) ==>
                && !visible && hideAtMs == Unset
                && pending == old(pending) - {ProgressAction, HideAction}
                && effects == old(effects) + (if old(CollapsesSheet(true)) then [SheetCollapseRequested] else [])
      ensures !old(CanHide()) ==> unchanged(this)
    {
      if CanHide() {
        HideNow();
      }
    }

    /** The view becomes invisible and onHide runs, collapsing the sheet
        whatever its state. */
    method HideNow()
      requires Valid()
      modifies this`visible, this`pending, this`hideAtMs, this`effects
      ensures Valid()
      ensures !visible && hideAtMs == Unset
      ensures pending == old(pending) - {ProgressAction, HideAction}
      ensures effects == old(effects) + (if old(CollapsesSheet(true)) then [SheetCollapseRequested] else [])
    {
      visible := false;
      OnHide(true);
    }

    /** The start of a fade animation: the hide callback is cancelled, the
        controller becomes visible (in either direction) and is refreshed. */
    method OnFadeStarted()
      requires Valid() && isFading
      modifies this`visible, this`multiWindowTimeBar, this`currentWindowOffset, this`timeBarDurationMs,
               this`adGroupTimesMs, this`playedAdGroups, this`timeBarAdGroupCount, this`pending,
               adGroupTimesMs, playedAdGroups
      ensures Valid() && isFading
      ensures visible
      ensures pending == Refreshed(old(pending) - {HideAction})
    {
      pending := pending - {HideAction};
      visible := true;
      UpdateAll();
    }

    /** The end of a fade animation: a fade-in runs onShow, a fade-out hides
        the view and runs onHide; either way the fade guard is released. */
    method OnFadeEnded(now: int)
      requires Valid() && isFading
      modifies this`isFading, this`visible, this`hideAtMs, this`effects,
               this`multiWindowTimeBar, this`currentWindowOffset, this`timeBarDurationMs,
               this`adGroupTimesMs, this`playedAdGroups, this`timeBarAdGroupCount, this`pending,
               adGroupTimesMs, playedAdGroups
      ensures Valid() && !isFading
      ensures fadeKind == Appearing ==>
                && visible == old(visible) && effects == old(effects)
                && hideAtMs == RearmedHideAt(now) && pending == RearmedPending(Refreshed(old(pending)))
      ensures fadeKind == Disappearing ==>
                && !visible && hideAtMs == Unset
                && pending == old(pending) - {ProgressAction, HideAction}
                && effects == old(effects) + (if old(CollapsesSheet(true)) then [SheetCollapseRequested] else [])
    {
      isFading := false;
      if fadeKind == Appearing {
        OnShow(now);
      } else {
        HideNow();
      }
    }

    /** A cancelled fade animation only releases the fade guard. */
    method OnFadeCancelled()
      modifies this`isFading
      ensures !isFading
    {
      isFading := false;
    }

    /** The bottom sheet reports a new state: expanding it hides the
        controls (keeping the sheet) and arms the carousel timer;
        collapsing it shows the controls again. */
    method OnSheetStateChanged(state: SheetState, now: int)
      requires Valid() && hasSheet
      modifies this`sheetState, this`hideAtMs, this`effects,
               this`multiWindowTimeBar, this`currentWindowOffset, this`timeBarDurationMs,
               this`adGroupTimesMs, this`playedAdGroups, this`timeBarAdGroupCount, this`pending,
               adGroupTimesMs, playedAdGroups
      ensures Valid() && sheetState == state
      ensures state == SheetExpanded ==>
                && hideAtMs == Unset && effects == old(effects)
                && pending == (if isAttachedToWindow
                               then (old(pending) - {ProgressAction, HideAction})[HideCarouselAction := DEFAULT_HIDE_CAROUSEL_MS]
                               else map[])
      ensures state == SheetCollapsed ==>
                hideAtMs == RearmedHideAt(now) && pending == RearmedPending(Refreshed(old(pending)))
      ensures state != SheetExpanded && state != SheetCollapsed ==>
                hideAtMs == old(hideAtMs) && pending == old(pending) && effects == old(effects)
    {
      sheetState := state;
      if state == SheetExpanded {
        OnHide(false);
        HideCarouselAfterTimeout();
      } else if state == SheetCollapsed {
        OnShow(now);
      }
    }

    // -------------------------------------------------------------------
    // Attachment

    /** The callbacks onAttachedToWindow posts before its refresh, given the
        hide deadline it finds: the rest of a deadline still ahead, nothing
        for a deadline already passed (the controller hides instead), and
        for no deadline a visible controller's fresh hide timer and, with an
        expanded sheet, the carousel timer. */
    function AttachTimers(hideAtMs: Time, now: int): (r: map<Callback, int>)
      reads this`visible, this`showTimeoutMs, this`sheetState
      ensures ProgressAction !in r
      ensures hideAtMs.Ms? ==> (HideAction in r <==> hideAtMs.ms > now) && HideCarouselAction !in r
      ensures hideAtMs.Ms? && HideAction in r ==> r[HideAction] == hideAtMs.ms - now
      ensures hideAtMs.Unset? ==> (HideAction in r <==> visible && showTimeoutMs > 0)
      ensures hideAtMs.Unset? && HideAction in r ==> r[HideAction] == showTimeoutMs
      ensures hideAtMs.Unset? ==> (HideCarouselAction in r <==> visible && hasSheet && sheetState == SheetExpanded)
      ensures HideCarouselAction in r ==> r[HideCarouselAction] == DEFAULT_HIDE_CAROUSEL_MS
    {
      if hideAtMs.Ms? then
        (if hideAtMs.ms - now > 0 then map[HideAction := hideAtMs.ms - now] else map[])
      else if visible then
        (if showTimeoutMs > 0 then map[HideAction := showTimeoutMs] else map[])
        + (if hasSheet && sheetState == SheetExpanded then map[HideCarouselAction := DEFAULT_HIDE_CAROUSEL_MS] else map[])
      else
        map[]
    }

    /** onAttachedToWindow: reconciles the hide timer with the deadline set
        while detached (hiding at once when it has passed, re-posting the
        remainder otherwise), arms fresh timers for a visible controller
        without a deadline, then refreshes everything. */
    method OnAttachedToWindow(now: int)
      requires Valid() && !isAttachedToWindow
      modifies this`isAttachedToWindow, this`hideAtMs, this`isFading, this`fadeKind,
               this`multiWindowTimeBar, this`currentWindowOffset, this`timeBarDurationMs,
               this`adGroupTimesMs, this`playedAdGroups, this`timeBarAdGroupCount, this`pending,
               adGroupTimesMs, playedAdGroups
      ensures Valid() && isAttachedToWindow
      ensures pending == Refreshed(old(AttachTimers(hideAtMs, now)))
      ensures old(hideAtMs).Ms? ==> hideAtMs == old(hideAtMs)
      ensures old(hideAtMs).Unset? ==> hideAtMs == if visible then RearmedHideAt(now) else Unset
      ensures var hidesNow := old(hideAtMs).Ms? && old(hideAtMs).ms <= now && old(CanHide());
              && isFading == (old(isFading) || hidesNow)
              && fadeKind == if !old(isFading) && hidesNow then Disappearing else old(fadeKind)
    {
      AttachAndPostTimers(now);
      UpdateAll();
    }

    /** The part of onAttachedToWindow before the refresh: the view is
        attached (with nothing posted yet) and its timers reconciled. */
    method AttachAndPostTimers(now: int)
      requires Valid() && !isAttachedToWindow
      modifies this`isAttachedToWindow, this`hideAtMs, this`isFading, this`fadeKind, this`pending
      ensures Valid() && isAttachedToWindow
      ensures pending == old(AttachTimers(hideAtMs, now))
      ensures old(hideAtMs).Ms? ==> hideAtMs == old(hideAtMs)
      ensures old(hideAtMs).Unset? ==> hideAtMs == if visible then RearmedHideAt(now) else Unset
      ensures var hidesNow := old(hideAtMs).Ms? && old(hideAtMs).ms <= now && old(CanHide());
              && isFading == (old(isFading) || hidesNow)
              && fadeKind == if !old(isFading) && hidesNow then Disappearing else old(fadeKind)
    {
      isAttachedToWindow := true;
      TimersChangedValid();
      if hideAtMs.Ms? {
        ResumeHideDeadline(now);
      } else if visible {
        ArmFreshTimers(now);
      }
    }

    /** A hide deadline set while detached: hide at once when it has passed,
        otherwise post the hide callback for the time that remains. */
    method ResumeHideDeadline(now: int)
      requires Valid() && isAttachedToWindow && pending == map[] && hideAtMs.Ms?
      modifies this`isFading, this`fadeKind, this`pending
      ensures Valid()
      ensures pending == AttachTimers(hideAtMs, now)
      ensures var hidesNow := hideAtMs.ms <= now && CanHide();
              && isFading == (old(isFading) || hidesNow)
              && fadeKind == if !old(isFading) && hidesNow then Disappearing else old(fadeKind)
    {
      var delayMs := hideAtMs.ms - now;
      if delayMs <= 0 {
        Hide();
      } else {
        pending := pending[HideAction := delayMs];
        TimersChangedValid();
      }
    }

    /** No hide deadline and a visible controller: the hide timer starts
        afresh, and the carousel timer too when the sheet is expanded. */
    method ArmFreshTimers(now: int)
      requires Valid() && isAttachedToWindow && pending == map[] && hideAtMs.Unset? && visible
      modifies this`hideAtMs, this`pending
      ensures Valid()
      ensures hideAtMs == RearmedHideAt(now)
      ensures pending == old(AttachTimers(hideAtMs, now))
    {
      HideAfterTimeout(now);
      if hasSheet && sheetState == SheetExpanded {
        HideCarouselAfterTimeout();
      }
    }

    /** onDetachedFromWindow: cancels all three callbacks. */
    method OnDetachedFromWindow()
      requires Valid()
      modifies this`isAttachedToWindow, this`pending
      ensures Valid() && !isAttachedToWindow
      ensures pending == old(pending) - {ProgressAction, HideAction, HideCarouselAction}
      ensures pending == map[]
    {
      isAttachedToWindow := false;
      pending := pending - {ProgressAction};
      pending := pending - {HideAction};
      pending := pending - {HideCarouselAction};
      forall c: Callback
        ensures c !in pending
      {
        assert c == ProgressAction || c == HideAction || c == HideCarouselAction;
      }
      TimersChangedValid();
    }

    /** The hide callback runs. */
    method OnHideTimer()
      requires Valid() && HideAction in pending
      modifies this`pending, this`isFading, this`fadeKind
      ensures Valid()
      ensures pending == old(pending) - {HideAction}
      ensures isFading == (old(isFading) || CanHide())
      ensures fadeKind == if !old(isFading) && CanHide() then Disappearing else old(fadeKind)
    {
      pending := pending - {HideAction};
      Hide();
    }

    /** The progress callback runs. */
    method OnProgressTimer()
      requires Valid() && ProgressAction in pending
      modifies this`pending
      ensures Valid()
      ensures pending == ScheduledProgress(old(pending) - {ProgressAction})
    {
      pending := pending - {ProgressAction};
      UpdateProgress();
    }

    // -------------------------------------------------------------------
    // Player

    /** setPlayer: the same player is ignored; another one (or none) is
        taken and everything refreshed. */
    method SetPlayer(p: Option<Player>)
      requires Valid()
      requires p.Some? ==> p.value.Valid()
      modifies this`player,
               this`multiWindowTimeBar, this`currentWindowOffset, this`timeBarDurationMs,
               this`adGroupTimesMs, this`playedAdGroups, this`timeBarAdGroupCount, this`pending,
               adGroupTimesMs, playedAdGroups
      ensures Valid()
      ensures SamePlayer(old(player), p) ==> unchanged(this) && unchanged(adGroupTimesMs, playedAdGroups)
      ensures !SamePlayer(old(player), p) ==> player == p && pending == Refreshed(old(pending))
      ensures (adGroupTimesMs == old(adGroupTimesMs) && playedAdGroups == old(playedAdGroups))
              || (fresh(adGroupTimesMs) && fresh(playedAdGroups))
    {
      if SamePlayer(player, p) {
        return;
      }
      player := p;
      UpdateAll();
    }

    /** The player's state (play-when-ready, playback state, position)
        changed; its timeline and current window did not. */
    method OnPlayerStateChanged(p: Player)
      requires Valid() && player.Some? && p.Valid() && p.id == player.value.id
      requires p.timeline == player.value.timeline && p.currentWindowIndex == player.value.currentWindowIndex
      modifies this`player, this`pending
      ensures Valid() && player == Some(p)
      ensures pending == ScheduledProgress(old(pending))
    {
      player := Some(p);
      UpdateProgress();
    }

    /** The player's timeline changed or its position jumped. */
    method OnTimelineChanged(p: Player)
      requires Valid() && player.Some? && p.Valid() && p.id == player.value.id
      modifies this`player,
               this`multiWindowTimeBar, this`currentWindowOffset, this`timeBarDurationMs,
               this`adGroupTimesMs, this`playedAdGroups, this`timeBarAdGroupCount, this`pending,
               adGroupTimesMs, playedAdGroups
      ensures Valid() && player == Some(p)
      ensures ShowsTimeline(p)
      ensures pending == ScheduledProgress(old(pending))
    {
      player := Some(p);
      UpdateTimeline();
    }

    /** The controller's own isPlaying: a player that is set, neither ended
        nor idle, and asked to play. It holds whenever the player itself is
        playing, and never for an ended or idle player. */
    function IsPlaying(): (b: bool)
      reads this
      ensures b ==> player.Some? && player.value.playWhenReady
      ensures player.Some? && (player.value.playbackState == Ended || player.value.playbackState == Idle) ==> !b
      ensures player.Some? && player.value.Valid() && player.value.isPlaying ==> b
      ensures (player.Some? && player.value.playWhenReady
               && (player.value.playbackState == Buffering || player.value.playbackState == Ready)) ==> b
    {
      player.Some?
      && player.value.playbackState != Ended
      && player.value.playbackState != Idle
      && player.value.playWhenReady
    }

    /** A click on the play/pause button asks for the opposite of isPlaying. */
    method ClickPlayback()
      requires player.Some?
      modifies this`effects
      ensures effects == old(effects) + [PlayWhenReadyDispatched(!IsPlaying())]
    {
      effects := effects + [PlayWhenReadyDispatched(!IsPlaying())];
    }

    // -------------------------------------------------------------------
    // Seeking

    /** seekTo's decision for a request, given the current player and
        listeners, with the start-over floor as written (it also raises an
        "unset" target in a live window; see ArbitrateSeekAsWritten). */
    function Arbitrate(windowIndex: nat, position: Time): SeekDecision
      reads this
      requires player.Some?
    {
      var p := player.value;
      ArbitrateSeekAsWritten(p.currentPositionMs, p.CurrentWindowDynamic(), seekPreview, startOverListener,
                             hasStartOverRights, windowIndex, position)
    }

    /** seekTo: re-arms the hide timer, then either reports a blocked seek
        and returns false, or hands the arbitrated target to the dispatcher
        and returns its answer. */
    method SeekTo(now: int, windowIndex: nat, position: Time) returns (dispatched: bool)
      requires Valid() && player.Some?
      modifies this`hideAtMs, this`pending, this`effects
      ensures Valid()
      ensures hideAtMs == RearmedHideAt(now) && pending == RearmedPending(old(pending))
      ensures effects == old(effects) + SeekEffects(Arbitrate(windowIndex, position))
      ensures dispatched <==> Arbitrate(windowIndex, position).Dispatch?
                              && dispatcher(Arbitrate(windowIndex, position).target)
    {
      HideAfterTimeout(now);
      var decision := Arbitrate(windowIndex, position);
      match decision {
        case Blocked =>
          effects := effects + [SeekBlocked];
          dispatched := false;
        case Dispatch(target) =>
          effects := effects + [SeekDispatched(target)];
          dispatched := dispatcher(target);
      }
    }

    /** seekToTimeBarPosition: maps the bar position to a window and a
        position in it, seeks there, and snaps the bar back with a progress
        refresh when the seek was not dispatched. */
    method SeekToTimeBarPosition(now: int, positionMs: int)
      requires Valid() && player.Some?
      modifies this`hideAtMs, this`pending, this`effects
      ensures Valid()
      ensures hideAtMs == RearmedHideAt(now)
      ensures var target := TimeBarTarget(player.value, multiWindowTimeBar, positionMs);
              var d := Arbitrate(target.windowIndex, target.position);
              && effects == old(effects) + SeekEffects(d)
              && pending == if d.Dispatch? && dispatcher(d.target)
                            then RearmedPending(old(pending))
                            else ScheduledProgress(RearmedPending(old(pending)))
    {
      var windowIndex, windowPositionMs := TimeBarSeekTarget(player.value, multiWindowTimeBar, positionMs);
      var dispatched := SeekTo(now, windowIndex, Ms(windowPositionMs));
      if !dispatched {
        UpdateProgress();
      }
    }

    /** The seek bar's scrubbing ended; a cancelled scrub seeks nowhere. */
    method OnScrubStop(now: int, positionMs: int, canceled: bool)
      requires Valid()
      modifies this`hideAtMs, this`pending, this`effects
      ensures Valid()
      ensures canceled || player.None? ==> unchanged(this)
      ensures !canceled && player.Some? ==>
                var target := TimeBarTarget(player.value, multiWindowTimeBar, positionMs);
                var d := Arbitrate(target.windowIndex, target.position);
                && hideAtMs == RearmedHideAt(now)
                && effects == old(effects) + SeekEffects(d)
                && pending == if d.Dispatch? && dispatcher(d.target)
                              then RearmedPending(old(pending))
                              else ScheduledProgress(RearmedPending(old(pending)))
    {
      if !canceled && player.Some? {
        SeekToTimeBarPosition(now, positionMs);
      }
    }

    /** The decision seekToOffset reaches for an offset from the current
        position. */
    function OffsetDecision(offsetMs: int): SeekDecision
      reads this
      requires player.Some?
    {
      var p := player.value;
      Arbitrate(p.currentWindowIndex, Ms(SeekToOffsetPosition(p.currentPositionMs, p.durationMs, offsetMs)))
    }

    /** seekToOffset: seeks the current window to the current position moved
        by the offset, kept within [0, duration]. */
    method SeekToOffset(now: int, offsetMs: int)
      requires Valid() && player.Some?
      modifies this`hideAtMs, this`pending, this`effects
      ensures Valid()
      ensures hideAtMs == RearmedHideAt(now) && pending == RearmedPending(old(pending))
      ensures effects == old(effects) + SeekEffects(OffsetDecision(offsetMs))
    {
      var p := player.value;
      var positionMs := SeekToOffsetPosition(p.currentPositionMs, p.durationMs, offsetMs);
      var _ := SeekTo(now, p.currentWindowIndex, Ms(positionMs));
    }

    /** rewind: only in a seekable window with a positive increment. */
    method Rewind(now: int)
      requires Valid() && player.Some?
      modifies this`hideAtMs, this`pending, this`effects
      ensures Valid()
      ensures player.value.CurrentWindowSeekable() && rewindMs > 0 ==>
                && hideAtMs == RearmedHideAt(now) && pending == RearmedPending(old(pending))
                && effects == old(effects) + SeekEffects(OffsetDecision(-rewindMs))
      ensures !(player.value.CurrentWindowSeekable() && rewindMs > 0) ==> unchanged(this)
    {
      if player.value.CurrentWindowSeekable() && rewindMs > 0 {
        SeekToOffset(now, -rewindMs);
      }
    }

    /** fastForward: only in a seekable window with a positive increment. */
    method FastForward(now: int)
      requires Valid() && player.Some?
      modifies this`hideAtMs, this`pending, this`effects
      ensures Valid()
      ensures player.value.CurrentWindowSeekable() && fastForwardMs > 0 ==>
                && hideAtMs == RearmedHideAt(now) && pending == RearmedPending(old(pending))
                && effects == old(effects) + SeekEffects(OffsetDecision(fastForwardMs))
      ensures !(player.value.CurrentWindowSeekable() && fastForwardMs > 0) ==> unchanged(this)
    {
      if player.value.CurrentWindowSeekable() && fastForwardMs > 0 {
        SeekToOffset(now, fastForwardMs);
      }
    }

    /** startOver: in a seekable window, notifies the start-over listener and
        seeks to the start of the current window. */
    method StartOver(now: int)
      requires Valid() && player.Some?
      modifies this`hideAtMs, this`pending, this`effects
      ensures Valid()
      ensures player.value.CurrentWindowSeekable() ==>
                && hideAtMs == RearmedHideAt(now) && pending == RearmedPending(old(pending))
                && effects == old(effects) + (if startOverListener.Some? then [StartOverNotified] else [])
                             + SeekEffects(Arbitrate(player.value.currentWindowIndex, Ms(0)))
      ensures !player.value.CurrentWindowSeekable() ==> unchanged(this)
    {
      if player.value.CurrentWindowSeekable() {
        if startOverListener.Some? {
          effects := effects + [StartOverNotified];
        }
        var _ := SeekTo(now, player.value.currentWindowIndex, Ms(0));
      }
    }

    /** previous: seeks to the target PreviousTarget chooses, if any. The
        source's previous() is private and nothing calls it: the previous
        button and media key ask the switch-items listener instead. */
    method Previous(now: int)
      requires Valid() && player.Some?
      modifies this`hideAtMs, this`pending, this`effects
      ensures Valid()
      ensures PreviousTarget(player.value).None? ==> unchanged(this)
      ensures PreviousTarget(player.value).Some? ==>
                var t := PreviousTarget(player.value).value;
                && hideAtMs == RearmedHideAt(now) && pending == RearmedPending(old(pending))
                && effects == old(effects) + SeekEffects(Arbitrate(t.windowIndex, t.position))
    {
      var target := PreviousTarget(player.value);
      if target.Some? {
        var _ := SeekTo(now, target.value.windowIndex, target.value.position);
      }
    }

    /** next: seeks to the target NextTarget chooses, if any. Like
        previous, it is private and uncalled in the source. */
    method Next(now: int)
      requires Valid() && player.Some?
      modifies this`hideAtMs, this`pending, this`effects
      ensures Valid()
      ensures NextTarget(player.value).None? ==> unchanged(this)
      ensures NextTarget(player.value).Some? ==>
                var t := NextTarget(player.value).value;
                && hideAtMs == RearmedHideAt(now) && pending == RearmedPending(old(pending))
                && effects == old(effects) + SeekEffects(Arbitrate(t.windowIndex, t.position))
    {
      var target := NextTarget(player.value);
      if target.Some? {
        var _ := SeekTo(now, target.value.windowIndex, target.value.position);
      }
    }

    // -------------------------------------------------------------------
    // Media keys

    /** dispatchMediaKeyEvent: with a player, every handled media key is
        consumed; on key down fast-forward and rewind skip, and the other
        keys act on their first press only. */
    method DispatchMediaKeyEvent(now: int, keyCode: int, action: KeyAction, repeatCount: nat)
      returns (handled: bool)
      requires Valid()
      modifies this`hideAtMs, this`pending, this`effects
      ensures Valid()
      ensures handled <==> player.Some? && IsHandledMediaKey(keyCode)
      ensures !handled || action == KeyUp ==> unchanged(this)
      ensures handled && action == KeyDown && keyCode == KEYCODE_MEDIA_FAST_FORWARD ==>
                if player.value.CurrentWindowSeekable() && fastForwardMs > 0
                then effects == old(effects) + SeekEffects(OffsetDecision(fastForwardMs))
                else unchanged(this)
      ensures handled && action == KeyDown && keyCode == KEYCODE_MEDIA_REWIND ==>
                if player.value.CurrentWindowSeekable() && rewindMs > 0
                then effects == old(effects) + SeekEffects(OffsetDecision(-rewindMs))
                else unchanged(this)
      ensures handled && action == KeyDown && keyCode != KEYCODE_MEDIA_FAST_FORWARD
              && keyCode != KEYCODE_MEDIA_REWIND ==>
                hideAtMs == old(hideAtMs) && pending == old(pending)
      ensures handled && action == KeyDown && repeatCount > 0 && keyCode != KEYCODE_MEDIA_FAST_FORWARD
              && keyCode != KEYCODE_MEDIA_REWIND ==>
                effects == old(effects)
      ensures handled && action == KeyDown && repeatCount == 0 ==>
                && (keyCode == KEYCODE_MEDIA_PLAY_PAUSE ==>
                      effects == old(effects) + [PlayWhenReadyDispatched(!player.value.playWhenReady)])
                && (keyCode == KEYCODE_MEDIA_PLAY ==> effects == old(effects) + [PlayWhenReadyDispatched(true)])
                && (keyCode == KEYCODE_MEDIA_PAUSE ==> effects == old(effects) + [PlayWhenReadyDispatched(false)])
                && (keyCode == KEYCODE_MEDIA_NEXT ==>
                      effects == old(effects) + (if hasSwitchItemsListener then [NextItemRequested] else []))
                && (keyCode == KEYCODE_MEDIA_PREVIOUS ==>
                      effects == old(effects) + (if hasSwitchItemsListener then [PreviousItemRequested] else []))
    {
      if player.None? || !IsHandledMediaKey(keyCode) {
        return false;
      }
      if action == KeyDown {
        if keyCode == KEYCODE_MEDIA_FAST_FORWARD {
          FastForward(now);
        } else if keyCode == KEYCODE_MEDIA_REWIND {
          Rewind(now);
        } else if repeatCount == 0 {
          TransportKey(keyCode);
        }
      }
      return true;
    }

    /** The first press of a media key other than fast-forward and rewind:
        play/pause toggles play-when-ready, play and pause set it, and next
        and previous go to the switch-items listener when there is one. */
    method TransportKey(keyCode: int)
      requires player.Some?
      modifies this`effects
      ensures keyCode == KEYCODE_MEDIA_PLAY_PAUSE ==>
                effects == old(effects) + [PlayWhenReadyDispatched(!player.value.playWhenReady)]
      ensures keyCode == KEYCODE_MEDIA_PLAY ==> effects == old(effects) + [PlayWhenReadyDispatched(true)]
      ensures keyCode == KEYCODE_MEDIA_PAUSE ==> effects == old(effects) + [PlayWhenReadyDispatched(false)]
      ensures keyCode == KEYCODE_MEDIA_NEXT ==>
                effects == old(effects) + (if hasSwitchItemsListener then [NextItemRequested] else [])
      ensures keyCode == KEYCODE_MEDIA_PREVIOUS ==>
                effects == old(effects) + (if hasSwitchItemsListener then [PreviousItemRequested] else [])
    {
      if keyCode == KEYCODE_MEDIA_PLAY_PAUSE {
        effects := effects + [PlayWhenReadyDispatched(!player.value.playWhenReady)];
      } else if keyCode == KEYCODE_MEDIA_PLAY {
        effects := effects + [PlayWhenReadyDispatched(true)];
      } else if keyCode == KEYCODE_MEDIA_PAUSE {
        effects := effects + [PlayWhenReadyDispatched(false)];
      } else if keyCode == KEYCODE_MEDIA_NEXT {
        if hasSwitchItemsListener {
          effects := effects + [NextItemRequested];
        }
      } else if keyCode == KEYCODE_MEDIA_PREVIOUS {
        if hasSwitchItemsListener {
          effects := effects + [PreviousItemRequested];
        }
      }
    }
  }
}

=== FILE: flattening.dfy ===
/** The seek bar's position space: which windows of the timeline share one
    bar, how their durations add up, where the current window starts, and
    which ad-group markers fall inside the bar. These are the reference
    definitions the controller's updateTimeline is proved against. */
module Flattening {
  import opened Common
  import opened Media

  /** The largest number of windows a multi-window seek bar shows. */
  const MAX_WINDOWS_FOR_MULTI_WINDOW_TIME_BAR: nat := 100

  predicate AllDurationsKnown(ws: seq<Window>)
  {
    forall i :: 0 <= i < |ws| ==> ws[i].durationUs.Known?
  }

  /** A timeline can share one seek bar when it has at most 100 windows and
      every one of them has a known duration. */
  predicate MultiWindowEligible(t: Timeline)
  {
    |t| <= MAX_WINDOWS_FOR_MULTI_WINDOW_TIME_BAR && AllDurationsKnown(t)
  }

  /** The read-only scan of canShowMultiWindowTimeBar. */
  method CanShowMultiWindowTimeBar(t: Timeline) returns (b: bool)
    ensures b <==> |t| <= MAX_WINDOWS_FOR_MULTI_WINDOW_TIME_BAR
                   && forall i :: 0 <= i < |t| ==> t[i].durationUs.Known?
  {
    if |t| > MAX_WINDOWS_FOR_MULTI_WINDOW_TIME_BAR {
      return false;
    }
    var windowCount := |t|;
    var i := 0;
    while i < windowCount
      invariant 0 <= i <= windowCount
      invariant forall k :: 0 <= k < i ==> t[k].durationUs.Known?
    {
      if t[i].durationUs.UnknownDuration? {
        return false;
      }
      i := i + 1;
    }
    return true;
  }

  /** How many windows, from the first, have a known duration: flattening
      stops at the first window whose duration is unknown. */
  function KnownCount(ws: seq<Window>): (n: nat)
    ensures n <= |ws|
    ensures forall i :: 0 <= i < n ==> ws[i].durationUs.Known?
    ensures n < |ws| ==> ws[n].durationUs.UnknownDuration?
  {
    if |ws| == 0 || ws[0].durationUs.UnknownDuration? then 0 else 1 + KnownCount(ws[1..])
  }

  /** The summed duration, in microseconds, of windows whose durations are
      all known. */
  function SumUs(ws: seq<Window>): nat
    requires AllDurationsKnown(ws)
  {
    if |ws| == 0 then 0 else SumUs(ws[..|ws| - 1]) + ws[|ws| - 1].durationUs.us
  }

  /** One marker of the seek bar: a position in milliseconds in the bar's
      position space and whether that ad group was played. */
  datatype Marker = Marker(timeMs: int, played: bool)

  /** An ad group's time within its period. A postroll (end of source)
      takes the period's duration, and has no time at all when that
      duration is unknown. */
  function AdGroupTimeInPeriodUs(g: AdGroup, p: Period): (r: Option<int>)
    ensures r.None? <==> g.time.EndOfSource? && p.durationUs.UnknownDuration?
    ensures g.time.At? ==> r == Some(g.time.us)
    ensures g.time.EndOfSource? && p.durationUs.Known? ==> r == Some(p.durationUs.us)
  {
    match g.time
    case At(us) => Some(us)
    case EndOfSource => if p.durationUs.UnknownDuration? then None else Some(p.durationUs.us)
  }

  /** The marker an ad group contributes, if any: only ad groups whose time
      in the window lies in [0, window duration] are kept, placed at the
      window's offset in the bar plus their time in the window. */
  function AdMarker(g: AdGroup, p: Period, windowUs: nat, offsetUs: nat): (r: Option<Marker>)
    ensures r.Some? <==>
              AdGroupTimeInPeriodUs(g, p).Some?
              && 0 <= AdGroupTimeInPeriodUs(g, p).value + p.positionInWindowUs <= windowUs
    ensures r.Some? ==>
              var inWindowUs := AdGroupTimeInPeriodUs(g, p).value + p.positionInWindowUs;
              r.value == Marker(UsToMs(offsetUs + inWindowUs), g.played)
    ensures r.Some? ==> 0 <= r.value.timeMs <= UsToMs(offsetUs + windowUs)
  {
    var t := AdGroupTimeInPeriodUs(g, p);
    if t.Some? && 0 <= t.value + p.positionInWindowUs <= windowUs then
      var inWindowUs := t.value + p.positionInWindowUs;
      UsToMsMonotone(offsetUs + inWindowUs, offsetUs + windowUs);
      Some(Marker(UsToMs(offsetUs + inWindowUs), g.played))
    else
      None
  }

  function OptionToSeq(o: Option<Marker>): (s: seq<Marker>)
    ensures |s| <= 1 && (o.Some? ==> s == [o.value]) && (o.None? ==> s == [])
  {
    if o.Some? then [o.value] else []
  }

  /** The markers of the first |gs| ad groups of period p, in order. */
  function PeriodMarkers(gs: seq<AdGroup>, p: Period, windowUs: nat, offsetUs: nat): (r: seq<Marker>)
    ensures |r| <= |gs|
  {
    if |gs| == 0 then []
    else PeriodMarkers(gs[..|gs| - 1], p, windowUs, offsetUs)
         + OptionToSeq(AdMarker(gs[|gs| - 1], p, windowUs, offsetUs))
  }

  /** The markers of a window's periods, period by period. */
  function PeriodsMarkers(ps: seq<Period>, windowUs: nat, offsetUs: nat): seq<Marker>
  {
    if |ps| == 0 then []
    else PeriodsMarkers(ps[..|ps| - 1], windowUs, offsetUs)
         + PeriodMarkers(ps[|ps| - 1].adGroups, ps[|ps| - 1], windowUs, offsetUs)
  }

  /** The markers of consecutive windows of known duration, each window's
      markers shifted by the durations of the windows before it. */
  function WindowsMarkers(ws: seq<Window>): seq<Marker>
    requires AllDurationsKnown(ws)
  {
    if |ws| == 0 then []
    else
      var init, last := ws[..|ws| - 1], ws[|ws| - 1];
      WindowsMarkers(init) + PeriodsMarkers(last.periods, last.durationUs.us, SumUs(init))
  }

  /** Every marker of a period lies within its window's span of the bar. */
  lemma {:induction false} PeriodMarkersInWindow(gs: seq<AdGroup>, p: Period, windowUs: nat, offsetUs: nat)
    ensures forall k :: 0 <= k < |PeriodMarkers(gs, p, windowUs, offsetUs)| ==>
              0 <= PeriodMarkers(gs, p, windowUs, offsetUs)[k].timeMs <= UsToMs(offsetUs + windowUs)
  {
    if |gs| > 0 {
      PeriodMarkersInWindow(gs[..|gs| - 1], p, windowUs, offsetUs);
    }
  }

  /** Every marker of a window's periods lies within the window's span. */
  lemma {:induction false} PeriodsMarkersInWindow(ps: seq<Period>, windowUs: nat, offsetUs: nat)
    ensures forall k :: 0 <= k < |PeriodsMarkers(ps, windowUs, offsetUs)| ==>
              0 <= PeriodsMarkers(ps, windowUs, offsetUs)[k].timeMs <= UsToMs(offsetUs + windowUs)
  {
    if |ps| > 0 {
      PeriodsMarkersInWindow(ps[..|ps| - 1], windowUs, offsetUs);
      PeriodMarkersInWindow(ps[|ps| - 1].adGroups, ps[|ps| - 1], windowUs, offsetUs);
    }
  }

  /** Every marker of consecutive windows lies within their combined
      duration. */
  lemma {:induction false} WindowsMarkersInBar(ws: seq<Window>)
    requires AllDurationsKnown(ws)
    ensures forall k :: 0 <= k < |WindowsMarkers(ws)| ==> 0 <= WindowsMarkers(ws)[k].timeMs <= UsToMs(SumUs(ws))
  {
    if |ws| > 0 {
      var init, last := ws[..|ws| - 1], ws[|ws| - 1];
      WindowsMarkersInBar(init);
      PeriodsMarkersInWindow(last.periods, last.durationUs.us, SumUs(init));
      UsToMsMonotone(SumUs(init), SumUs(ws));
    }
  }

  lemma UsToMsMonotone(a: nat, b: nat)
    requires a <= b
    ensures UsToMs(a) <= UsToMs(b)
  {
  }

  /** The result of flattening a timeline for the seek bar. */
  datatype Flattened = Flattened(
    multiWindow: bool,
    currentWindowOffsetMs: nat,
    durationUs: nat,
    markers: seq<Marker>)

  /** The windows the bar covers: all of them in multi-window mode, only the
      current one otherwise. */
  function IncludedWindows(t: Timeline, cur: nat, multi: bool): (ws: seq<Window>)
    requires cur < |t|
    ensures multi ==> ws == t
    ensures !multi ==> ws == [t[cur]]
  {
    if multi then t else [t[cur]]
  }

  /** What updateTimeline computes from a timeline and the current window
      index: flattening stops at the first included window of unknown
      duration. */
  function Flatten(t: Timeline, cur: nat): Flattened
    requires |t| > 0 ==> cur < |t|
  {
    var multi := MultiWindowEligible(t);
    if |t| == 0 then Flattened(multi, 0, 0, [])
    else
      var included := IncludedWindows(t, cur, multi);
      var known := included[..KnownCount(included)];
      Flattened(multi, if multi then UsToMs(SumUs(t[..cur])) else 0, SumUs(known), WindowsMarkers(known))
  }

  /** A prefix of windows never lasts longer than a longer prefix. */
  lemma {:induction false} SumUsPrefix(ws: seq<Window>, i: nat, j: nat)
    requires AllDurationsKnown(ws)
    requires i <= j <= |ws|
    ensures SumUs(ws[..i]) <= SumUs(ws[..j])
  {
    if i < j {
      assert ws[..j][..j - 1] == ws[..j - 1];
      SumUsPrefix(ws, i, j - 1);
    }
  }

  /** In multi-window mode the bar spans the whole timeline: no window has an
      unknown duration (so the loop's state check never fails), the duration
      is the sum of all window durations, and the current window starts at
      the sum of the durations before it, which lies within the bar. */
  lemma FlattenMultiWindow(t: Timeline, cur: nat)
    requires cur < |t|
    requires MultiWindowEligible(t)
    ensures KnownCount(t) == |t|
    ensures Flatten(t, cur).multiWindow
    ensures Flatten(t, cur).durationUs == SumUs(t)
    ensures Flatten(t, cur).currentWindowOffsetMs == UsToMs(SumUs(t[..cur]))
    ensures Flatten(t, cur).currentWindowOffsetMs * 1000 + WindowDurationMs(t[cur]) * 1000
            <= Flatten(t, cur).durationUs
  {
    assert t[..|t|] == t;
    SumUsPrefix(t, cur + 1, |t|);
    assert t[..cur + 1][..cur] == t[..cur];
  }

  /** Outside multi-window mode the bar covers the current window alone: the
      offset is 0, the duration is the current window's, or 0 with no
      markers when that duration is unknown (live content). */
  lemma FlattenSingleWindow(t: Timeline, cur: nat)
    requires cur < |t|
    requires !MultiWindowEligible(t)
    ensures !Flatten(t, cur).multiWindow
    ensures Flatten(t, cur).currentWindowOffsetMs == 0
    ensures t[cur].durationUs.Known? ==> Flatten(t, cur).durationUs == t[cur].durationUs.us
    ensures t[cur].durationUs.UnknownDuration? ==>
              Flatten(t, cur).durationUs == 0 && Flatten(t, cur).markers == []
  {
    var included := [t[cur]];
    if t[cur].durationUs.Known? {
      assert KnownCount(included) == 1;
      assert included[..1] == included;
      assert included[..0] == [];
    } else {
      assert KnownCount(included) == 0;
    }
  }

  /** Every discovered marker lies in [0, duration] of the bar, in
      milliseconds. */
  lemma FlattenMarkersInBar(t: Timeline, cur: nat)
    requires |t| > 0 ==> cur < |t|
    ensures forall k :: 0 <= k < |Flatten(t, cur).markers| ==>
              0 <= Flatten(t, cur).markers[k].timeMs <= UsToMs(Flatten(t, cur).durationUs)
  {
    if |t| > 0 {
      var included := IncludedWindows(t, cur, MultiWindowEligible(t));
      WindowsMarkersInBar(included[..KnownCount(included)]);
    }
  }
}

=== FILE: marker_arrays.dfy ===
/** The controller's two parallel marker arrays (positions and played
    flags): how they grow, how discovered markers are appended while the
    timeline is walked, and how the extra markers are copied after them. */
module MarkerArrays {
  import opened Common
  import opened Media
  import opened Flattening

  /** The arrays hold the markers `m` in their first `count` slots. */
  ghost predicate Holds(times: array<int>, played: array<bool>, count: nat, m: seq<Marker>)
    reads times, played
  {
    && times.Length == played.Length
    && count == |m|
    && count <= times.Length
    && forall k :: 0 <= k < count ==> times[k] == m[k].timeMs && played[k] == m[k].played
  }

  /** Arrays.copyOf: a fresh array of length n holding a's elements first
      and the default value after them. */
  method CopyOf<T>(a: array<T>, n: nat, default: T) returns (b: array<T>)
    ensures fresh(b) && b.Length == n
    ensures forall k :: 0 <= k < n ==> b[k] == if k < a.Length then a[k] else default
  {
    b := new T[n](_ => default);
    var upto := Min(n, a.Length);
    var i := 0;
    while i < upto
      invariant 0 <= i <= upto
      invariant forall k :: 0 <= k < n ==> b[k] == if k < i then a[k] else default
    {
      b[i] := a[i];
      i := i + 1;
    }
  }

  /** Writes one marker at slot `count`. When the arrays are full they are
      first replaced by copies of twice the length (length 1 when empty);
      the slots before `count` keep their values either way. */
  method Append(times: array<int>, played: array<bool>, count: nat, m: Marker)
    returns (times': array<int>, played': array<bool>)
    requires times.Length == played.Length && count <= times.Length
    modifies times, played
    ensures times'.Length == played'.Length && count < times'.Length
    ensures count < times.Length ==> times' == times && played' == played
    ensures count == times.Length ==>
              fresh(times') && fresh(played')
              && times'.Length == if count == 0 then 1 else 2 * count
    ensures forall k :: 0 <= k < count ==> times'[k] == old(times[k]) && played'[k] == old(played[k])
    ensures times'[count] == m.timeMs && played'[count] == m.played
  {
    times', played' := times, played;
    if count == times.Length {
      var newLength := if times.Length == 0 then 1 else times.Length * 2;
      times' := CopyOf(times, newLength, 0);
      played' := CopyOf(played, newLength, false);
    }
    times'[count] := m.timeMs;
    played'[count] := m.played;
  }

  /** The inner loop of updateTimeline over one period's ad groups. */
  method CollectPeriod(times: array<int>, played: array<bool>, count: nat, ghost m: seq<Marker>,
                       p: Period, windowUs: nat, offsetUs: nat)
    returns (times': array<int>, played': array<bool>, count': nat)
    requires Holds(times, played, count, m)
    modifies times, played
    ensures Holds(times', played', count', m + PeriodMarkers(p.adGroups, p, windowUs, offsetUs))
    ensures times'.Length >= times.Length
    ensures (times' == times && played' == played) || (fresh(times') && fresh(played'))
  {
    times', played', count' := times, played, count;
    var gs := p.adGroups;
    var adGroupIndex := 0;
    while adGroupIndex < |gs|
      invariant 0 <= adGroupIndex <= |gs|
      invariant Holds(times', played', count', m + PeriodMarkers(gs[..adGroupIndex], p, windowUs, offsetUs))
      invariant times'.Length >= times.Length
      invariant (times' == times && played' == played) || (fresh(times') && fresh(played'))
    {
      assert gs[..adGroupIndex + 1][..adGroupIndex] == gs[..adGroupIndex];
      ghost var before := m + PeriodMarkers(gs[..adGroupIndex], p, windowUs, offsetUs);
      times', played', count' := CollectAdGroup(times', played', count', before, gs[adGroupIndex], p, windowUs, offsetUs);
      adGroupIndex := adGroupIndex + 1;
    }
    assert gs[..|gs|] == gs;
  }

  /** One step of that loop: the ad group's time in the window, and its
      marker when that time lies within the window. */
  method CollectAdGroup(times: array<int>, played: array<bool>, count: nat, ghost m: seq<Marker>,
                        g: AdGroup, p: Period, windowUs: nat, offsetUs: nat)
    returns (times': array<int>, played': array<bool>, count': nat)
    requires Holds(times, played, count, m)
    modifies times, played
    ensures Holds(times', played', count', m + OptionToSeq(AdMarker(g, p, windowUs, offsetUs)))
    ensures times'.Length >= times.Length
    ensures (times' == times && played' == played) || (fresh(times') && fresh(played'))
  {
    times', played', count' := times, played, count;
    var timeInPeriodUs := 0;
    match g.time {
      case At(us) => timeInPeriodUs := us;
      case EndOfSource =>
        if p.durationUs.UnknownDuration? {
          // No marker for a postroll in a period of unknown duration.
          return;
        }
        timeInPeriodUs := p.durationUs.us;
    }
    var timeInWindowUs := timeInPeriodUs + p.positionInWindowUs;
    if 0 <= timeInWindowUs <= windowUs {
      var marker := Marker(UsToMs(offsetUs + timeInWindowUs), g.played);
      times', played' := Append(times', played', count', marker);
      count' := count' + 1;
    }
  }

  /** The loop of updateTimeline over one window's periods. */
  method CollectWindow(times: array<int>, played: array<bool>, count: nat, ghost m: seq<Marker>,
                       w: Window, offsetUs: nat)
    returns (times': array<int>, played': array<bool>, count': nat)
    requires w.durationUs.Known?
    requires Holds(times, played, count, m)
    modifies times, played
    ensures Holds(times', played', count', m + PeriodsMarkers(w.periods, w.durationUs.us, offsetUs))
    ensures times'.Length >= times.Length
    ensures (times' == times && played' == played) || (fresh(times') && fresh(played'))
  {
    times', played', count' := times, played, count;
    var ps := w.periods;
    var j := 0;
    while j < |ps|
      invariant 0 <= j <= |ps|
      invariant Holds(times', played', count', m + PeriodsMarkers(ps[..j], w.durationUs.us, offsetUs))
      invariant times'.Length >= times.Length
      invariant (times' == times && played' == played) || (fresh(times') && fresh(played'))
    {
      assert ps[..j + 1][..j] == ps[..j];
      ghost var before := m + PeriodsMarkers(ps[..j], w.durationUs.us, offsetUs);
      times', played', count' := CollectPeriod(times', played', count', before, ps[j], w.durationUs.us, offsetUs);
      j := j + 1;
    }
    assert ps[..|ps|] == ps;
  }

  /** The extra markers, copied in order after the `count` discovered ones;
      the arrays are replaced by copies of exactly the total length when
      they are too short. */
  method AppendExtras(times: array<int>, played: array<bool>, count: nat, ghost m: seq<Marker>,
                      extraTimes: seq<int>, extraPlayed: seq<bool>)
    returns (times': array<int>, played': array<bool>)
    requires Holds(times, played, count, m)
    requires |extraTimes| == |extraPlayed|
    modifies times, played
    ensures Holds(times', played', count + |extraTimes|, m + Extras(extraTimes, extraPlayed))
    ensures times'.Length == Max(times.Length, count + |extraTimes|)
    ensures (times' == times && played' == played) || (fresh(times') && fresh(played'))
  {
    var extraCount := |extraTimes|;
    var total := count + extraCount;
    times', played' := times, played;
    if total > times.Length {
      times', played' := Grow(times, played, count, m, total);
    }
    var i := 0;
    while i < extraCount
      invariant 0 <= i <= extraCount
      invariant times'.Length == played'.Length == Max(times.Length, total)
      invariant forall k :: 0 <= k < count ==> times'[k] == m[k].timeMs && played'[k] == m[k].played
      invariant forall k :: count <= k < count + i ==>
                  times'[k] == extraTimes[k - count] && played'[k] == extraPlayed[k - count]
      invariant (times' == times && played' == played) || (fresh(times') && fresh(played'))
    {
      times'[count + i] := extraTimes[i];
      played'[count + i] := extraPlayed[i];
      i := i + 1;
    }
    ghost var all := m + Extras(extraTimes, extraPlayed);
    assert forall k :: count <= k < total ==> all[k] == Marker(extraTimes[k - count], extraPlayed[k - count]);
  }

  /** Copies of both arrays at length n, keeping the markers `m` held in
      their first `count` slots. */
  method Grow(times: array<int>, played: array<bool>, count: nat, ghost m: seq<Marker>, n: nat)
    returns (times': array<int>, played': array<bool>)
    requires Holds(times, played, count, m)
    requires times.Length <= n
    ensures fresh(times') && fresh(played')
    ensures times'.Length == n && Holds(times', played', count, m)
  {
    times' := CopyOf(times, n, 0);
    played' := CopyOf(played, n, false);
  }

  /** The extra markers as markers, pairing positions with played flags. */
  function Extras(extraTimes: seq<int>, extraPlayed: seq<bool>): (r: seq<Marker>)
    requires |extraTimes| == |extraPlayed|
    ensures |r| == |extraTimes|
    ensures forall k :: 0 <= k < |r| ==> r[k] == Marker(extraTimes[k], extraPlayed[k])
  {
    if |extraTimes| == 0 then []
    else Extras(extraTimes[..|extraTimes| - 1], extraPlayed[..|extraPlayed| - 1])
         + [Marker(extraTimes[|extraTimes| - 1], extraPlayed[|extraPlayed| - 1])]
  }
}

=== FILE: media.dfy ===
/** What the overlay reads from the player it controls: the timeline of
    windows (with their periods and ad groups) and a snapshot of the
    player's state. Both are plain values here; the player itself and its
    notifications are outside the model. */
module Media {
  import opened Common

  /** A window's or period's duration in microseconds, or the library's
      "unset" sentinel when it is not known (live content). */
  datatype Duration = Known(us: nat) | UnknownDuration

  /** Where an ad group sits in its period: a time in microseconds, or the
      "end of source" sentinel of a postroll. */
  datatype AdTime = At(us: int) | EndOfSource

  datatype AdGroup = AdGroup(time: AdTime, played: bool)

  /** A period of a window: its duration, where it starts relative to the
      window, and its ad groups in timeline order. */
  datatype Period = Period(durationUs: Duration, positionInWindowUs: int, adGroups: seq<AdGroup>)

  /** A window of the timeline, which owns its periods. */
  datatype Window = Window(durationUs: Duration, periods: seq<Period>, isSeekable: bool, isDynamic: bool)

  type Timeline = seq<Window>

  /** A window's duration in milliseconds, as the window's getDurationMs
      reports it (only asked of windows whose duration is known). */
  function WindowDurationMs(w: Window): (ms: nat)
    requires w.durationUs.Known?
    ensures ms * 1000 <= w.durationUs.us
  {
    UsToMs(w.durationUs.us)
  }

  datatype PlaybackState = Idle | Buffering | Ready | Ended

  /** A snapshot of the player. `id` stands for the player's identity (the
      source compares player references). `previousWindowIndex` and
      `nextWindowIndex` are None where the player answers INDEX_UNSET;
      `durationMs` is None where it answers TIME_UNSET. `isPlaying` is the
      player's own notion (ready, play-when-ready and not suppressed). */
  datatype Player = Player(
    id: nat,
    timeline: Timeline,
    currentWindowIndex: nat,
    previousWindowIndex: Option<nat>,
    nextWindowIndex: Option<nat>,
    currentPositionMs: int,
    contentPositionMs: int,
    durationMs: Option<nat>,
    playbackState: PlaybackState,
    playWhenReady: bool,
    isPlaying: bool,
    isPlayingAd: bool,
    speed: real)
  {
    /** What the player guarantees of its own answers. */
    predicate Valid()
    {
      && (|timeline| > 0 ==> currentWindowIndex < |timeline|)
      && (isPlaying ==> playbackState == Ready && playWhenReady)
    }

    predicate CurrentWindowDynamic()
    {
      currentWindowIndex < |timeline| && timeline[currentWindowIndex].isDynamic
    }

    predicate CurrentWindowSeekable()
    {
      currentWindowIndex < |timeline| && timeline[currentWindowIndex].isSeekable
    }
  }

  /** Reference identity of the player a view holds (null being None). */
  predicate SamePlayer(a: Option<Player>, b: Option<Player>)
  {
    (a.None? && b.None?) || (a.Some? && b.Some? && a.value.id == b.value.id)
  }
}

=== FILE: player_view.dfy ===
/** The player view that hosts a controller: when it shows or hides the
    controller, when its buffering spinner is visible, how it turns touches
    into clicks, and how a player moves from one view to another. */
module Players {
  import opened Common
  import opened Media
  import opened ControlView

  /** The buffering-spinner modes. */
  const SHOW_BUFFERING_NEVER: int := 0
  const SHOW_BUFFERING_WHEN_PLAYING: int := 1
  const SHOW_BUFFERING_ALWAYS: int := 2

  /** The touch actions the view tells apart; every other action (move,
      cancel, ...) is Other. */
  datatype TouchAction = TouchDown | TouchUp | TouchOther

  /** The styled attributes the view's constructor reads. */
  datatype ViewAttributes = ViewAttributes(
    useController: bool, showTimeoutMs: int, hideOnTouch: bool, autoShow: bool,
    showBuffering: int, hideDuringAds: bool)

  /** A call the player's video component receives from a view: the view's
      surface is handed to the player, or taken back from it. */
  datatype SurfaceCall = SurfaceSet(playerId: nat, view: PlayerView) | SurfaceCleared(playerId: nat, view: PlayerView)

  /** The calls the player's video components receive, in order. */
  class VideoCalls {
    var calls: seq<SurfaceCall>

    constructor()
      ensures calls == []
    {
      calls := [];
    }
  }

  /** The views whose surface the player with id `playerId` renders to after
      `calls`. */
  ghost function AttachedViews(calls: seq<SurfaceCall>, playerId: nat): set<PlayerView>
  {
    if |calls| == 0 then {}
    else
      var before := AttachedViews(calls[..|calls| - 1], playerId);
      match calls[|calls| - 1]
      case SurfaceSet(id, v) => if id == playerId then before + {v} else before
      case SurfaceCleared(id, v) => if id == playerId then before - {v} else before
  }

  /** The surface calls setPlayer makes when the view moves from `current`
      to `next`: the old player's surface is cleared, then the new player's
      is set; nothing at all when the player is the same and not forced. */
  function SetPlayerCalls(current: Option<Player>, next: Option<Player>, force: bool, view: PlayerView)
    : (r: seq<SurfaceCall>)
    ensures SamePlayer(current, next) && !force ==> r == []
    ensures current.None? && next.Some? ==> r == [SurfaceSet(next.value.id, view)]
    ensures current.Some? && next.None? ==> r == [SurfaceCleared(current.value.id, view)]
    ensures current.None? && next.None? ==> r == []
    ensures current.Some? && next.Some? && (force || current.value.id != next.value.id) ==>
              r == [SurfaceCleared(current.value.id, view), SurfaceSet(next.value.id, view)]
    ensures |r| <= 2
  {
    if SamePlayer(current, next) && !force then []
    else
      (if current.Some? then [SurfaceCleared(current.value.id, view)] else [])
      + (if next.Some? then [SurfaceSet(next.value.id, view)] else [])
  }

  /** Whether the controller is shown with no timeout: always without a
      player; otherwise, with auto-show, while the player is idle, has ended
      or is not asked to play. A playing player is never shown that way. */
  function ShowsIndefinitely(player: Option<Player>, autoShow: bool): (r: bool)
    ensures player.None? ==> r
    ensures player.Some? && !autoShow ==> !r
    ensures player.Some? && player.value.Valid() && player.value.isPlaying ==> !r
    ensures player.Some? && autoShow && !player.value.playWhenReady ==> r
    ensures (player.Some? && autoShow
             && (player.value.playbackState == Idle || player.value.playbackState == Ended)) ==> r
    ensures player.Some? && player.value.playbackState == Buffering && player.value.playWhenReady ==> !r
  {
    if player.None? then true
    else
      var state := player.value.playbackState;
      autoShow && (state == Idle || state == Ended || !player.value.playWhenReady)
  }

  /** isPlayingAd: a player is set, is playing an ad, and is asked to play. */
  predicate PlayingAd(player: Option<Player>)
  {
    player.Some? && player.value.isPlayingAd && player.value.playWhenReady
  }

  /** Whether the buffering spinner shows: only while a player buffers,
      always in ALWAYS mode, only when asked to play in WHEN_PLAYING mode,
      and never in NEVER mode or any other mode value. */
  function BufferingSpinnerShown(player: Option<Player>, mode: int): (r: bool)
    ensures r ==> player.Some? && player.value.playbackState == Buffering
    ensures mode != SHOW_BUFFERING_ALWAYS && mode != SHOW_BUFFERING_WHEN_PLAYING ==> !r
    ensures mode == SHOW_BUFFERING_ALWAYS ==>
              (r <==> player.Some? && player.value.playbackState == Buffering)
    ensures r && mode == SHOW_BUFFERING_WHEN_PLAYING ==> player.value.playWhenReady
    ensures (mode == SHOW_BUFFERING_WHEN_PLAYING && player.Some? && player.value.playbackState == Buffering
             && player.value.playWhenReady) ==> r
  {
    player.Some?
    && player.value.playbackState == Buffering
    && (mode == SHOW_BUFFERING_ALWAYS || (mode == SHOW_BUFFERING_WHEN_PLAYING && player.value.playWhenReady))
  }

  /** The deprecated boolean form of setShowBuffering: true asks for the
      spinner when playing, false for none. */
  function BufferingModeFor(showBuffering: bool): (mode: int)
    ensures showBuffering <==> mode == SHOW_BUFFERING_WHEN_PLAYING
    ensures !showBuffering <==> mode == SHOW_BUFFERING_NEVER
  {
    if showBuffering then SHOW_BUFFERING_WHEN_PLAYING else SHOW_BUFFERING_NEVER
  }

  /** Handing the surface to the new view before taking it from the old one
      keeps the player rendering to some view after every single call, and
      ends with the new view in place of the old one. */
  lemma {:induction false} AttachBeforeDetachKeepsSurface(calls: seq<SurfaceCall>, playerId: nat,
                                                          oldView: PlayerView, newView: PlayerView)
    requires oldView in AttachedViews(calls, playerId) && oldView != newView
    ensures var after := calls + [SurfaceSet(playerId, newView), SurfaceCleared(playerId, oldView)];
            && (forall k :: |calls| <= k <= |after| ==> AttachedViews(after[..k], playerId) != {})
            && AttachedViews(after, playerId) == AttachedViews(calls, playerId) - {oldView} + {newView}
  {
    var after := calls + [SurfaceSet(playerId, newView), SurfaceCleared(playerId, oldView)];
    assert after[..|calls|] == calls;
    assert after[..|calls| + 1] == calls + [SurfaceSet(playerId, newView)];
    assert after[..|calls| + 2] == after;
    assert after[..|calls| + 1][..|calls|] == calls;
    assert AttachedViews(after[..|calls| + 1], playerId) == AttachedViews(calls, playerId) + {newView};
    assert after[..|after| - 1] == after[..|calls| + 1];
    assert AttachedViews(after, playerId) == AttachedViews(calls, playerId) + {newView} - {oldView};
    forall k | |calls| <= k <= |after|
      ensures AttachedViews(after[..k], playerId) != {}
    {
      if k == |calls| {
        assert oldView in AttachedViews(after[..k], playerId);
      } else if k == |calls| + 1 {
        assert newView in AttachedViews(after[..k], playerId);
      } else {
        assert newView in AttachedViews(after[..k], playerId);
      }
    }
  }

  /** One more call changes the player's surfaces by exactly that call. */
  lemma AttachedViewsAppend(calls: seq<SurfaceCall>, c: SurfaceCall, playerId: nat)
    ensures AttachedViews(calls + [c], playerId)
            == if c.playerId != playerId then AttachedViews(calls, playerId)
               else if c.SurfaceSet? then AttachedViews(calls, playerId) + {c.view}
               else AttachedViews(calls, playerId) - {c.view}
  {
    assert (calls + [c])[..|calls|] == calls;
  }

  /** The calls switchTargetView makes: the new view may first clear another
      player's surface, then sets this player's; the old view then clears
      its own surface. When the old view was one of the player's surfaces,
      the player has a surface after every one of these calls, and ends
      with the new view among its surfaces. */
  lemma {:induction false} SwitchKeepsSurface(calls: seq<SurfaceCall>, playerId: nat, oldView: PlayerView,
                                              newView: PlayerView, pre: seq<SurfaceCall>, post: seq<SurfaceCall>)
    requires oldView in AttachedViews(calls, playerId) && oldView != newView
    requires |pre| <= 1 && forall j :: 0 <= j < |pre| ==> pre[j].playerId != playerId
    requires |post| <= 1 && forall j :: 0 <= j < |post| ==> post[j] == SurfaceCleared(post[j].playerId, oldView)
    ensures var after := calls + pre + [SurfaceSet(playerId, newView)] + post;
            && (forall k :: |calls| <= k <= |after| ==> AttachedViews(after[..k], playerId) != {})
            && newView in AttachedViews(after, playerId)
  {
    var s1 := calls + pre;
    var s2 := s1 + [SurfaceSet(playerId, newView)];
    var after := s2 + post;
    if |pre| == 1 {
      assert s1 == calls + [pre[0]];
      AttachedViewsAppend(calls, pre[0], playerId);
    } else {
      assert s1 == calls;
    }
    assert oldView in AttachedViews(s1, playerId);
    AttachedViewsAppend(s1, SurfaceSet(playerId, newView), playerId);
    assert newView in AttachedViews(s2, playerId);
    if |post| == 1 {
      assert after == s2 + [post[0]];
      AttachedViewsAppend(s2, post[0], playerId);
    } else {
      assert after == s2;
    }
    assert newView in AttachedViews(after, playerId);
    forall k | |calls| <= k <= |after|
      ensures AttachedViews(after[..k], playerId) != {}
    {
      if k == |calls| {
        assert after[..k] == calls;
        assert oldView in AttachedViews(after[..k], playerId);
      } else if k <= |s1| {
        assert after[..k] == s1;
        assert oldView in AttachedViews(after[..k], playerId);
      } else if k == |s2| {
        assert after[..k] == s2;
        assert newView in AttachedViews(after[..k], playerId);
      } else {
        assert after[..k] == after;
        assert newView in AttachedViews(after[..k], playerId);
      }
    }
  }

  /** The other order leaves a gap: when the old view was the player's only
      surface, taking it first leaves the player with none. */
  lemma {:induction false} DetachFirstLeavesGap(calls: seq<SurfaceCall>, playerId: nat, oldView: PlayerView)
    requires AttachedViews(calls, playerId) == {oldView}
    ensures AttachedViews(calls + [SurfaceCleared(playerId, oldView)], playerId) == {}
  {
    var after := calls + [SurfaceCleared(playerId, oldView)];
    assert after[..|after| - 1] == calls;
  }

  class PlayerView {
    /** The hosted controller (the view's layout always provides one). */
    const controller: PlayerControlView
    /** Whether the layout has a buffering spinner. */
    const hasBufferingView: bool

    var player: Option<Player>
    var useController: bool
    var controllerShowTimeoutMs: int
    var controllerHideOnTouch: bool
    var controllerAutoShow: bool
    var controllerHideDuringAds: bool
    var showBuffering: int
    /** The buffering spinner's visibility. */
    var bufferingVisible: bool

    // Touch state.
    var isTouching: bool
    /** Set when the view hides the controller; the next tap is then not
        taken as a click while the controller's sheet is expanded. */
    var ignore: bool

    /** The objects this view is made of. */
    ghost function Footprint(): set<object>
      reads controller`adGroupTimesMs, controller`playedAdGroups
    {
      {this, controller, controller.adGroupTimesMs, controller.playedAdGroups}
    }

    ghost predicate Valid()
      reads this`player, controller, controller.adGroupTimesMs, controller.playedAdGroups
    {
      controller.Valid() && (player.Some? ==> player.value.Valid())
    }

    /** The controller was shown by showController(showIndefinitely): its
        timeout is 0 when shown indefinitely and the view's timeout
        otherwise, a visible controller re-armed its hide timer, and a
        hidden one started fading in. */
    twostate predicate ShowedController(showIndefinitely: bool, now: int)
      reads this`controllerShowTimeoutMs, controller
    {
      && ControllerShown(showIndefinitely, now)
      && (controller.visible ==> controller.pending == controller.RearmedPending(old(controller.pending)))
      && (!controller.visible ==> controller.pending == old(controller.pending))
    }

    /** What ShowedController says of the controller's timeout, deadline and
        fade, leaving out its posted callbacks. */
    twostate predicate ControllerShown(showIndefinitely: bool, now: int)
      reads this`controllerShowTimeoutMs, controller
    {
      && controller.showTimeoutMs == (if showIndefinitely then 0 else controllerShowTimeoutMs)
      && (controller.visible ==> controller.hideAtMs == controller.RearmedHideAt(now))
      && (!controller.visible ==> controller.hideAtMs == old(controller.hideAtMs))
      && controller.isFading == (old(controller.isFading) || !controller.visible)
      && controller.fadeKind == if !old(controller.isFading) && !controller.visible then Appearing
                                else old(controller.fadeKind)
    }

    /** The controller's timeout, deadline and fade are as they were. */
    twostate predicate ControllerUntouched()
      reads controller
    {
      && controller.showTimeoutMs == old(controller.showTimeoutMs)
      && controller.hideAtMs == old(controller.hideAtMs)
      && controller.isFading == old(controller.isFading)
      && controller.fadeKind == old(controller.fadeKind)
    }

    /** The constructor: the styled attributes or their defaults, a fresh
        controller, and the controller hidden at the end. */
    constructor(attrs: Option<ViewAttributes>, hasBufferingView: bool,
                controllerAttrs: Option<ControlAttributes>, timeBarPreferredDelayMs: Option<int>, hasSheet: bool,
                hasMoreContentList: bool)
      ensures Valid() && fresh(Footprint())
      ensures player.None? && !isTouching && ignore && !bufferingVisible
      ensures attrs.None? ==>
                && useController && controllerShowTimeoutMs == DEFAULT_SHOW_TIMEOUT_MS
                && controllerHideOnTouch && controllerAutoShow && controllerHideDuringAds
                && showBuffering == SHOW_BUFFERING_WHEN_PLAYING
      ensures attrs.Some? ==>
                && useController == attrs.value.useController
                && controllerShowTimeoutMs == attrs.value.showTimeoutMs
                && controllerHideOnTouch == attrs.value.hideOnTouch
                && controllerAutoShow == attrs.value.autoShow
                && controllerHideDuringAds == attrs.value.hideDuringAds
                && showBuffering == attrs.value.showBuffering
      ensures this.hasBufferingView == hasBufferingView
      ensures controller.visible && controller.isFading && controller.fadeKind == Disappearing
    {
      var a := if attrs.Some? then attrs.value
               else ViewAttributes(true, DEFAULT_SHOW_TIMEOUT_MS, true, true, SHOW_BUFFERING_WHEN_PLAYING, true);
      this.hasBufferingView := hasBufferingView;
      controller := new PlayerControlView(controllerAttrs, timeBarPreferredDelayMs, hasSheet, hasMoreContentList);
      player := None;
      useController := a.useController;
      controllerShowTimeoutMs := a.showTimeoutMs;
      controllerHideOnTouch := a.hideOnTouch;
      controllerAutoShow := a.autoShow;
      controllerHideDuringAds := a.hideDuringAds;
      showBuffering := a.showBuffering;
      bufferingVisible := false;
      isTouching := false;
      ignore := false;
      new;
      HideController();
    }

    predicate ShouldShowControllerIndefinitely()
      reads this`player, this`controllerAutoShow
    {
      ShowsIndefinitely(player, controllerAutoShow)
    }

    predicate IsPlayingAd()
      reads this`player
    {
      PlayingAd(player)
    }

    /** Whether maybeShowController may show at all: the controller is in
        use and no ad is playing while ads hide it. */
    predicate MayShowController()
      reads this`useController, this`player, this`controllerHideDuringAds
    {
      useController && !(IsPlayingAd() && controllerHideDuringAds)
    }

    /** The controller is visible with no timeout. */
    predicate ShowingIndefinitely()
      reads controller`visible, controller`showTimeoutMs
    {
      controller.visible && controller.showTimeoutMs <= 0
    }

    /** showController(showIndefinitely): sets the controller's timeout and
        shows it; nothing happens when the controller is not in use. */
    method ShowControllerWith(showIndefinitely: bool, now: int)
      requires Valid()
      modifies controller`showTimeoutMs, controller`hideAtMs, controller`pending,
               controller`isFading, controller`fadeKind
      ensures Valid()
      ensures useController ==> ShowedController(showIndefinitely, now)
      ensures !useController ==> unchanged(controller)
    {
      if !useController {
        return;
      }
      controller.SetShowTimeoutMs(if showIndefinitely then 0 else controllerShowTimeoutMs, now);
      controller.Show();
    }

    /** showController(): shows the controller, indefinitely when the
        player's state asks for it. */
    method ShowController(now: int)
      requires Valid()
      modifies controller`showTimeoutMs, controller`hideAtMs, controller`pending,
               controller`isFading, controller`fadeKind
      ensures Valid()
      ensures useController ==> ShowedController(ShouldShowControllerIndefinitely(), now)
      ensures !useController ==> unchanged(controller)
    {
      ShowControllerWith(ShouldShowControllerIndefinitely(), now);
    }

    /** forceShowController: shows the controller with the view's timeout. */
    method ForceShowController(now: int)
      requires Valid()
      modifies controller`showTimeoutMs, controller`hideAtMs, controller`pending,
               controller`isFading, controller`fadeKind
      ensures Valid()
      ensures useController ==> ShowedController(false, now)
      ensures !useController ==> unchanged(controller)
    {
      ShowControllerWith(false, now);
    }

    /** maybeShowController: never while an ad plays and ads hide the
        controller; otherwise shows it when forced, when it was already
        shown indefinitely, or when the player's state asks for that. */
    method MaybeShowController(isForced: bool, now: int)
      requires Valid()
      modifies controller`showTimeoutMs, controller`hideAtMs, controller`pending,
               controller`isFading, controller`fadeKind
      ensures Valid()
      ensures var shows := MayShowController()
                           && (isForced || old(ShowingIndefinitely()) || ShouldShowControllerIndefinitely());
              && (shows ==> ShowedController(ShouldShowControllerIndefinitely(), now))
              && (!shows ==> unchanged(controller))
    {
      if IsPlayingAd() && controllerHideDuringAds {
        return;
      }
      if useController {
        var wasShowingIndefinitely := controller.visible && controller.showTimeoutMs <= 0;
        var shouldShowIndefinitely := ShouldShowControllerIndefinitely();
        if isForced || wasShowingIndefinitely || shouldShowIndefinitely {
          ShowControllerWith(shouldShowIndefinitely, now);
        }
      }
    }

    /** hideController: marks the next tap to be ignored and hides the
        controller. */
    method HideController()
      modifies this`ignore, controller`isFading, controller`fadeKind
      ensures ignore
      ensures controller.isFading == (old(controller.isFading) || controller.CanHide())
      ensures controller.fadeKind == if !old(controller.isFading) && controller.CanHide() then Disappearing
                                     else old(controller.fadeKind)
    {
      ignore := true;
      controller.Hide();
    }

    /** setControllerShowTimeoutMs: a visible controller is shown again so
        that the new timeout applies. */
    method SetControllerShowTimeoutMs(timeoutMs: int, now: int)
      requires Valid()
      modifies this`controllerShowTimeoutMs,
               controller`showTimeoutMs, controller`hideAtMs, controller`pending,
               controller`isFading, controller`fadeKind
      ensures Valid() && controllerShowTimeoutMs == timeoutMs
      ensures old(controller.visible) && useController ==>
                ShowedController(ShouldShowControllerIndefinitely(), now)
      ensures !(old(controller.visible) && useController) ==> unchanged(controller)
    {
      controllerShowTimeoutMs := timeoutMs;
      if controller.visible {
        ShowController(now);
      }
    }

    /** updateBuffering: the spinner, when the layout has one, shows
        exactly when BufferingSpinnerShown says so. */
    method UpdateBuffering()
      modifies this`bufferingVisible
      ensures hasBufferingView ==> bufferingVisible == BufferingSpinnerShown(player, showBuffering)
      ensures !hasBufferingView ==> bufferingVisible == old(bufferingVisible)
    {
      if hasBufferingView {
        bufferingVisible := BufferingSpinnerShown(player, showBuffering);
      }
    }

    /** setShowBuffering(int): only a different mode is stored and
        refreshes the spinner. */
    method SetShowBuffering(mode: int)
      modifies this`showBuffering, this`bufferingVisible
      ensures showBuffering == mode
      ensures mode == old(showBuffering) ==> bufferingVisible == old(bufferingVisible)
      ensures mode != old(showBuffering) && hasBufferingView ==>
                bufferingVisible == BufferingSpinnerShown(player, mode)
      ensures !hasBufferingView ==> bufferingVisible == old(bufferingVisible)
    {
      if showBuffering != mode {
        showBuffering := mode;
        UpdateBuffering();
      }
    }

    /** setShowBuffering(boolean): WHEN_PLAYING for true, NEVER for false. */
    method SetShowBufferingFlag(show: bool)
      modifies this`showBuffering, this`bufferingVisible
      ensures showBuffering == BufferingModeFor(show)
      ensures !show && hasBufferingView && old(showBuffering) != SHOW_BUFFERING_NEVER ==> !bufferingVisible
      ensures show && hasBufferingView && showBuffering != old(showBuffering) ==>
                bufferingVisible == BufferingSpinnerShown(player, SHOW_BUFFERING_WHEN_PLAYING)
      ensures showBuffering == old(showBuffering) || !hasBufferingView ==> bufferingVisible == old(bufferingVisible)
    {
      SetShowBuffering(if show then SHOW_BUFFERING_WHEN_PLAYING else SHOW_BUFFERING_NEVER);
    }

    /** toggleControllerVisibility: without a player or a controller in use
        nothing happens; a hidden controller is shown as if forced, and a
        visible one is hidden when touches hide it. */
    method ToggleControllerVisibility(now: int) returns (handled: bool)
      requires Valid()
      modifies controller`showTimeoutMs, controller`hideAtMs, controller`pending,
               controller`isFading, controller`fadeKind
      ensures Valid()
      ensures handled <==> useController && player.Some?
      ensures !handled ==> unchanged(controller)
      ensures handled && !controller.visible ==>
                var shows := MayShowController();
                && (shows ==> ShowedController(ShouldShowControllerIndefinitely(), now)
                              && ControllerShown(ShouldShowControllerIndefinitely(), now))
                && (!shows ==> unchanged(controller) && ControllerUntouched())
      ensures handled && controller.visible && controllerHideOnTouch ==>
                && controller.showTimeoutMs == old(controller.showTimeoutMs)
                && controller.pending == old(controller.pending) && controller.hideAtMs == old(controller.hideAtMs)
                && controller.isFading == (old(controller.isFading) || controller.CanHide())
                && controller.fadeKind == if !old(controller.isFading) && controller.CanHide() then Disappearing
                                          else old(controller.fadeKind)
      ensures handled && controller.visible && !controllerHideOnTouch ==> unchanged(controller)
    {
      if !useController || player.None? {
        return false;
      }
      if !controller.visible {
        MaybeShowController(true, now);
      } else if controllerHideOnTouch {
        controller.Hide();
      }
      return true;
    }

    /** onTouchEvent: a press starts a touch; the release of a started
        touch clicks (toggles the controller) unless the tap is to be
        ignored while the controller's sheet is expanded, and always clears
        the ignore mark. Without a player or a controller in use no touch
        is handled. */
    method OnTouchEvent(action: TouchAction, now: int) returns (handled: bool)
      requires Valid()
      modifies this`isTouching, this`ignore,
               controller`showTimeoutMs, controller`hideAtMs, controller`pending,
               controller`isFading, controller`fadeKind
      ensures Valid()
      ensures !useController || player.None? ==> !handled && unchanged(this) && unchanged(controller)
      ensures useController && player.Some? ==>
                && (action == TouchDown ==> handled && isTouching && ignore == old(ignore) && unchanged(controller))
                && (action == TouchUp && old(isTouching) ==> handled && !isTouching && !ignore)
                && (action == TouchUp && !old(isTouching) ==> !handled && unchanged(this) && unchanged(controller))
                && (action == TouchOther ==> !handled && unchanged(this) && unchanged(controller))
      ensures action == TouchUp && old(isTouching) && old(ignore) && controller.IgnoresTouch() ==>
                unchanged(controller)
      ensures useController && player.Some? && action == TouchUp && old(isTouching)
              && (!controller.IgnoresTouch() || !old(ignore)) ==>
                && (!controller.visible && MayShowController() ==>
                      ShowedController(ShouldShowControllerIndefinitely(), now))
                && (!controller.visible && !MayShowController() ==> unchanged(controller))
                && (controller.visible && controllerHideOnTouch ==>
                      && controller.showTimeoutMs == old(controller.showTimeoutMs)
                      && controller.pending == old(controller.pending)
                      && controller.hideAtMs == old(controller.hideAtMs)
                      && controller.isFading == (old(controller.isFading) || controller.CanHide())
                      && controller.fadeKind == if !old(controller.isFading) && controller.CanHide()
                                                then Disappearing else old(controller.fadeKind))
                && (controller.visible && !controllerHideOnTouch ==> unchanged(controller))
    {
      if !useController || player.None? {
        return false;
      }
      match action {
        case TouchDown =>
          isTouching := true;
          return true;
        case TouchUp =>
          if isTouching {
            isTouching := false;
            if !controller.IgnoresTouch() || !ignore {
              // performClick
              var _ := ToggleControllerVisibility(now);
            }
            if ignore {
              ignore := false;
            }
            return true;
          }
          return false;
        case TouchOther =>
          return false;
      }
    }

    /** onTrackballEvent: shows the controller as if forced. */
    method OnTrackballEvent(now: int) returns (handled: bool)
      requires Valid()
      modifies controller`showTimeoutMs, controller`hideAtMs, controller`pending,
               controller`isFading, controller`fadeKind
      ensures Valid()
      ensures handled <==> useController && player.Some?
      ensures !handled ==> unchanged(controller)
      ensures handled && MayShowController() ==> ShowedController(ShouldShowControllerIndefinitely(), now)
      ensures handled && !MayShowController() ==> unchanged(controller)
    {
      if !useController || player.None? {
        return false;
      }
      MaybeShowController(true, now);
      return true;
    }

    /** The player's listener: play-when-ready or the playback state
        changed. The spinner is refreshed, then the controller is hidden
        while an ad plays and ads hide it, or else shown when not forced. */
    method OnPlayerStateChanged(p: Player, now: int)
      requires Valid() && p.Valid() && player.Some? && p.id == player.value.id
      modifies this`player, this`bufferingVisible, this`ignore,
               controller`showTimeoutMs, controller`hideAtMs, controller`pending,
               controller`isFading, controller`fadeKind
      ensures Valid() && player == Some(p)
      ensures hasBufferingView ==> bufferingVisible == BufferingSpinnerShown(player, showBuffering)
      ensures PlayingAd(Some(p)) && controllerHideDuringAds ==>
                && ignore && ControllerHidden()
                && controller.showTimeoutMs == old(controller.showTimeoutMs)
                && controller.hideAtMs == old(controller.hideAtMs)
                && controller.pending == old(controller.pending)
      ensures !(PlayingAd(Some(p)) && controllerHideDuringAds) ==>
                var shows := useController && (old(ShowingIndefinitely()) || ShowsIndefinitely(Some(p), controllerAutoShow));
                && ignore == old(ignore)
                && (shows ==> ShowedController(ShowsIndefinitely(Some(p), controllerAutoShow), now))
                && (!shows ==> unchanged(controller))
    {
      player := Some(p);
      UpdateBuffering();
      if IsPlayingAd() && controllerHideDuringAds {
        HideController();
      } else {
        MaybeShowController(false, now);
      }
    }

    /** The player's listener: the position jumped, possibly into or out of
        an ad. The controller is hidden while an ad plays and ads hide it. */
    method OnPositionDiscontinuity(p: Player)
      requires Valid() && p.Valid() && player.Some? && p.id == player.value.id
      modifies this`player, this`ignore, controller`isFading, controller`fadeKind
      ensures Valid() && player == Some(p)
      ensures PlayingAd(Some(p)) && controllerHideDuringAds ==> ignore && ControllerHidden()
      ensures !(PlayingAd(Some(p)) && controllerHideDuringAds) ==> ignore == old(ignore) && unchanged(controller)
    {
      player := Some(p);
      if IsPlayingAd() && controllerHideDuringAds {
        HideController();
      }
    }

    /** setUseController: turning it on hands the player to the controller;
        turning it off hides the controller at once and takes the player
        from it. */
    method SetUseController(use: bool)
      requires Valid()
      modifies this`useController, controller`visible, controller`hideAtMs, controller`effects,
               controller`player, controller`multiWindowTimeBar, controller`currentWindowOffset,
               controller`timeBarDurationMs, controller`adGroupTimesMs, controller`playedAdGroups,
               controller`timeBarAdGroupCount, controller`pending,
               controller.adGroupTimesMs, controller.playedAdGroups
      ensures Valid() && useController == use
      ensures use == old(useController) ==> unchanged(controller)
      // Turning it on: controller.setPlayer(player), which refreshes a
      // controller that gets a different player.
      ensures use != old(useController) && use ==>
                && SamePlayer(controller.player, player)
                && controller.visible == old(controller.visible)
                && controller.hideAtMs == old(controller.hideAtMs)
                && controller.effects == old(controller.effects)
                && controller.pending == if SamePlayer(old(controller.player), player) then old(controller.pending)
                                         else controller.Refreshed(old(controller.pending))
      // Turning it off: forceHide, whose onHide(true) cancels the callbacks,
      // clears the deadline and may collapse the sheet, then setPlayer(null).
      ensures use != old(useController) && !use ==>
                && controller.player.None?
                && (old(controller.CanHide()) ==>
                      && !controller.visible && controller.hideAtMs == Unset
                      && controller.pending == old(controller.pending) - {ProgressAction, HideAction}
                      && controller.effects == old(controller.effects)
                                               + (if old(controller.CollapsesSheet(true)) then [SheetCollapseRequested] else []))
                && (!old(controller.CanHide()) ==>
                      && controller.visible == old(controller.visible)
                      && controller.hideAtMs == old(controller.hideAtMs)
                      && controller.pending == old(controller.pending)
                      && controller.effects == old(controller.effects))
    {
      if useController == use {
        return;
      }
      useController := use;
      if use {
        controller.SetPlayer(player);
      } else {
        controller.ForceHide();
        controller.SetPlayer(None);
      }
    }

    /** setPlayer(player, force): unless the player is the same and the
        change is not forced, the old player's surface is cleared, the
        controller (when in use) gets the new player, the spinner is
        refreshed, the new player's surface is set, and the controller is
        shown when not forced (or hidden when there is no player). */
    method SetPlayer(p: Option<Player>, force: bool, now: int, video: VideoCalls)
      requires Valid() && (p.Some? ==> p.value.Valid())
      modifies this`player, this`bufferingVisible, this`ignore, video,
               controller`player, controller`multiWindowTimeBar, controller`currentWindowOffset,
               controller`timeBarDurationMs, controller`adGroupTimesMs, controller`playedAdGroups,
               controller`timeBarAdGroupCount, controller`pending,
               controller`showTimeoutMs, controller`hideAtMs, controller`isFading, controller`fadeKind,
               controller.adGroupTimesMs, controller.playedAdGroups
      ensures Valid()
      ensures video.calls == old(video.calls) + SetPlayerCalls(old(player), p, force, this)
      ensures forall o :: o in Footprint() ==> o in old(Footprint()) || fresh(o)
      ensures SamePlayer(old(player), p) && !force ==>
                unchanged(this) && unchanged(controller) && unchanged(controller.adGroupTimesMs, controller.playedAdGroups)
      ensures !(SamePlayer(old(player), p) && !force) ==>
                && player == p
                && (useController ==> SamePlayer(controller.player, p))
                && (hasBufferingView ==> bufferingVisible == BufferingSpinnerShown(p, showBuffering))
                && (p.None? ==> ignore)
                && (p.Some? ==>
                      var shows := MayShowController() && (old(ShowingIndefinitely()) || ShouldShowControllerIndefinitely());
                      && ignore == old(ignore)
                      && (shows ==> ControllerShown(ShouldShowControllerIndefinitely(), now))
                      && (!shows ==> ControllerUntouched()))
                && (p.None? ==>
                      && ControllerHidden()
                      && controller.showTimeoutMs == old(controller.showTimeoutMs)
                      && controller.hideAtMs == old(controller.hideAtMs))
    {
      if SamePlayer(player, p) && !force {
        return;
      }
      ReplacePlayer(p, now, video);
    }

    /** setPlayer once the player is to change: the old player's surface is
        cleared, the new player stored and handed over, the spinner
        refreshed, and the new player's surface set. */
    method ReplacePlayer(p: Option<Player>, now: int, video: VideoCalls)
      requires Valid() && (p.Some? ==> p.value.Valid())
      modifies this`player, this`bufferingVisible, this`ignore, video,
               controller`player, controller`multiWindowTimeBar, controller`currentWindowOffset,
               controller`timeBarDurationMs, controller`adGroupTimesMs, controller`playedAdGroups,
               controller`timeBarAdGroupCount, controller`pending,
               controller`showTimeoutMs, controller`hideAtMs, controller`isFading, controller`fadeKind,
               controller.adGroupTimesMs, controller.playedAdGroups
      ensures Valid()
      ensures video.calls == old(video.calls) + SetPlayerCalls(old(player), p, true, this)
      ensures forall o :: o in Footprint() ==> o in old(Footprint()) || fresh(o)
      ensures player == p
      ensures useController ==> SamePlayer(controller.player, p)
      ensures hasBufferingView ==> bufferingVisible == BufferingSpinnerShown(p, showBuffering)
      ensures p.None? ==> ignore
      ensures p.Some? ==>
                var shows := MayShowController() && (old(ShowingIndefinitely()) || ShouldShowControllerIndefinitely());
                && ignore == old(ignore)
                && (shows ==> ControllerShown(ShouldShowControllerIndefinitely(), now))
                && (!shows ==> ControllerUntouched())
      ensures p.None? ==>
                && ControllerHidden()
                && controller.showTimeoutMs == old(controller.showTimeoutMs)
                && controller.hideAtMs == old(controller.hideAtMs)
    {
      SwapPlayer(p, video);
      ShowOrHideForPlayer(now, video);
    }

    /** The first half of setPlayer's change: the old player's surface is
        cleared, the new player stored and handed over, and the spinner
        refreshed; the controller's visibility, timeout, deadline and fade
        are left as they were. */
    method SwapPlayer(p: Option<Player>, video: VideoCalls)
      requires Valid() && (p.Some? ==> p.value.Valid())
      modifies this`player, this`bufferingVisible, video,
               controller`player, controller`multiWindowTimeBar, controller`currentWindowOffset,
               controller`timeBarDurationMs, controller`adGroupTimesMs, controller`playedAdGroups,
               controller`timeBarAdGroupCount, controller`pending,
               controller.adGroupTimesMs, controller.playedAdGroups
      ensures Valid()
      ensures video.calls == old(video.calls)
                             + (if old(player).Some? then [SurfaceCleared(old(player).value.id, this)] else [])
      ensures forall o :: o in Footprint() ==> o in old(Footprint()) || fresh(o)
      ensures player == p
      ensures useController ==> SamePlayer(controller.player, p)
      ensures hasBufferingView ==> bufferingVisible == BufferingSpinnerShown(p, showBuffering)
      ensures ShowingIndefinitely() == old(ShowingIndefinitely()) && ControllerUntouched()
    {
      if player.Some? {
        video.calls := video.calls + [SurfaceCleared(player.value.id, this)];
      }
      player := p;
      HandOverToController();
      UpdateBuffering();
    }

    /** The end of setPlayer: a new player gets the view's surface and the
        controller shown when not forced; without a player the controller
        is hidden. */
    method ShowOrHideForPlayer(now: int, video: VideoCalls)
      requires Valid()
      modifies this`ignore, video,
               controller`showTimeoutMs, controller`hideAtMs, controller`pending,
               controller`isFading, controller`fadeKind
      ensures Valid()
      ensures video.calls == old(video.calls) + (if player.Some? then [SurfaceSet(player.value.id, this)] else [])
      ensures player.Some? ==>
                var shows := MayShowController() && (old(ShowingIndefinitely()) || ShouldShowControllerIndefinitely());
                && ignore == old(ignore)
                && (shows ==> ShowedController(ShouldShowControllerIndefinitely(), now)
                              && ControllerShown(ShouldShowControllerIndefinitely(), now))
                && (!shows ==> unchanged(controller) && ControllerUntouched())
      ensures player.None? ==>
                && ignore && ControllerHidden()
                && controller.showTimeoutMs == old(controller.showTimeoutMs)
                && controller.hideAtMs == old(controller.hideAtMs)
    {
      if player.Some? {
        video.calls := video.calls + [SurfaceSet(player.value.id, this)];
        MaybeShowController(false, now);
      } else {
        HideController();
      }
    }

    /** The controller started fading out when hide may act (hideController). */
    twostate predicate ControllerHidden()
      reads controller
    {
      && controller.isFading == (old(controller.isFading) || controller.CanHide())
      && controller.fadeKind == if !old(controller.isFading) && controller.CanHide() then Disappearing
                                else old(controller.fadeKind)
    }

    /** setPlayer's hand-over: a controller in use gets the view's player;
        the controller's visibility, timeout, deadline and fade are not
        touched. */
    method HandOverToController()
      requires Valid()
      modifies controller`player, controller`multiWindowTimeBar, controller`currentWindowOffset,
               controller`timeBarDurationMs, controller`adGroupTimesMs, controller`playedAdGroups,
               controller`timeBarAdGroupCount, controller`pending,
               controller.adGroupTimesMs, controller.playedAdGroups
      ensures Valid()
      ensures forall o :: o in Footprint() ==> o in old(Footprint()) || fresh(o)
      ensures useController ==> SamePlayer(controller.player, player)
      ensures !useController ==> unchanged(controller)
    {
      if useController {
        controller.SetPlayer(player);
      }
    }
  }

  /** switchTargetView: nothing for the same view; otherwise the player is
      set on the new view before it is taken from the old one. */
  method SwitchTargetView(p: Player, oldView: PlayerView?, newView: PlayerView?, now: int, video: VideoCalls)
    requires p.Valid()
    requires oldView != null ==> oldView.Valid()
    requires newView != null ==> newView.Valid()
    requires oldView != null && newView != null && oldView != newView ==> oldView.Footprint() !! newView.Footprint()
    requires oldView != null ==> video !in oldView.Footprint()
    requires newView != null ==> video !in newView.Footprint()
    modifies video
    modifies if oldView != null then {oldView} + oldView.Footprint() else {}
    modifies if newView != null then {newView} + newView.Footprint() else {}
    ensures oldView == newView ==> unchanged(video)
    ensures oldView != newView ==>
              video.calls == old(video.calls)
                             + (if newView != null then SetPlayerCalls(old(newView.player), Some(p), false, newView) else [])
                             + (if oldView != null then SetPlayerCalls(old(oldView.player), None, false, oldView) else [])
    ensures oldView != newView && newView != null ==>
              newView.Valid() && newView.player.Some? && newView.player.value.id == p.id
    ensures oldView != newView && oldView != null ==> oldView.Valid() && oldView.player.None?
    ensures oldView != newView && oldView != null && newView != null
            && oldView in AttachedViews(old(video.calls), p.id)
            && !SamePlayer(old(newView.player), Some(p)) ==>
              && newView in AttachedViews(video.calls, p.id)
              && forall k :: |old(video.calls)| <= k <= |video.calls| ==> AttachedViews(video.calls[..k], p.id) != {}
  {
    if oldView == newView {
      return;
    }
    if newView != null {
      SetViewPlayer(newView, Some(p), now, video);
    }
    if oldView != null {
      SetViewPlayer(oldView, None, now, video);
    }
    if oldView != null && newView != null && oldView in AttachedViews(old(video.calls), p.id)
       && !SamePlayer(old(newView.player), Some(p)) {
      SwitchCallsKeepSurface(old(video.calls), p, oldView, newView, old(newView.player), old(oldView.player));
    }
  }

  /** view.setPlayer(q), as switchTargetView sees it: the surface calls, the
      view's new player, and a view that stays valid within its own objects. */
  method SetViewPlayer(view: PlayerView, q: Option<Player>, now: int, video: VideoCalls)
    requires view.Valid() && (q.Some? ==> q.value.Valid()) && video !in view.Footprint()
    modifies video, {view} + view.Footprint()
    ensures video.calls == old(video.calls) + SetPlayerCalls(old(view.player), q, false, view)
    ensures view.Valid() && SamePlayer(view.player, q)
    ensures forall o :: o in view.Footprint() ==> o in old(view.Footprint()) || fresh(o)
  {
    view.SetPlayer(q, false, now, video);
  }

  /** The calls of switchTargetView, as SetPlayerCalls gives them, keep the
      player rendering to some view throughout. */
  lemma SwitchCallsKeepSurface(calls: seq<SurfaceCall>, p: Player, oldView: PlayerView, newView: PlayerView,
                               newPlayer: Option<Player>, oldPlayer: Option<Player>)
    requires oldView in AttachedViews(calls, p.id) && oldView != newView
    requires !SamePlayer(newPlayer, Some(p))
    ensures var after := calls + SetPlayerCalls(newPlayer, Some(p), false, newView)
                               + SetPlayerCalls(oldPlayer, None, false, oldView);
            && newView in AttachedViews(after, p.id)
            && forall k :: |calls| <= k <= |after| ==> AttachedViews(after[..k], p.id) != {}
  {
    var pre := if newPlayer.Some? then [SurfaceCleared(newPlayer.value.id, newView)] else [];
    var post := if oldPlayer.Some? then [SurfaceCleared(oldPlayer.value.id, oldView)] else [];
    assert SetPlayerCalls(newPlayer, Some(p), false, newView) == pre + [SurfaceSet(p.id, newView)];
    assert SetPlayerCalls(oldPlayer, None, false, oldView) == post;
    assert calls + SetPlayerCalls(newPlayer, Some(p), false, newView) + SetPlayerCalls(oldPlayer, None, false, oldView)
           == calls + pre + [SurfaceSet(p.id, newView)] + post;
    SwitchKeepsSurface(calls, p.id, oldView, newView, pre, post);
  }
}

=== FILE: progress.dfy ===
/** The tail of updateProgress: when the next progress refresh is due. */
module Progress {
  import opened Common
  import opened Media

  /** The longest time between two progress refreshes. */
  const MAX_UPDATE_INTERVAL_MS: int := 1000

  /** The smallest minimum refresh interval a caller may configure. */
  const MIN_UPDATE_INTERVAL_FLOOR_MS: int := 16

  /** setTimeBarMinUpdateInterval: the requested interval constrained to
      [16, 1000]. */
  function ConstrainMinUpdateInterval(minUpdateIntervalMs: int): (r: int)
    ensures MIN_UPDATE_INTERVAL_FLOOR_MS <= r <= MAX_UPDATE_INTERVAL_MS
    ensures MIN_UPDATE_INTERVAL_FLOOR_MS <= minUpdateIntervalMs <= MAX_UPDATE_INTERVAL_MS ==> r == minUpdateIntervalMs
    ensures minUpdateIntervalMs < MIN_UPDATE_INTERVAL_FLOOR_MS ==> r == MIN_UPDATE_INTERVAL_FLOOR_MS
    ensures minUpdateIntervalMs > MAX_UPDATE_INTERVAL_MS ==> r == MAX_UPDATE_INTERVAL_MS
  {
    Clamp(minUpdateIntervalMs, MIN_UPDATE_INTERVAL_FLOOR_MS, MAX_UPDATE_INTERVAL_MS)
  }

  /** Media time until the next refresh: the seek bar's preferred delay
      (1000 without a seek bar), but never past the next whole second of
      the displayed position. */
  function MediaTimeDelayMs(preferredDelayMs: Option<int>, positionMs: int): (r: int)
    ensures r <= MAX_UPDATE_INTERVAL_MS - JavaRem(positionMs, 1000)
    ensures preferredDelayMs.Some? ==> r <= preferredDelayMs.value
    ensures preferredDelayMs.None? ==> r <= MAX_UPDATE_INTERVAL_MS
    ensures r == MAX_UPDATE_INTERVAL_MS - JavaRem(positionMs, 1000)
            || (preferredDelayMs.Some? && r == preferredDelayMs.value)
            || (preferredDelayMs.None? && r == MAX_UPDATE_INTERVAL_MS)
  {
    var mediaTimeDelayMs := if preferredDelayMs.Some? then preferredDelayMs.value else MAX_UPDATE_INTERVAL_MS;
    Min(mediaTimeDelayMs, 1000 - JavaRem(positionMs, 1000))
  }

  /** The media-time delay converted to real time at the playback speed
      (truncated to whole milliseconds), or 1000 when the speed is not
      positive. At a positive speed, the real-time delay played at that
      speed covers no more media time than the media-time delay. */
  function RealTimeDelayMs(mediaTimeDelayMs: int, speed: real): (r: int)
    ensures speed <= 0.0 ==> r == MAX_UPDATE_INTERVAL_MS
    ensures speed > 0.0 && mediaTimeDelayMs >= 0 ==> 0 <= r && r as real * speed <= mediaTimeDelayMs as real
    ensures speed > 0.0 && mediaTimeDelayMs >= 0 ==> mediaTimeDelayMs as real < (r + 1) as real * speed
  {
    if speed > 0.0 then
      var q := mediaTimeDelayMs as real / speed;
      var delayMs := Truncate(q);
      assert q * speed == mediaTimeDelayMs as real;
      assert mediaTimeDelayMs >= 0 ==>
               delayMs as real * speed <= q * speed && q * speed < (delayMs + 1) as real * speed by {
        if mediaTimeDelayMs >= 0 {
          MultiplyMonotone(delayMs as real, q, speed);
          MultiplyStrict(q, (delayMs + 1) as real, speed);
        }
      }
      assert mediaTimeDelayMs >= 0 ==> mediaTimeDelayMs as real < (delayMs + 1) as real * speed;
      delayMs
    else
      MAX_UPDATE_INTERVAL_MS
  }

  lemma MultiplyMonotone(a: real, b: real, c: real)
    requires a <= b && c > 0.0
    ensures a * c <= b * c
  {
  }

  lemma MultiplyStrict(a: real, b: real, c: real)
    requires a < b && c > 0.0
    ensures a * c < b * c
  {
  }

  /** When updateProgress posts its next refresh, in real milliseconds, or
      None when it posts nothing. A playing player gets the media-time
      delay converted at its speed and constrained to
      [minUpdateIntervalMs, 1000]; a player that is not playing but neither
      ended nor idle is polled every 1000 ms; no player, or an ended or idle
      one, gets nothing. */
  function ProgressDelayMs(player: Option<Player>, positionMs: int, preferredDelayMs: Option<int>,
                           minUpdateIntervalMs: int): (r: Option<int>)
    ensures player.Some? && player.value.isPlaying ==>
              r == Some(Clamp(RealTimeDelayMs(MediaTimeDelayMs(preferredDelayMs, positionMs), player.value.speed),
                              minUpdateIntervalMs, MAX_UPDATE_INTERVAL_MS))
    ensures player.Some? && !player.value.isPlaying
            && player.value.playbackState != Ended && player.value.playbackState != Idle ==>
              r == Some(MAX_UPDATE_INTERVAL_MS)
    ensures player.None? || (!player.value.isPlaying
                              && (player.value.playbackState == Ended || player.value.playbackState == Idle)) ==>
              r.None?
  {
    var playbackState := if player.None? then Idle else player.value.playbackState;
    if player.Some? && player.value.isPlaying then
      var mediaTimeDelayMs := MediaTimeDelayMs(preferredDelayMs, positionMs);
      var delayMs := RealTimeDelayMs(mediaTimeDelayMs, player.value.speed);
      Some(Clamp(delayMs, minUpdateIntervalMs, MAX_UPDATE_INTERVAL_MS))
    else if playbackState != Ended && playbackState != Idle then
      Some(MAX_UPDATE_INTERVAL_MS)
    else
      None
  }

  /** Whenever a refresh is posted, its delay lies in
      [minUpdateIntervalMs, 1000] for a constrained minimum interval. */
  lemma ProgressDelayBounded(player: Option<Player>, positionMs: int, preferredDelayMs: Option<int>,
                             minUpdateIntervalMs: int)
    requires MIN_UPDATE_INTERVAL_FLOOR_MS <= minUpdateIntervalMs <= MAX_UPDATE_INTERVAL_MS
    ensures var r := ProgressDelayMs(player, positionMs, preferredDelayMs, minUpdateIntervalMs);
            r.Some? ==> minUpdateIntervalMs <= r.value <= MAX_UPDATE_INTERVAL_MS
  {
  }

  /** The refresh never skips a whole second of the displayed position:
      while playing forward at a positive speed with a non-negative position
      and preferred delay, unless the minimum interval forced the delay up,
      the media time played until the refresh is at most the time to the
      next whole second. */
  lemma ProgressRefreshKeepsSecondBoundary(p: Player, positionMs: int, preferredDelayMs: Option<int>,
                                           minUpdateIntervalMs: int)
    requires p.isPlaying && p.speed > 0.0 && positionMs >= 0
    requires preferredDelayMs.Some? ==> preferredDelayMs.value >= 0
    requires MIN_UPDATE_INTERVAL_FLOOR_MS <= minUpdateIntervalMs <= MAX_UPDATE_INTERVAL_MS
    requires RealTimeDelayMs(MediaTimeDelayMs(preferredDelayMs, positionMs), p.speed) >= minUpdateIntervalMs
    ensures var r := ProgressDelayMs(Some(p), positionMs, preferredDelayMs, minUpdateIntervalMs);
            r.Some? && r.value as real * p.speed <= (1000 - positionMs % 1000) as real
  {
    var media := MediaTimeDelayMs(preferredDelayMs, positionMs);
    var delay := RealTimeDelayMs(media, p.speed);
    assert 0 <= media <= 1000 - positionMs % 1000;
    var r := Clamp(delay, minUpdateIntervalMs, MAX_UPDATE_INTERVAL_MS);
    assert ProgressDelayMs(Some(p), positionMs, preferredDelayMs, minUpdateIntervalMs) == Some(r);
    assert r <= delay;
    MultiplyMonotone(r as real, delay as real, p.speed);
    RealChain(r as real * p.speed, delay as real * p.speed, media as real, (1000 - positionMs % 1000) as real);
  }

  lemma RealChain(a: real, b: real, c: real, d: real)
    requires a <= b <= c <= d
    ensures a <= d
  {
  }

  /** A worked case: position 0, preferred delay 500 ms, speed 2.0 and a
      200 ms minimum interval give a 250 ms refresh. */
  lemma ProgressDelayAtDoubleSpeed(p: Player)
    requires p.isPlaying && p.speed == 2.0
    ensures ProgressDelayMs(Some(p), 0, Some(500), 200) == Some(250)
  {
    assert MediaTimeDelayMs(Some(500), 0) == 500;
    assert 500.0 / 2.0 == 250.0;
    assert Truncate(250.0) == 250;
  }
}

=== FILE: seeking.dfy ===
/** Seek arbitration: mapping a seek-bar position back to a window and a
    position in it, the seek-preview veto and the start-over floor, and the
    targets of rewind/fast-forward, previous and next. */
module Seeking {
  import opened Common
  import opened Media
  import opened Flattening

  /** Up to this position (ms) "previous" goes to the previous window
      rather than back to the start of the current one. */
  const MAX_POSITION_FOR_SEEK_TO_PREVIOUS: int := 3000

  /** The seek-preview collaborator: whether a position may be reached. */
  datatype SeekPreview = SeekPreview(allowSeeking: int -> bool)

  /** The start-over collaborator: the earliest position a viewer without
      start-over rights may seek to in a live window. */
  datatype StartOverListener = StartOverListener(startOverPositionMs: int)

  /** A (window, position) pair handed to the control dispatcher. */
  datatype SeekTarget = SeekTarget(windowIndex: nat, position: Time)

  /** What seekTo does with a request: notify the preview collaborator and
      stop, or hand a target to the dispatcher. */
  datatype SeekDecision = Blocked | Dispatch(target: SeekTarget)

  // ---------------------------------------------------------------------
  // Seek-bar position to (window, position)

  /** The sum of the windows' durations in milliseconds, window by window
      (each rounded down on its own, as getDurationMs does). */
  function SumMs(ws: seq<Window>): nat
    requires AllDurationsKnown(ws)
  {
    if |ws| == 0 then 0 else WindowDurationMs(ws[0]) + SumMs(ws[1..])
  }

  /** The walk of seekToTimeBarPosition from window i on: subtract window
      durations until the position falls inside a window, clamping to the
      end of the last window. The result names a window at or after i; the
      position is below that window's duration except on the last window,
      where it is at most that duration; a non-negative request stays
      non-negative. */
  function RemapFrom(t: Timeline, i: nat, positionMs: int): (r: SeekTarget)
    requires AllDurationsKnown(t) && i < |t|
    ensures i <= r.windowIndex < |t| && r.position.Ms?
    ensures r.position.ms <= WindowDurationMs(t[r.windowIndex])
    ensures r.windowIndex < |t| - 1 ==> r.position.ms < WindowDurationMs(t[r.windowIndex])
    ensures positionMs >= 0 ==> r.position.ms >= 0
    decreases |t| - i
  {
    var d := WindowDurationMs(t[i]);
    if positionMs < d then SeekTarget(i, Ms(positionMs))
    else if i == |t| - 1 then SeekTarget(i, Ms(d))
    else RemapFrom(t, i + 1, positionMs - d)
  }

  /** The loop of seekToTimeBarPosition in multi-window mode. */
  method RemapTimeBarPosition(t: Timeline, positionMs: int) returns (windowIndex: nat, windowPositionMs: int)
    requires |t| > 0 && AllDurationsKnown(t)
    ensures SeekTarget(windowIndex, Ms(windowPositionMs)) == RemapFrom(t, 0, positionMs)
    ensures windowIndex < |t|
    ensures windowPositionMs <= WindowDurationMs(t[windowIndex])
    ensures windowIndex < |t| - 1 ==> windowPositionMs < WindowDurationMs(t[windowIndex])
  {
    var windowCount := |t|;
    windowIndex := 0;
    windowPositionMs := positionMs;
    while true
      invariant windowIndex < windowCount
      invariant RemapFrom(t, windowIndex, windowPositionMs) == RemapFrom(t, 0, positionMs)
      decreases windowCount - windowIndex
    {
      var windowDurationMs := WindowDurationMs(t[windowIndex]);
      if windowPositionMs < windowDurationMs {
        break;
      } else if windowIndex == windowCount - 1 {
        // Seeking past the end of the last window seeks to the end of the timeline.
        windowPositionMs := windowDurationMs;
        break;
      }
      windowPositionMs := windowPositionMs - windowDurationMs;
      windowIndex := windowIndex + 1;
    }
  }

  /** Remapping inverts flattening: the bar position of a point inside
      window i (the durations before it plus the position in it) maps back
      to window i and that same position. */
  lemma RemapInvertsFlattening(t: Timeline, i: nat, positionMs: int)
    requires AllDurationsKnown(t) && i < |t|
    requires 0 <= positionMs < WindowDurationMs(t[i])
    ensures RemapFrom(t, 0, SumMs(t[..i]) + positionMs) == SeekTarget(i, Ms(positionMs))
  {
    RemapFromSuffix(t, 0, i, positionMs);
    assert t[0..i] == t[..i];
  }

  lemma {:induction false} RemapFromSuffix(t: Timeline, k: nat, i: nat, positionMs: int)
    requires AllDurationsKnown(t) && k <= i < |t|
    requires 0 <= positionMs < WindowDurationMs(t[i])
    ensures RemapFrom(t, k, SumMs(t[k..i]) + positionMs) == SeekTarget(i, Ms(positionMs))
    decreases i - k
  {
    if k < i {
      assert t[k..i][0] == t[k];
      assert t[k..i][1..] == t[k + 1..i];
      RemapFromSuffix(t, k + 1, i, positionMs);
    } else {
      assert t[k..i] == [];
    }
  }

  // ---------------------------------------------------------------------
  // Veto and start-over floor

  /** The numeric value the source compares: a known position, or the
      sentinel's long value for Unset. */
  function TimeValue(p: Time): int
  {
    if p.Ms? then p.ms else TIME_UNSET_VALUE
  }

  /** A forward seek the seek-preview collaborator declines. An unset
      position is never "ahead" of the current position. */
  predicate Declined(currentPositionMs: int, preview: Option<SeekPreview>, position: Time)
  {
    position.Ms? && position.ms > currentPositionMs
    && preview.Some? && !preview.value.allowSeeking(position.ms)
  }

  /** seekTo's arbitration, with the start-over floor applied to known
      positions only (see the as-written version below).
      A declined forward seek is blocked on a non-live window and becomes
      "unset" (the live edge) on a live one; without start-over rights, a
      known position in a live window is raised to the start-over position;
      everything else is dispatched unchanged to the requested window. */
  function ArbitrateSeek(currentPositionMs: int, currentWindowDynamic: bool,
                         preview: Option<SeekPreview>, startOver: Option<StartOverListener>,
                         hasStartOverRights: bool, windowIndex: nat, position: Time): (d: SeekDecision)
    ensures d.Blocked? <==> Declined(currentPositionMs, preview, position) && !currentWindowDynamic
    ensures d.Dispatch? ==> d.target.windowIndex == windowIndex
    ensures Declined(currentPositionMs, preview, position) && currentWindowDynamic ==>
              d == Dispatch(SeekTarget(windowIndex, Unset))
    ensures position.Unset? ==> d == Dispatch(SeekTarget(windowIndex, Unset))
    ensures position.Ms? && !Declined(currentPositionMs, preview, position) ==>
              d == Dispatch(SeekTarget(windowIndex,
                     if startOver.Some? && !hasStartOverRights && currentWindowDynamic
                     then Ms(Max(position.ms, startOver.value.startOverPositionMs))
                     else position))
  {
    var declined := Declined(currentPositionMs, preview, position);
    if declined && !currentWindowDynamic then Blocked
    else
      var p := if declined then Unset else position;
      var floored := startOver.Some? && !hasStartOverRights && currentWindowDynamic
                     && p.Ms? && startOver.value.startOverPositionMs > p.ms;
      Dispatch(SeekTarget(windowIndex, if floored then Ms(startOver.value.startOverPositionMs) else p))
  }

  /** seekTo's arbitration exactly as written, on the long values the source
      compares (an unset target is the sentinel's value): the start-over
      floor is applied to the sentinel too, which lies far below any
      start-over position. */
  function ArbitrateSeekAsWritten(currentPositionMs: int, currentWindowDynamic: bool,
                                  preview: Option<SeekPreview>, startOver: Option<StartOverListener>,
                                  hasStartOverRights: bool, windowIndex: nat, position: Time): (d: SeekDecision)
    ensures d.Blocked? <==>
              TimeValue(position) > currentPositionMs && preview.Some?
              && !preview.value.allowSeeking(TimeValue(position)) && !currentWindowDynamic
    ensures d.Dispatch? ==> d.target.windowIndex == windowIndex
    ensures d.Dispatch? && startOver.Some? && !hasStartOverRights && currentWindowDynamic ==>
              TimeValue(d.target.position) >= startOver.value.startOverPositionMs
    // A known position above the sentinel that is not declined: the floor
    // raises it in a live window without rights, otherwise it is kept.
    ensures position.Ms? && position.ms > TIME_UNSET_VALUE && !Declined(currentPositionMs, preview, position) ==>
              d == Dispatch(SeekTarget(windowIndex,
                     if startOver.Some? && !hasStartOverRights && currentWindowDynamic
                     then Ms(Max(position.ms, startOver.value.startOverPositionMs))
                     else position))
    // A declined forward seek in a live window: the live edge, except that
    // the floor replaces it by the start-over position.
    ensures Declined(currentPositionMs, preview, position) && currentWindowDynamic ==>
              if startOver.Some? && !hasStartOverRights && startOver.value.startOverPositionMs > TIME_UNSET_VALUE
              then d == Dispatch(SeekTarget(windowIndex, Ms(startOver.value.startOverPositionMs)))
              else d == Dispatch(SeekTarget(windowIndex, Unset))
  {
    var positionMs := TimeValue(position);
    var vetoed := positionMs > currentPositionMs && preview.Some? && !preview.value.allowSeeking(positionMs);
    if vetoed && !currentWindowDynamic then Blocked
    else
      var p := if vetoed then TIME_UNSET_VALUE else positionMs;
      var dispatched := if startOver.Some? && !hasStartOverRights && startOver.value.startOverPositionMs > p
                           && currentWindowDynamic
                        then startOver.value.startOverPositionMs else p;
      Dispatch(SeekTarget(windowIndex, if dispatched == TIME_UNSET_VALUE then Unset else Ms(dispatched)))
  }

  /** The two versions agree whenever the floor is not in play, or the
      requested position is a known one that is not declined (positions
      reported by the player lie above the sentinel). */
  lemma ArbitrationAgreesOffTheUnsetPath(currentPositionMs: int, currentWindowDynamic: bool,
                                         preview: Option<SeekPreview>, startOver: Option<StartOverListener>,
                                         hasStartOverRights: bool, windowIndex: nat, position: Time)
    requires currentPositionMs > TIME_UNSET_VALUE
    requires position.Ms? ==> position.ms > TIME_UNSET_VALUE
    requires startOver.Some? ==> startOver.value.startOverPositionMs > TIME_UNSET_VALUE
    requires startOver.None? || hasStartOverRights || !currentWindowDynamic
             || (position.Ms? && !Declined(currentPositionMs, preview, position))
    ensures ArbitrateSeekAsWritten(currentPositionMs, currentWindowDynamic, preview, startOver,
                                   hasStartOverRights, windowIndex, position)
            == ArbitrateSeek(currentPositionMs, currentWindowDynamic, preview, startOver,
                             hasStartOverRights, windowIndex, position)
  {
  }

  /** As written, every declined forward seek in a live window, for a
      viewer without start-over rights, is sent to the start-over position
      (the oldest point of the live window) instead of the live edge; the
      corrected version sends it to the live edge. This is the path the
      seek bar (onScrubStop) and fast-forward reach. */
  lemma DeclinedLiveSeekLandsOnStartOver(currentPositionMs: int, preview: Option<SeekPreview>,
                                         startOverPositionMs: int, windowIndex: nat, positionMs: int)
    requires currentPositionMs > TIME_UNSET_VALUE && startOverPositionMs > TIME_UNSET_VALUE
    requires Declined(currentPositionMs, preview, Ms(positionMs))
    ensures ArbitrateSeekAsWritten(currentPositionMs, true, preview, Some(StartOverListener(startOverPositionMs)),
                                   false, windowIndex, Ms(positionMs))
            == Dispatch(SeekTarget(windowIndex, Ms(startOverPositionMs)))
    ensures ArbitrateSeek(currentPositionMs, true, preview, Some(StartOverListener(startOverPositionMs)),
                          false, windowIndex, Ms(positionMs))
            == Dispatch(SeekTarget(windowIndex, Unset))
  {
  }

  /** The first example of the declined-seek path: current position 1000,
      a request for 5000 that the preview declines, start-over position 0. */
  lemma DeclinedLiveSeekExample()
    ensures var preview := Some(SeekPreview(_ => false));
            var startOver := Some(StartOverListener(0));
            && ArbitrateSeekAsWritten(1000, true, preview, startOver, false, 0, Ms(5000))
               == Dispatch(SeekTarget(0, Ms(0)))
            && ArbitrateSeek(1000, true, preview, startOver, false, 0, Ms(5000))
               == Dispatch(SeekTarget(0, Unset))
  {
    DeclinedLiveSeekLandsOnStartOver(1000, Some(SeekPreview(_ => false)), 0, 0, 5000);
  }

  /** As written, every "unset" target in a live window, for a viewer
      without start-over rights, is dispatched as the start-over position
      instead of the default position. In the controller only the private,
      uncalled previous and next request unset targets. */
  lemma UnsetTargetRaisedToStartOver(currentPositionMs: int, preview: Option<SeekPreview>,
                                     startOverPositionMs: int, windowIndex: nat)
    requires currentPositionMs > TIME_UNSET_VALUE && startOverPositionMs > TIME_UNSET_VALUE
    ensures ArbitrateSeekAsWritten(currentPositionMs, true, preview, Some(StartOverListener(startOverPositionMs)),
                                   false, windowIndex, Unset)
            == Dispatch(SeekTarget(windowIndex, Ms(startOverPositionMs)))
    ensures ArbitrateSeek(currentPositionMs, true, preview, Some(StartOverListener(startOverPositionMs)),
                          false, windowIndex, Unset)
            == Dispatch(SeekTarget(windowIndex, Unset))
  {
  }

  // ---------------------------------------------------------------------
  // Targets of the transport actions

  /** seekToOffset: the current position moved by the offset, capped at the
      duration when it is known, and never below 0. It is the point of
      [0, duration] nearest to the moved position. */
  function SeekToOffsetPosition(currentPositionMs: int, durationMs: Option<nat>, offsetMs: int): (r: int)
    ensures r >= 0
    ensures durationMs.Some? ==> r <= durationMs.value
    ensures 0 <= currentPositionMs + offsetMs
            && (durationMs.None? || currentPositionMs + offsetMs <= durationMs.value)
            ==> r == currentPositionMs + offsetMs
    ensures currentPositionMs + offsetMs < 0 ==> r == 0
    ensures durationMs.Some? && currentPositionMs + offsetMs > durationMs.value ==> r == durationMs.value
  {
    var positionMs := currentPositionMs + offsetMs;
    var capped := if durationMs.Some? then Min(positionMs, durationMs.value) else positionMs;
    Max(capped, 0)
  }

  /** previous: nothing on an empty timeline or during an ad; the previous
      window's default position when there is one and either playback is
      within the first 3 seconds or the current window is live and not
      seekable; otherwise the start of the current window. */
  function PreviousTarget(p: Player): (r: Option<SeekTarget>)
    requires p.Valid()
    ensures r.None? <==> |p.timeline| == 0 || p.isPlayingAd
    // Only two targets exist: a previous window's default position, or the
    // start of the current window.
    ensures r.Some? && r.value.position.Unset? ==>
              p.previousWindowIndex.Some? && r.value.windowIndex == p.previousWindowIndex.value
    ensures r.Some? && r.value.position.Ms? ==> r.value == SeekTarget(p.currentWindowIndex, Ms(0))
    // Without a previous window it always restarts the current one.
    ensures r.Some? && p.previousWindowIndex.None? ==> r.value.position == Ms(0)
    // Within the first 3 seconds, or on a live unseekable window, it goes back.
    ensures r.Some? && p.previousWindowIndex.Some? && p.currentPositionMs <= MAX_POSITION_FOR_SEEK_TO_PREVIOUS ==>
              r.value.position == Unset
    ensures r.Some? && p.previousWindowIndex.Some?
            && p.timeline[p.currentWindowIndex].isDynamic && !p.timeline[p.currentWindowIndex].isSeekable ==>
              r.value.position == Unset
    // Past 3 seconds, in a window that is seekable or not live, it restarts.
    ensures r.Some? && p.currentPositionMs > MAX_POSITION_FOR_SEEK_TO_PREVIOUS
            && (p.timeline[p.currentWindowIndex].isSeekable || !p.timeline[p.currentWindowIndex].isDynamic) ==>
              r.value.position == Ms(0)
  {
    if |p.timeline| == 0 || p.isPlayingAd then None
    else
      var w := p.timeline[p.currentWindowIndex];
      if p.previousWindowIndex.Some?
         && (p.currentPositionMs <= MAX_POSITION_FOR_SEEK_TO_PREVIOUS || (w.isDynamic && !w.isSeekable))
      then Some(SeekTarget(p.previousWindowIndex.value, Unset))
      else Some(SeekTarget(p.currentWindowIndex, Ms(0)))
  }

  /** next: the next window's default position; on the last window of a live
      timeline, the current window's default position again (which moves to
      the live edge); nothing on an empty timeline, during an ad, or on the
      last window of a non-live timeline. The target is always "unset". */
  function NextTarget(p: Player): (r: Option<SeekTarget>)
    requires p.Valid()
    ensures r.Some? <==>
              |p.timeline| > 0 && !p.isPlayingAd
              && (p.nextWindowIndex.Some? || p.timeline[p.currentWindowIndex].isDynamic)
    ensures r.Some? ==> r.value.position == Unset
    ensures r.Some? && p.nextWindowIndex.Some? ==> r.value.windowIndex == p.nextWindowIndex.value
    ensures r.Some? && p.nextWindowIndex.None? ==> r.value.windowIndex == p.currentWindowIndex
  {
    if |p.timeline| == 0 || p.isPlayingAd then None
    else if p.nextWindowIndex.Some? then Some(SeekTarget(p.nextWindowIndex.value, Unset))
    else if p.timeline[p.currentWindowIndex].isDynamic then Some(SeekTarget(p.currentWindowIndex, Unset))
    else None
  }
}

=== FILE: spannable.dfy ===
/** The styled-text helpers: a text coloured in two tones split at the
    first occurrence of a separator, and a text with its first occurrence
    of a phrase made a link or a clickable span. A styled text is the text
    together with the spans set on it; the spans' rendering is the
    platform's. */
module Spans {
  import opened Common

  /** What a span does to its range. */
  datatype SpanKind =
    | ForegroundColor(color: int)
    | UrlLink(url: string)
    /** A clickable span that runs the caller's callback. */
    | Clickable

  /** How a span's ends behave when text is inserted at them. */
  datatype SpanFlags = ExclusiveExclusive | InclusiveExclusive

  /** A span over the characters [start, end). */
  datatype Span = Span(kind: SpanKind, start: int, end: int, flags: SpanFlags)

  datatype Styled = Styled(text: string, spans: seq<Span>)

  /** `pattern` occurs in `text` at index i. */
  predicate OccursAt(text: string, pattern: string, i: int)
  {
    0 <= i && i + |pattern| <= |text| && text[i..i + |pattern|] == pattern
  }

  /** The search behind String.indexOf, from index `from` on: the first
      occurrence at or after `from`, or -1 when there is none. */
  function IndexFrom(text: string, pattern: string, from: nat): (r: int)
    decreases |text| - from
    ensures r == -1 || (from <= r && OccursAt(text, pattern, r))
    ensures r == -1 ==> forall i :: from <= i ==> !OccursAt(text, pattern, i)
    ensures r != -1 ==> forall i :: from <= i < r ==> !OccursAt(text, pattern, i)
  {
    if from + |pattern| > |text| then -1
    else if text[from..from + |pattern|] == pattern then from
    else IndexFrom(text, pattern, from + 1)
  }

  /** String.indexOf: the first index at which `pattern` occurs in `text`,
      or -1 when it occurs nowhere. An empty pattern occurs at 0. */
  function IndexOf(text: string, pattern: string): (r: int)
    ensures r == -1 <==> forall i :: !OccursAt(text, pattern, i)
    ensures r != -1 ==> OccursAt(text, pattern, r) && forall i :: 0 <= i < r ==> !OccursAt(text, pattern, i)
    ensures |pattern| == 0 ==> r == 0
  {
    IndexFrom(text, pattern, 0)
  }

  /** The character at `i` lies in the span. */
  predicate Covers(s: Span, i: int)
  {
    s.start <= i < s.end
  }

  /** The spans split [0, n) into consecutive ranges, in order. */
  predicate Partitions(spans: seq<Span>, n: int)
  {
    && |spans| > 0
    && spans[0].start == 0
    && spans[|spans| - 1].end == n
    && (forall k :: 0 <= k < |spans| ==> spans[k].start <= spans[k].end)
    && (forall k :: 0 <= k < |spans| - 1 ==> spans[k].end == spans[k + 1].start)
  }

  /** twoTone: with no separator in the text, one span in the first colour
      over the whole text; otherwise the first colour up to the separator's
      first occurrence and the second colour from it to the end. */
  function TwoTone(firstColor: int, secondColor: int, separator: string, text: string): (r: Styled)
    ensures r.text == text
    ensures Partitions(r.spans, |text|)
    ensures forall k :: 0 <= k < |r.spans| ==> r.spans[k].flags == ExclusiveExclusive
    ensures r.spans[0].kind == ForegroundColor(firstColor)
    ensures |r.spans| == 1 <==> forall i :: !OccursAt(text, separator, i)
    ensures |r.spans| == 2 ==>
              && r.spans[1].kind == ForegroundColor(secondColor)
              && OccursAt(text, separator, r.spans[1].start)
              && forall i :: 0 <= i < r.spans[1].start ==> !OccursAt(text, separator, i)
    ensures |r.spans| <= 2
  {
    var index := IndexOf(text, separator);
    if index == -1 then
      Styled(text, [Span(ForegroundColor(firstColor), 0, |text|, ExclusiveExclusive)])
    else
      Styled(text, [Span(ForegroundColor(firstColor), 0, index, ExclusiveExclusive),
                    Span(ForegroundColor(secondColor), index, |text|, ExclusiveExclusive)])
  }

  /** In a partition, every span ends no later than any later one starts. */
  lemma {:induction false} PartitionOrdered(spans: seq<Span>, n: int, k: int, l: int)
    requires Partitions(spans, n)
    requires 0 <= k < l < |spans|
    ensures spans[k].end <= spans[l].start
    decreases l - k
  {
    if l == k + 1 {
    } else {
      PartitionOrdered(spans, n, k, l - 1);
      assert spans[l - 1].end == spans[l].start;
    }
  }

  /** Some span of a partition covers each position of [0, n). */
  lemma {:induction false} PartitionCovers(spans: seq<Span>, n: int, i: int)
    requires Partitions(spans, n)
    requires 0 <= i < n
    ensures exists k :: 0 <= k < |spans| && Covers(spans[k], i)
    decreases |spans|
  {
    var last := |spans| - 1;
    if spans[last].start <= i {
      assert Covers(spans[last], i);
    } else {
      var init := spans[..last];
      assert Partitions(init, spans[last].start) by {
        assert init[|init| - 1] == spans[last - 1];
      }
      PartitionCovers(init, spans[last].start, i);
      var k :| 0 <= k < |init| && Covers(init[k], i);
      assert Covers(spans[k], i);
    }
  }

  /** Each character of a two-tone text gets exactly one colour. */
  lemma TwoToneColoursEachCharacterOnce(firstColor: int, secondColor: int, separator: string,
                                        text: string, i: int)
    requires 0 <= i < |text|
    ensures var spans := TwoTone(firstColor, secondColor, separator, text).spans;
            && (exists k :: 0 <= k < |spans| && Covers(spans[k], i))
            && (forall k, l :: 0 <= k < |spans| && 0 <= l < |spans| && Covers(spans[k], i) && Covers(spans[l], i)
                  ==> k == l)
  {
    var spans := TwoTone(firstColor, secondColor, separator, text).spans;
    PartitionCovers(spans, |text|, i);
    forall k, l | 0 <= k < |spans| && 0 <= l < |spans| && Covers(spans[k], i) && Covers(spans[l], i)
      ensures k == l
    {
      if k < l {
        PartitionOrdered(spans, |text|, k, l);
      } else if l < k {
        PartitionOrdered(spans, |text|, l, k);
      }
    }
  }

  /** The shared body of both url overloads: one span of the given kind
      over the first occurrence of `textToHighlight`. When the phrase does
      not occur, the start is -1 and setting the span fails (None). */
  function Highlight(text: string, textToHighlight: string, kind: SpanKind): (r: Option<Styled>)
    ensures r.None? <==> forall i :: !OccursAt(text, textToHighlight, i)
    ensures r.Some? ==>
              && r.value.text == text
              && |r.value.spans| == 1
              && var s := r.value.spans[0];
                 && s.kind == kind && s.flags == InclusiveExclusive
                 && s.end - s.start == |textToHighlight|
                 && 0 <= s.start && s.end <= |text|
                 && text[s.start..s.end] == textToHighlight
                 && forall i :: 0 <= i < s.start ==> !OccursAt(text, textToHighlight, i)
  {
    var urlStart := IndexOf(text, textToHighlight);
    if urlStart == -1 then None
    else Some(Styled(text, [Span(kind, urlStart, urlStart + |textToHighlight|, InclusiveExclusive)]))
  }

  /** url(text, textToHighlight, url): the first occurrence becomes a link
      to `url`. */
  function Url(text: string, textToHighlight: string, url: string): (r: Option<Styled>)
    ensures r.None? <==> forall i :: !OccursAt(text, textToHighlight, i)
    ensures r.Some? ==>
              && |r.value.spans| == 1 && r.value.spans[0].kind == UrlLink(url)
              && r.value.spans[0].start == IndexOf(text, textToHighlight)
              && r.value.spans[0].end == r.value.spans[0].start + |textToHighlight|
  {
    Highlight(text, textToHighlight, UrlLink(url))
  }

  /** url(text, textToHighlight, onClick): the first occurrence becomes
      clickable. */
  function ClickableUrl(text: string, textToHighlight: string): (r: Option<Styled>)
    ensures r.None? <==> forall i :: !OccursAt(text, textToHighlight, i)
    ensures r.Some? ==>
              && |r.value.spans| == 1 && r.value.spans[0].kind == Clickable
              && r.value.spans[0].start == IndexOf(text, textToHighlight)
              && r.value.spans[0].end == r.value.spans[0].start + |textToHighlight|
  {
    Highlight(text, textToHighlight, Clickable)
  }
}
